=== FILE: README.md ===
# ftwcm-shop catalogue and cart services, modelled in Dafny

This project models the service layer of a small PHP shop. It covers these services:

- **Category**: the category rows and their `category_path` closure table.
- **Cart**: cart lines, and the points and stock figures derived from them.
- **Product**: the product row and its category, store, attribute and option link rows.
- **Option**: an option and its value rows.
- **Manufacturer, AttributeGroup, Store and Attribute**: single-table services.

Every service call is a pure function from the tables it reads to the tables it writes. A failure returns the code of the exception the service throws: 400 for invalid input, 404 for an unknown id.

The category path table is the centre of the model.

- **The table.** It is a sequence of `(category, path, level)` rows in insertion order, with no unique key. Each category holds one row per category on the way from its top-most ancestor down to itself.
- **Reading a path.** A path is read back with a stable sort by level.
- **Consistency.** `PathConsistency.Consistent` says when such a table describes a tree: every category's levels run from 0, its own row comes last, and its path agrees with its ancestors' paths.
- **What is proved.**
  - `create` keeps a consistent table consistent.
  - The `update` rewrite, done as the service does it, corrupts the table (see Findings).
  - The corrected rewrite moves the subtree, keeps the table consistent, leaves the table unchanged when the parent does not change, and is undone by moving back.

Three service operations exist in two versions, because the code as written has a defect (see Findings):

- **Category update.** `CategoryService.UpdateAsWritten` is the code as written; `CategoryService.Update` uses the corrected rewrite.
- **Product create.** `ProductService.CreateAsWritten` is the code as written; `ProductService.Create` and `ProductService.NewProduct` read the weight from `weight`.
- **Cart stock.** `getProducts` takes a `StockRule`: `AsWritten` is the code as written, `Corrected` is the intended test.

The properties of the corrected versions are stated for them; the lemmas on the as-written versions show where they fail.

Modules:

| file | module | what |
|---|---|---|
| seqs.dfy | `Seqs` | order-preserving filters (a `WHERE` over a table), grouping rows by owner, replacing one owner's rows |
| php.dfy | `Php` | PHP values: truthiness, `mb_strlen`, `(int)`, loose `in_array`, `strtolower` |
| records.dfy | `Records` | rows, `load`/404, the update merge, the name check, create/update/delete, the `list` sort whitelist |
| category_path.dfy | `CategoryPath` | the path table, path reads, the create attach, the update rewrite loop |
| path_consistency.dfy | `PathConsistency` | tree consistency and what create and both rewrites do to it |
| category.dfy | `CategoryService` | `Category` create/update/delete/list |
| manufacturer.dfy, attribute_group.dfy, store.dfy, attribute.dfy | `*Service` | the single-table services |
| option.dfy | `OptionService` | `Option` create/update/list |
| product.dfy | `ProductService` | `Product` create/update/list |
| cart.dfy | `CartService` | `Cart` addToCart/updateCart/removeFromCart/getProducts |

PHP semantics follow PHP 7, the version the framework targets:

- A string compared with an integer reads as the number at its front: whitespace, an optional sign, digits with an optional fraction, an optional exponent. A string with no number there reads as 0.
- `(int)` truncates that number toward zero. So `"0.5"` casts to 0 but compares above 0, and `"1e3"` casts to 1000.
- The `<= 0` and `< 0` checks on `group_id` and `parent_id` compare the value itself, not its cast (`Php.Sign`).
- `in_array('x', ...)` without the strict flag therefore accepts the integer 0 for any word.

Facts about the category code that the model keeps:

- Levels count from 0 at the top-most ancestor, so a category's own row carries the highest level (src/Category.php:88-111).
- Neither `create` nor `update` checks that the parent exists (src/Category.php:72, src/Category.php:189). `update` does not refuse a move under its own subtree. The consistency lemmas take "the new parent lies outside the subtree" as a precondition.
- `delete` removes only the category row. Its path rows and its descendants stay (src/Category.php:318-338).
- The rewrite does not replace a category's old rows (src/Category.php:224-266; Findings, row 1).

## Model

| member | source | states |
|---|---|---|
| Php.LooseEqualsLetterWord | src/Option.php:47-59 | a loose comparison with a word starting with a letter holds exactly for the integer 0 and the word itself |
| Php.InArrayLooseLetterWords | src/Product.php:132 | loose `in_array` over letter words accepts exactly the integer 0 (for a non-empty list) and the listed words |
| Php.LowerIsDesc | src/Category.php:365-367 | `strtolower($order) === 'desc'` holds for exactly the 16 letter-case spellings of "desc" |
| Php.SignAndCast | src/Attribute.php:63 | the comparison with 0 and the cast never disagree in direction: a cast above 0 (below 0) means the value compares above 0 (below 0), and for integers the two coincide |
| Php.HalfAboveZero | src/Attribute.php:146 | `"0.5"` compares above 0, yet casts to 0 |
| Php.HalfBelowZero | src/Category.php:189 | `"-0.5"` compares below 0, yet casts to 0 |
| Php.ExponentCast | src/Product.php:286 | `(int) "1e3"` is 1000, and `"1e3"` compares above 0 |
| Php.DigitCountBounds | src/Category.php:68-70 | the digit count `mb_strlen` uses for an integer name is the length of its decimal numeral: the integer lies below 10^k and, unless it is 0, at or above 10^(k-1) |
| Records.NameOkMeans | src/Manufacturer.php:55-61 | the name check passes iff the name is present, not null, 0, "" or "0", and within the length limit |
| Records.Merge | src/Manufacturer.php:142-148 | the merge keeps the row's columns and its id; a column changes only to a non-null request value for that key; every such value is taken |
| Records.MergeIdempotent | src/Manufacturer.php:142-148 | merging the same request twice is merging it once |
| Records.MergeIgnores | src/Manufacturer.php:144-146 | a request holding only "id", null values and unknown keys changes nothing |
| Records.View | src/Manufacturer.php:108-117 | `view` fails with 404 iff the id is unknown, else returns that row |
| Records.Delete | src/Manufacturer.php:168-190 | `delete` fails with 404 iff the id is unknown; otherwise exactly that row goes |
| Records.DeleteThenView | src/Manufacturer.php:168-190 | after a delete, `view` of the id is 404 and every other id reads as before |
| Records.Defaults | src/Manufacturer.php:50-52 | each assigned column holds the request's non-null value, or the default when the request has none |
| Records.CreateRecord | src/Manufacturer.php:48-74 | create fails with 400 iff a check fails; otherwise it adds exactly the new id, holding the built row, and keeps every other row |
| Records.CreateThenView | src/Manufacturer.php:48-74 | after a create, `view` of the new id returns the built row with the id; other ids read as before |
| Records.UpdateRecord | src/Manufacturer.php:126-161 | update fails with 404 for an unknown id, else with 400 iff a check fails; otherwise only that row changes, keeping its columns and id |
| Records.UpdateIdempotent | src/Manufacturer.php:126-161 | repeating an accepted update with the same request changes nothing |
| Records.UpdateThenView | src/Manufacturer.php:142-148 | after an update each column reads the request's non-null value (except "id") or its old value |
| Records.ListOrder | src/Manufacturer.php:199-208 | a listing is ordered only by a whitelisted column, descending iff `order` is "desc" in any case |
| Records.ListOrderWhitelist | src/Manufacturer.php:201-203 | for whitelists of real column names, a listing is ordered iff `sort` is in the whitelist |
| ManufacturerService.Create | src/Manufacturer.php:48-74 | fails with 400 iff the name is falsy or over 64; otherwise it adds exactly the new row, holding the name, image (default '') and sort order (default 0), and every other row stays as it was |
| ManufacturerService.Update | src/Manufacturer.php:126-161 | 404 for an unknown id, 400 iff the name is empty or over 64, otherwise the merged row |
| ManufacturerService.ListOrder | src/Manufacturer.php:199-208 | ordered iff `sort` is name or sort_order |
| ManufacturerService.CreateAndUpdateAgreeOnNames | src/Manufacturer.php:55-61 | create and update accept exactly the same names |
| AttributeGroupService.Create | src/AttributeGroup.php:48-73 | fails with 400 iff the name is falsy or over 64; otherwise it adds exactly the new row, holding the name and sort order (default 0), and every other row stays as it was |
| AttributeGroupService.Update | src/AttributeGroup.php:125-160 | 404 for an unknown id, 400 iff the name is empty or over 64, otherwise the merged row |
| AttributeGroupService.ListOrder | src/AttributeGroup.php:198-207 | ordered iff `sort` is name or sort_order |
| StoreService.Create | src/Store.php:49-73 | fails with 400 iff the name is falsy or over 64; otherwise it adds exactly the new row, holding the name, and every other row stays as it was |
| StoreService.Update | src/Store.php:125-160 | 404 for an unknown id, 400 iff the name is empty or over 64, otherwise the merged row |
| AttributeService.Create | src/Attribute.php:48-78 | fails with 400 iff the name is falsy or over 64, or `group_id` is missing or does not compare above 0; otherwise it adds exactly the new row, holding name, group and sort order, and every other row stays as it was |
| AttributeService.Update | src/Attribute.php:130-169 | 404 for an unknown id; 400 iff the name is empty or over 64, or the request's `group_id` is missing or does not compare above 0 |
| AttributeService.UpdateKeepsGroup | src/Attribute.php:146-156 | after an accepted update the attribute's stored group compares above 0 |
| AttributeService.FractionalGroupAccepted | src/Attribute.php:52-63 | a group that compares above 0 but casts to 0, such as `"0.5"`, passes the create check and is stored |
| AttributeService.ListOrder | src/Attribute.php:207-216 | ordered iff `sort` is name, group_id or sort_order |
| OptionService.NewValues | src/Option.php:66-73 | one value row per requested entry, in order; its name defaults to the option's name, its image to '' and its sort order to 0 |
| OptionService.Create | src/Option.php:32-88 | fails with 400 iff the name is falsy or over 64, or the type is not loosely one of the nine types; otherwise the option row and its value rows are added, and every other option row stays as it was |
| OptionService.TypeCheckMeans | src/Option.php:47-59 | the type check accepts the nine type names and the integer 0, and refuses "image" |
| OptionService.CreateValues | src/Option.php:62-75 | after create the new option has exactly the requested values; every other option keeps its values |
| OptionService.Update | src/Option.php:139-194 | 404 for an unknown id, 400 iff the name is empty or over 64 (no type check); otherwise the merged row, with the option's value rows last |
| OptionService.UpdateValues | src/Option.php:166-179 | after update the option has exactly the requested values, whatever it had before; other options keep theirs |
| OptionService.UpdateTwice | src/Option.php:139-194 | a repeated update leaves the option row unchanged and gives it the same values again, under fresh ids |
| OptionService.ListOrder | src/Option.php:243-252 | ordered iff `sort` is name, type or sort_order |
| ProductService.NewProduct | src/Product.php:58-86 | corrected (Findings row 3): every column of the new product is the request's non-null value for its own key, or its default; the weight comes from `weight` |
| ProductService.NewProductDefaults | src/Product.php:69-86 | absent fields take minimum, subtract and shipping 1, today's date, and 0 or '' elsewhere |
| ProductService.NewProductAsWritten | src/Product.php:79-81 | as written, the stored weight is the request's height (default 0) |
| ProductService.WeightFromHeight | src/Product.php:81 | a request with weight 5 and no height stores weight 0 as written, and 5 when corrected |
| ProductService.WeightIgnoresWeight | src/Product.php:81 | as written the stored weight does not depend on the request's weight; corrected, it is that weight |
| ProductService.CategoryLinks | src/Product.php:109-114 | one category link per requested id, in order, with the id cast to int |
| ProductService.StoreLinks | src/Product.php:116-121 | one store link per requested id, in order, with the id cast to int |
| ProductService.AttributeLinks | src/Product.php:123-129 | one attribute link per entry, in order, with its id cast to int and its text as given |
| ProductService.ValueRows | src/Product.php:140-154 | one option value row per requested value, with the casts the service applies; on create the k-th value takes the k-th next id; on update a value keeps its requested id, and one without an id (null, 0 or "0") takes the next id not taken by an earlier such value |
| ProductService.FreshValueIds | src/Product.php:292-307 | on update, two values inserted without an id take distinct ids, none below the counter and all below the counter plus the number of such values |
| ProductService.SaveOne | src/Product.php:132-163 | a choice type with values writes an option row without `value`, plus one row per value; any other type writes an option row holding `value` and no value rows; on create the option takes the next id, on update its requested id, or the next id when `product_option_id` casts to 0 |
| ProductService.Dispatch | src/Product.php:131-164 | one saved option per writing entry, in order, all of the product; on create the option ids run on from the counter |
| ProductService.DispatchEach | src/Product.php:282-319 | the k-th saved option is the k-th writing entry, saved under the counters the earlier writing entries leave |
| ProductService.CountersAfterRequested | src/Product.php:286-290 | on update the option counter moves once per entry inserted without an option id |
| ProductService.FreshOptionIds | src/Product.php:282-319 | on update, two options inserted without an id take distinct, increasing ids from the counter, and each one's value rows point at it |
| ProductService.DispatchNamed | src/Product.php:282-319 | a request that names every option and value id is saved the same whatever the counters |
| ProductService.DispatchSkips | src/Product.php:132-133 | entries of a choice type without `product_option_value` write nothing |
| ProductService.DispatchOwned | src/Product.php:131-164 | every option and value row written belongs to the product |
| ProductService.Stored | migrations/create_shop_tables.php:58-71 | the saved row is the built row plus `points` and `viewed` at the table default 0 |
| ProductService.Save | src/Product.php:88-107 | fails with 400 iff the built row fails the checks; otherwise it adds the stored row under the new id and every requested link row |
| ProductService.SaveSets | src/Product.php:58-107 | changing one unchecked column of the built row changes only that column of the saved product |
| ProductService.Create | src/Product.php:56-180 | corrected (Findings row 3): fails with 400 iff the name is falsy or over 255, or the model is falsy or over 64; otherwise it saves the product row, with `points` and `viewed` 0, and the requested links |
| ProductService.CreateAsWritten | src/Product.php:56-180 | as written: accepted exactly when `Create` is, saving the same rows except that the weight is the request's height |
| ProductService.CreateStoresWeight | src/Product.php:81 | corrected (Findings row 3): the created product's weight is the request's weight, 0 by default |
| ProductService.CreateDropsWeight | src/Product.php:81 | a product created without a height is saved with weight 0 as written, and with the request's weight when corrected |
| ProductService.CreateLinks | src/Product.php:107-164 | after create the product is linked to exactly what the request names; other products keep their links |
| ProductService.Update | src/Product.php:204-335 | 404 for an unknown id; 400 iff the request's name is empty or over 255, or the STORED model is falsy or over 64; otherwise the merged row, with option and value rows under the requested ids or the next ones |
| ProductService.UpdateLinks | src/Product.php:241-319 | after update the product is linked to exactly what the request names, whatever it had; other products keep their links |
| ProductService.UpdateIgnoresRequestModel | src/Product.php:220-226 | whether update is accepted does not depend on the request's model |
| ProductService.UpdateStoresEmptyModel | src/Product.php:220-234 | an update accepted with some request is also accepted with an empty model, and then stores "" |
| ProductService.UpdateIdempotent | src/Product.php:204-335 | repeating an accepted update whose merged model still passes changes nothing, when it draws from the same counters or names every option and value id |
| ProductService.CreateThenUpdatePoints | src/Product.php:230-234 | a created product has 0 points whatever the request says; an update giving points stores them |
| ProductService.ListOrder | src/Product.php:371-380 | ordered iff `sort` is name, model, price, quantity, status or sort_order |
| CategoryPath.Ids | src/Category.php:97-104 | the path ids of the rows, in the rows' order |
| CategoryPath.SortByLevelSpec | src/Category.php:92-95 | reading with `orderBy('level')` returns the same rows (as a multiset), ordered by level |
| CategoryPath.SortByLevelStable | src/Category.php:92-95 | rows of equal level keep their table order |
| CategoryPath.PathRowsForSpec | src/Category.php:256-266 | rows written from a list of ids carry those ids, with levels from 0, all of the one category |
| CategoryPath.RowsOfDropBelow | src/Category.php:225-231 | deleting a category's rows below a level touches only that category, and keeps its rows at or above the level |
| CategoryPath.Attach | src/Category.php:88-111 | create appends rows to the table and leaves the old rows in place |
| CategoryPath.AttachRows | src/Category.php:88-111 | the new category's path is the parent's path followed by itself; with a rowless parent its only row is `(id, id, 0)`; other categories keep their rows |
| CategoryPath.Snapshot | src/Category.php:217-221 | every row of the snapshot has the updated category as its path id |
| CategoryPath.Step | src/Category.php:224-266 | one pass of the rewrite loop adds at most the parent's and the category's row counts to the table |
| CategoryPath.StepRowsOf | src/Category.php:224-266 | one pass rewrites only its category: from the parent's current path and the category's surviving rows |
| CategoryPath.Find | src/Category.php:217-224 | finds the snapshot row of a category, or reports that there is none |
| CategoryPath.FoldRowsOf | src/Category.php:224-266 | over a snapshot naming each category once and never the parent, each named category is rewritten once from its original rows; the others keep theirs |
| CategoryPath.StepKeepsOthers | src/Category.php:224-266 | one pass leaves every other category's rows alone |
| CategoryPath.FoldKeepsUnnamed | src/Category.php:224-266 | a category the snapshot does not name keeps its rows through the loop |
| PathConsistency.WellLevelledRows | src/Category.php:92-95 | in a well-levelled table a category's rows are those of its path, and the sorted read is the table-order read |
| PathConsistency.ChainDistinct | src/Category.php:88-111 | in a consistent table no category occurs twice on a path |
| PathConsistency.SnapshotMember | src/Category.php:217-221 | a row is in the snapshot iff it is the row at the updated category's position of a category below it, and it is there once |
| PathConsistency.SnapshotFind | src/Category.php:217-221 | the snapshot names a category iff the updated category is on its path |
| PathConsistency.SnapshotDistinct | src/Category.php:217-221 | the snapshot names each category at most once |
| PathConsistency.MoveSubtreeRows | src/Category.php:224-266 | the corrected rewrite leaves each category exactly the rows of its moved path |
| PathConsistency.MoveSubtreePath | src/Category.php:224-266 | after the corrected rewrite a category below the updated one has the new parent's path followed by its path from the updated category down; other paths are unchanged |
| PathConsistency.MoveSubtreeConsistent | src/Category.php:224-266 | the corrected rewrite keeps a consistent table consistent |
| PathConsistency.RewriteSubtreeRows | src/Category.php:224-266 | the rewrite as written leaves a moved category its old rows from the updated category down, followed by the rows of its moved path |
| PathConsistency.RewriteSubtreeDuplicates | src/Category.php:224-266 | as written, the updated category's rows read itself, the parent's path, then itself again, and the table is no longer well levelled |
| PathConsistency.AttachConsistent | src/Category.php:88-111 | create keeps a consistent table consistent |
| PathConsistency.MoveSubtreeInPlace | src/Category.php:217-267 | moving a category under its current parent leaves every row as it was |
| PathConsistency.MoveSubtreeRoundTrip | src/Category.php:217-267 | moving a category away and back restores every category's rows |
| PathConsistency.TwoLevelsExample | src/Category.php:88-111 | the tree of category 1 with child 2 is consistent, with paths [1] and [1, 2] |
| PathConsistency.RewriteSubtreeExample | src/Category.php:217-267 | saving category 2 under its unchanged parent 1: as written its path becomes [1, 2, 2]; corrected it stays [1, 2] |
| CategoryService.NewCategory | src/Category.php:52-62 | the saved row has the assigned columns with their defaults, and a null image |
| CategoryService.Create | src/Category.php:50-121 | fails with 400 iff the name is falsy or over 64, the parent compares below 0 (`"-0.5"` too), or a meta field is over 255; otherwise exactly the new row is added and every other category row stays as it was; the new path is the parent's path then the id, and other paths stay |
| CategoryService.Update | src/Category.php:173-311 | corrected (Findings row 1): 404 for an unknown id; 400 iff the name is empty or over 255, the parent compares below 0, or a meta field is over 255; otherwise the merged row, and categories outside the subtree keep their rows |
| CategoryService.UpdateAsWritten | src/Category.php:173-311 | as written: the same checks, merge and untouched categories as `Update`, with the insert-only rewrite |
| CategoryService.FractionalParentRefused | src/Category.php:54-72 | a parent that compares below 0 but casts to 0, such as `"-0.5"`, is refused with 400 by create, and update refuses it too |
| CategoryService.Delete | src/Category.php:318-339 | 404 for an unknown id; otherwise only the category row goes, every other category row stays as it was, and the path table is unchanged |
| CategoryService.CreateThenDelete | src/Category.php:318-339 | deleting a category just created gives back the category rows as they were, while its path rows stay behind |
| CategoryService.ListOrder | src/Category.php:349-367 | ordered iff `sort` is name or sort_order |
| CategoryService.CreateKeepsValid | src/Category.php:88-111 | create keeps the path table a tree |
| CategoryService.UpdateKeepsValid | src/Category.php:217-267 | corrected (Findings row 1): update with a parent outside the subtree keeps the table a tree and gives every moved category the new parent's path in front |
| CategoryService.UpdateSameParentKeepsPaths | src/Category.php:217-267 | corrected (Findings row 1): an update that keeps the parent leaves the path rows unchanged |
| CategoryService.UpdateAsWrittenBreaksTree | src/Category.php:217-267 | as written, an accepted update of a category with rows, to a parent outside its subtree, makes its path read itself, the parent's path, then itself, and the table is no longer a tree |
| CategoryService.UpdateAsWrittenSameParent | src/Category.php:217-267 | as written, even an update that keeps the parent breaks the tree: the category's path reads itself, then its old path |
| CartService.Lookup | src/Cart.php:67 | `$option[$k]` finds the entry with key `k`, or reports that there is none |
| CartService.FindLine | src/Cart.php:333-345 | finds a line with the same user, product and options, or reports that there is none |
| CartService.AddToCart | src/Cart.php:60-101 | fails with 400 iff the quantity is below 1 or a required option is empty; otherwise it grows the matching line by the quantity, or appends one new line |
| CartService.AddToCartTotal | src/Cart.php:74-86 | an accepted add raises the quantity held for its user, product and options by exactly the quantity, and no other |
| CartService.AddToCartKeepsInvariants | src/Cart.php:74-86 | add keeps one line per key, unique ids and positive quantities |
| CartService.UpdateCart | src/Cart.php:281-291 | fails with 400 iff the quantity is below 1; otherwise only the line with that id changes |
| CartService.UpdateCartKeepsInvariants | src/Cart.php:281-291 | update keeps ids unique and quantities positive, and the line reads back as saved |
| CartService.RemoveFromCart | src/Cart.php:303-323 | the returned count is the number of lines deleted, and every line kept was in the cart |
| CartService.RemoveFromCartExact | src/Cart.php:303-316 | with unique ids, exactly the user's lines named in `keys` are deleted; other users' lines stay |
| CartService.RemoveFromCartKeepsInvariants | src/Cart.php:303-316 | remove keeps ids unique, keys unique and quantities positive |
| CartService.BaseStockAlwaysHolds | src/Cart.php:118-122 | as written the product stock test never fails for a line of non-negative quantity; quantity 0 for a line of 1 counts as in stock |
| CartService.BaseStockMeans | src/Cart.php:118-122 | the corrected test holds iff the product has at least the line's quantity |
| CartService.Matching | src/Cart.php:133-136 | every value an entry contributes belongs to the product option the entry is keyed by |
| CartService.ApplyValuesMeans | src/Cart.php:180-203 | the checkbox loop adds the points of every matching value, and clears the stock flag iff one of them is short |
| CartService.ApplyAllMeans | src/Cart.php:126-236 | the option loop adds the points of every applied value, and keeps the stock flag iff none of them is short |
| CartService.LineItem | src/Cart.php:118-247 | an entry's points are (product points + applied option points) times the quantity; it is in stock iff the product passes the stock test of the rule and no applied value is short |
| CartService.LineItemIgnoresStock | src/Cart.php:118-122 | as written, a line of non-negative quantity is in stock exactly when no applied value is short, whatever the product's quantity |
| CartService.LineItemCorrectedStock | src/Cart.php:118-122 | corrected, a line of positive quantity is in stock exactly when the product has at least that many and no applied value is short |
| CartService.LineItemRules | src/Cart.php:118-247 | both rules give the same entry except `hasStock`, and the corrected rule is the stricter |
| CartService.GetProducts | src/Cart.php:103-258 | one entry per line of the user whose product loads, in order, each as `LineItem` gives it under the chosen rule |
| CartService.GetProductsRules | src/Cart.php:103-258 | as written and corrected list the same entries and leave the same cart; they differ only in `hasStock`, the corrected one being stricter |
| CartService.WalkRemoves | src/Cart.php:110-116 | with unique ids, the loop removes exactly the user's lines whose id is that of a visited line whose product does not load |
| CartService.GetProductsRemoves | src/Cart.php:110-116 | with unique ids, `getProducts` removes exactly the user's lines whose product does not load |

## Left out

- Caching, events, pagination and transactions are not modelled. A failure inside the transaction (code 500) is not modelled either: every write succeeds.
- Floating-point price and weight arithmetic is left out of the cart, with the decimal columns of option values.
- The `GROUP_CONCAT` breadcrumb of the category `list` is left out; only its sort whitelist is modelled.
- `json_encode` of the cart options is modelled as the option array itself, on the assumption that equal arrays encode equally and different arrays differently.
- CartService.FindLine: the `WHERE option = ?` match on the `text` column is modelled as exact equality of the option arrays. The database compares by the column's collation, which usually ignores case, so `{"7":"red"}` and `{"7":"Red"}` may match the same line. `AddToCart` and `AddToCartTotal` rest on the same exact match.
- The cart list is read in table order. `getUserCartIds` orders by `created_at` descending, and timestamps are not modelled.
- The strict `===` between a value's `product_option_id` and the decoded key in `getProducts` is modelled as equality of ids. Its outcome depends on the value types the database driver returns.
- Fresh auto-increment ids are parameters, with a requirement that they are unused. The current date is a parameter as well.
- `Option::delete` is not modelled: its body is commented out and it refers to an undefined `$result`.
- `Product::getAttributeIds` is not modelled: the query ignores its argument.
- `Product::delete` is the generic delete (`Records.Delete`). It does not remove the product's link rows.
- The unreachable `else` branch of the category update is not modelled: a query result is always truthy.
- The `unsignedSmallInteger` level column is unbounded in the model, so overflow is not modelled.
- PHP floats, arrays and booleans as scalar request values are not modelled. A JSON number with a fraction (`"price": 9.99`, `"parent_id": -0.5`) reaches the services as a float, which no `Value` stands for. A float also differs from its string form in truthiness: `0.0` is falsy and `"0.0"` is not, which matters to the `!$node->name` check at src/Category.php:64. Fractional numbers are modelled only as strings. Request lists (`category_ids`, `option_values`, `product_options`, ...) are separate parameters, empty when absent.
- CategoryService.Update: uses the corrected rewrite, which replaces a moved category's rows; the service keeps the old ones (`CategoryService.UpdateAsWritten`).
- ProductService.Create: stores the request's weight; the service stores its height (`ProductService.CreateAsWritten`).
- ProductService.NewProduct: reads the weight from `weight`; the service reads `height` (`ProductService.NewProductAsWritten`).
- Timestamps (`created_at`, `updated_at`) of the product and link rows are not modelled.
- An insert with an explicit id is assumed not to move the auto-increment counter. MySQL moves it past a larger explicit id, so the next fresh id may be higher than the counter given.
- A value id that is neither null, 0 nor "0" is stored as given. How the database converts a non-numeric string id depends on its SQL mode and is not modelled.
- How the database stores a fractional `group_id` or `parent_id` (`"0.5"`) is not modelled: the row keeps the request's value, and path queries use its `(int)` cast.
- Php.IntCast: numbers beyond the 64-bit range and float rounding of long fractions are not modelled; the cast truncates the exact decimal.
- CategoryService.UpdateKeepsValid: requires the new parent to lie outside the moved subtree. The service does not check this, and with a cycle no tree remains to describe.
- CartService.RemoveFromCartExact: requires unique cart ids, as the primary key guarantees. Without them, another user's line sharing an id would also go.
- CartService.GetProductsRemoves: requires unique cart ids for the same reason.

## Findings

| source | as written | input that shows it | evidently intended | confidence | as-written member | corrected member |
|---|---|---|---|---|---|---|
| src/Category.php:224-266 | the update loop deletes only a category's rows below the updated category's level, then inserts the full new path; the surviving old rows stay next to the new ones (the table has no unique key) | category 2 under 1 with rows (1,1,0),(2,1,0),(2,2,1); update 2 keeping parent 1: path of 2 becomes [1, 2, 2] | the category's old rows are replaced by the new path | not executed | CategoryService.UpdateAsWrittenBreaksTree | CategoryService.UpdateKeepsValid |
| src/Cart.php:118 | `$product->quantity \|\| $product->quantity <= $cart->quantity` is true for every non-negative cart quantity, so a product is never out of stock | product quantity 0, cart line quantity 1: hasStock is true | out of stock when the quantity is 0 or below the line's, as for option values at lines 155-157 | not executed | CartService.LineItemIgnoresStock | CartService.LineItemCorrectedStock |
| src/Product.php:81 | `$node->weight = $data['height'] ?? 0` stores the height as the weight | request weight 5, no height: weight 0 is stored | `$data['weight'] ?? 0` | not executed | ProductService.CreateDropsWeight | ProductService.CreateStoresWeight |

=== FILE: attribute.dfy ===
/** The attribute service: like the other catalogue services, plus a check
    that the attribute names a group. */
module AttributeService {
  import opened Php
  import opened Records

  /** The columns `create` assigns and their defaults. */
  const Columns: Record := map["name" := Null, "group_id" := Int(0), "sort_order" := Int(0)]

  /** The sign of `$data['group_id'] ?? 0` as PHP compares it with 0, so
      a fractional group such as `"0.5"` is positive. */
  function GroupOf(data: Record): int {
    Sign(Coalesce(data, "group_id", Int(0)))
  }

  /** `create($data)` with `id` the next auto-increment id: 400 for a falsy
      name, a name over 64 code points, or a `group_id` that is missing or
      not positive; otherwise the row holds the name, group and sort order. */
  function Create(tbl: Table, data: Record, id: int): (r: Result<Table>)
    requires id !in tbl
    ensures r.Fail? <==> Falsy(Get(data, "name")) || StrLen(Get(data, "name")) > 64 || GroupOf(data) <= 0
    ensures r.Fail? ==> r.status == BadRequest
    ensures r.Ok? ==> r.value.Keys == tbl.Keys + {id}
    ensures r.Ok? ==> forall k :: k in tbl ==> r.value[k] == tbl[k]
    ensures r.Ok? ==> r.value[id] == map["id" := Int(id), "name" := Get(data, "name"),
                                        "group_id" := Get(data, "group_id"),
                                        "sort_order" := Coalesce(data, "sort_order", Int(0))]
  {
    var node := Defaults(data, Columns);
    NewRow(data, id);
    CreateRecord(tbl, id, node, NameOk(node["name"], 64) && Sign(node["group_id"]) > 0)
  }

  /** The saved row: the assigned columns and the new id; a group that
      passes the check is the request's own. */
  lemma NewRow(data: Record, id: int)
    ensures "name" in Defaults(data, Columns) && "group_id" in Defaults(data, Columns)
    ensures Defaults(data, Columns)["name"] == Get(data, "name")
    ensures Defaults(data, Columns)["group_id"] == Coalesce(data, "group_id", Int(0))
    ensures GroupOf(data) > 0 ==>
              (Defaults(data, Columns)["id" := Int(id)]
               == map["id" := Int(id), "name" := Get(data, "name"),
                      "group_id" := Get(data, "group_id"),
                      "sort_order" := Coalesce(data, "sort_order", Int(0))])
  {
    if GroupOf(data) > 0 {
      GroupGiven(data);
      NewRowGiven(data, id);
    }
  }

  lemma NewRowGiven(data: Record, id: int)
    requires "group_id" in data && data["group_id"] != Null
    ensures Defaults(data, Columns)["id" := Int(id)]
            == map["id" := Int(id), "name" := Get(data, "name"),
                   "group_id" := Get(data, "group_id"),
                   "sort_order" := Coalesce(data, "sort_order", Int(0))]
  {
  }

  /** A group above 0 was in the request. */
  lemma GroupGiven(data: Record)
    requires GroupOf(data) > 0
    ensures "group_id" in data && Coalesce(data, "group_id", Int(0)) == data["group_id"]
  {
  }

  /** `update($id, $data)`: 404 for an unknown id; 400 for an empty name, a
      name over 64 code points, or a `group_id` in the request that is
      missing or not positive (the stored group does not count); otherwise
      the merge. */
  function Update(tbl: Table, id: int, data: Record): (r: Result<Table>)
    ensures r.Fail? <==> id !in tbl || Falsy(Get(data, "name")) || StrLen(Get(data, "name")) > 64 || GroupOf(data) <= 0
    ensures r.Fail? ==> r.status == if id !in tbl then NotFound else BadRequest
    ensures r.Ok? ==> r.value == tbl[id := Merge(tbl[id], data)]
  {
    UpdateRecord(tbl, id, data, NameOk(Get(data, "name"), 64) && GroupOf(data) > 0)
  }

  /** An accepted update always leaves the attribute in a positive group:
      the request's group replaces the stored one. */
  lemma UpdateKeepsGroup(tbl: Table, id: int, data: Record)
    requires Update(tbl, id, data).Ok?
    requires "group_id" in tbl[id]
    ensures Sign(Update(tbl, id, data).value[id]["group_id"]) > 0
  {
  }

  /** The check compares the group with 0 and does not cast it: a group
      above 0 whose integer part is 0, such as `"0.5"` (`Php.HalfAboveZero`),
      passes, and the row stores a group id that casts to 0. */
  lemma FractionalGroupAccepted(tbl: Table, data: Record, id: int)
    requires id !in tbl
    requires NameOk(Get(data, "name"), 64)
    requires Sign(Get(data, "group_id")) > 0 && IntCast(Get(data, "group_id")) == 0
    ensures Create(tbl, data, id).Ok?
    ensures IntCast(Create(tbl, data, id).value[id]["group_id"]) == 0
  {
    assert Coalesce(data, "group_id", Int(0)) == Get(data, "group_id");
  }

  /** The sort whitelist of `list`: name, group_id and sort_order. */
  function ListOrder(sort: string, order: string): (o: Ordering)
    ensures o.OrderBy? <==> sort == "name" || sort == "group_id" || sort == "sort_order"
    ensures o.OrderBy? ==> o.column == sort && (o.dir == Desc <==> AsciiLower(order) == "desc")
  {
    ListOrderWhitelist(sort, order, ["name", "group_id", "sort_order"]);
    Records.ListOrder(sort, order, ["name", "group_id", "sort_order"])
  }
}

=== FILE: attribute_group.dfy ===
/** The attribute group service. */
module AttributeGroupService {
  import opened Php
  import opened Records

  /** The columns `create` assigns and their defaults. */
  const Columns: Record := map["name" := Null, "sort_order" := Int(0)]

  /** `create($data)` with `id` the next auto-increment id: 400 for a falsy
      name or one over 64 code points; otherwise the row holds the name and
      the sort order (default 0). */
  function Create(tbl: Table, data: Record, id: int): (r: Result<Table>)
    requires id !in tbl
    ensures r.Fail? <==> Falsy(Get(data, "name")) || StrLen(Get(data, "name")) > 64
    ensures r.Fail? ==> r.status == BadRequest
    ensures r.Ok? ==> r.value.Keys == tbl.Keys + {id}
    ensures r.Ok? ==> forall k :: k in tbl ==> r.value[k] == tbl[k]
    ensures r.Ok? ==> r.value[id] == map["id" := Int(id), "name" := Get(data, "name"),
                                        "sort_order" := Coalesce(data, "sort_order", Int(0))]
  {
    NewRow(data, id);
    CreateRecord(tbl, id, Defaults(data, Columns), NameOk(Get(data, "name"), 64))
  }

  /** The saved row: the assigned columns and the new id. */
  lemma NewRow(data: Record, id: int)
    ensures Defaults(data, Columns)["id" := Int(id)]
         == map["id" := Int(id), "name" := Get(data, "name"),
                "sort_order" := Coalesce(data, "sort_order", Int(0))]
  {
  }

  /** `update($id, $data)`: 404 for an unknown id, 400 for an empty name or
      one over 64 code points, otherwise the merge. */
  function Update(tbl: Table, id: int, data: Record): (r: Result<Table>)
    ensures r.Fail? <==> id !in tbl || Falsy(Get(data, "name")) || StrLen(Get(data, "name")) > 64
    ensures r.Fail? ==> r.status == if id !in tbl then NotFound else BadRequest
    ensures r.Ok? ==> r.value == tbl[id := Merge(tbl[id], data)]
  {
    UpdateRecord(tbl, id, data, NameOk(Get(data, "name"), 64))
  }

  /** The sort whitelist of `list`: name and sort_order. */
  function ListOrder(sort: string, order: string): (o: Ordering)
    ensures o.OrderBy? <==> sort == "name" || sort == "sort_order"
    ensures o.OrderBy? ==> o.column == sort && (o.dir == Desc <==> AsciiLower(order) == "desc")
  {
    ListOrderWhitelist(sort, order, ["name", "sort_order"]);
    Records.ListOrder(sort, order, ["name", "sort_order"])
  }
}

=== FILE: cart.dfy ===
/** The cart service: a user's cart lines, one per product and choice of
    options, and the points and stock figures `getProducts` derives from
    them. */
module CartService {
  import opened Php
  import opened Seqs
  import Records

  /** A request's choice for one product option: a scalar, or a list (the
      values ticked for a checkbox). */
  datatype Choice = One(v: Value) | Many(vs: seq<Value>)

  /** The `$option` array: product option id to choice, in array order.
      Its keys are distinct, as in the PHP array it models; `Lookup` reads
      the first entry with a key. `json_encode` of it is the `option`
      column; equal arrays encode equally, so the column is modelled by the
      array itself. */
  type Choices = seq<(int, Choice)>

  /** A `cart` row. */
  datatype Line = Line(id: int, user: int, product: int, options: Choices, quantity: int)

  /** What identifies a line for `addToCart`: user, product and options. */
  datatype Key = Key(user: int, product: int, options: Choices)

  function KeyOf(l: Line): Key {
    Key(l.user, l.product, l.options)
  }

  /** `$option[$k]`, a missing key reading as none. */
  function Lookup(choices: Choices, k: int): (r: Option<Choice>)
    ensures r.None? <==> forall i :: 0 <= i < |choices| ==> choices[i].0 != k
    ensures r.Some? ==> exists i :: 0 <= i < |choices| && choices[i] == (k, r.value)
  {
    if choices == [] then None
    else if choices[0].0 == k then Some(choices[0].1)
    else
      var r := Lookup(choices[1..], k);
      if r.Some? then
        assert choices[1..][IndexOf(choices[1..], (k, r.value))] == (k, r.value);
        r
      else r
  }

  /** `empty($option[$k])`. */
  predicate Empty(c: Option<Choice>) {
    match c
    case None => true
    case Some(One(v)) => Falsy(v)
    case Some(Many(vs)) => vs == []
  }

  /** A `product_option` of the product, as `getProductOptions` lists it. */
  datatype ProductOption = ProductOption(id: int, required: Value)

  /** Some required option of the product has no value in the request. */
  predicate MissesRequired(pos: seq<ProductOption>, choices: Choices) {
    exists i :: 0 <= i < |pos| && !Falsy(pos[i].required) && Empty(Lookup(choices, pos[i].id))
  }

  /** `getUserCartByProduct(...)->first()`: the first line with key `k`. */
  function FindLine(lines: seq<Line>, k: Key): (r: Option<nat>)
    ensures r.None? <==> forall i :: 0 <= i < |lines| ==> KeyOf(lines[i]) != k
    ensures r.Some? ==> r.value < |lines| && KeyOf(lines[r.value]) == k
  {
    if lines == [] then None
    else if KeyOf(lines[0]) == k then Some(0)
    else
      match FindLine(lines[1..], k)
      case None => None
      case Some(i) => Some(i + 1)
  }

  /** `addToCart($userId, $productId, $quantity, $option)` with `pos` the
      product's options and `newId` the next cart id: 400 for a quantity
      below 1 or a required option left empty; otherwise the quantity is
      added to the line with the same user, product and options, or a new
      line is created. */
  function AddToCart(lines: seq<Line>, user: int, product: int, quantity: int, choices: Choices,
                     pos: seq<ProductOption>, newId: int): (r: Records.Result<seq<Line>>)
    ensures r.Fail? <==> quantity < 1 || MissesRequired(pos, choices)
    ensures r.Fail? ==> r.status == Records.BadRequest
    ensures r.Ok? ==> FindLine(lines, Key(user, product, choices)).None? ==>
              r.value == lines + [Line(newId, user, product, choices, quantity)]
    ensures r.Ok? ==> FindLine(lines, Key(user, product, choices)).Some? ==>
              && |r.value| == |lines|
              && forall i :: 0 <= i < |lines| ==>
                   r.value[i] == if i == FindLine(lines, Key(user, product, choices)).value
                                 then lines[i].(quantity := lines[i].quantity + quantity) else lines[i]
  {
    if quantity < 1 || MissesRequired(pos, choices) then Records.Fail(Records.BadRequest)
    else
      match FindLine(lines, Key(user, product, choices))
      case Some(i) => Records.Ok(lines[i := lines[i].(quantity := lines[i].quantity + quantity)])
      case None => Records.Ok(lines + [Line(newId, user, product, choices, quantity)])
  }

  /** The quantity held for key `k` over all its lines. */
  function Total(lines: seq<Line>, k: Key): int
    decreases |lines|
  {
    if lines == [] then 0
    else (if KeyOf(lines[0]) == k then lines[0].quantity else 0) + Total(lines[1..], k)
  }

  lemma {:induction false} TotalAppend(lines: seq<Line>, l: Line, k: Key)
    ensures Total(lines + [l], k) == Total(lines, k) + if KeyOf(l) == k then l.quantity else 0
    decreases |lines|
  {
    if lines == [] {
      assert [] + [l] == [l];
    } else {
      assert (lines + [l])[1..] == lines[1..] + [l];
      TotalAppend(lines[1..], l, k);
    }
  }

  lemma {:induction false} TotalBump(lines: seq<Line>, i: nat, q: int, k: Key)
    requires i < |lines|
    ensures Total(lines[i := lines[i].(quantity := lines[i].quantity + q)], k)
         == Total(lines, k) + if KeyOf(lines[i]) == k then q else 0
    decreases i
  {
    var bumped := lines[i := lines[i].(quantity := lines[i].quantity + q)];
    if i > 0 {
      assert bumped[1..] == lines[1..][i - 1 := lines[1..][i - 1].(quantity := lines[1..][i - 1].quantity + q)];
      TotalBump(lines[1..], i - 1, q, k);
    } else {
      assert bumped[1..] == lines[1..];
    }
  }

  /** An accepted `addToCart` adds its quantity to what the cart holds for
      the user, product and options, and to nothing else. */
  lemma AddToCartTotal(lines: seq<Line>, user: int, product: int, quantity: int, choices: Choices,
                       pos: seq<ProductOption>, newId: int, k: Key)
    requires AddToCart(lines, user, product, quantity, choices, pos, newId).Ok?
    ensures Total(AddToCart(lines, user, product, quantity, choices, pos, newId).value, k)
         == Total(lines, k) + if k == Key(user, product, choices) then quantity else 0
  {
    match FindLine(lines, Key(user, product, choices))
    case Some(i) =>
      TotalBump(lines, i, quantity, k);
    case None =>
      TotalAppend(lines, Line(newId, user, product, choices, quantity), k);
  }

  /** No two lines share an id (the primary key). */
  predicate UniqueIds(lines: seq<Line>) {
    forall i, j :: 0 <= i < j < |lines| ==> lines[i].id != lines[j].id
  }

  /** No two lines share a key. */
  predicate UniqueKeys(lines: seq<Line>) {
    forall i, j :: 0 <= i < j < |lines| ==> KeyOf(lines[i]) != KeyOf(lines[j])
  }

  /** Every line holds at least one item. */
  predicate Positive(lines: seq<Line>) {
    forall i :: 0 <= i < |lines| ==> lines[i].quantity >= 1
  }

  /** `addToCart` keeps one line per key, ids unique and quantities positive. */
  lemma AddToCartKeepsInvariants(lines: seq<Line>, user: int, product: int, quantity: int, choices: Choices,
                                 pos: seq<ProductOption>, newId: int)
    requires forall i :: 0 <= i < |lines| ==> lines[i].id != newId
    requires UniqueIds(lines) && UniqueKeys(lines) && Positive(lines)
    requires AddToCart(lines, user, product, quantity, choices, pos, newId).Ok?
    ensures var after := AddToCart(lines, user, product, quantity, choices, pos, newId).value;
            UniqueIds(after) && UniqueKeys(after) && Positive(after)
  {
  }

  /** `updateCart($cart)`: 400 for a quantity below 1; otherwise the line is
      saved over the row with its id (no row changes if there is none). */
  function UpdateCart(lines: seq<Line>, line: Line): (r: Records.Result<seq<Line>>)
    ensures r.Fail? <==> line.quantity < 1
    ensures r.Fail? ==> r.status == Records.BadRequest
    ensures r.Ok? ==> |r.value| == |lines|
    ensures r.Ok? ==> forall i :: 0 <= i < |lines| && lines[i].id != line.id ==> r.value[i] == lines[i]
  {
    if line.quantity < 1 then Records.Fail(Records.BadRequest)
    else Records.Ok(seq(|lines|, i requires 0 <= i < |lines| => if lines[i].id == line.id then line else lines[i]))
  }

  /** `updateCart` keeps ids unique and quantities positive, and after it
      the line's row reads back as saved. */
  lemma UpdateCartKeepsInvariants(lines: seq<Line>, line: Line, i: int)
    requires UniqueIds(lines) && Positive(lines)
    requires UpdateCart(lines, line).Ok?
    requires 0 <= i < |lines| && lines[i].id == line.id
    ensures UniqueIds(UpdateCart(lines, line).value) && Positive(UpdateCart(lines, line).value)
    ensures UpdateCart(lines, line).value[i] == line
  {
  }

  /** Selects the lines of `user` whose id is in `keys`. */
  function Chosen(user: int, keys: seq<int>): Line -> bool {
    (l: Line) => l.id in keys && l.user == user
  }

  /** Selects the lines whose id is not in `ids`. */
  function IdNotIn(ids: seq<int>): Line -> bool {
    (l: Line) => l.id !in ids
  }

  /** Selects the lines `removeFromCart(user, keys)` is meant to keep. */
  function Kept(user: int, keys: seq<int>): Line -> bool {
    (l: Line) => !(l.id in keys && l.user == user)
  }

  function Ids(lines: seq<Line>): (ids: seq<int>)
    ensures |ids| == |lines|
    ensures forall i :: 0 <= i < |lines| ==> ids[i] == lines[i].id
  {
    seq(|lines|, i requires 0 <= i < |lines| => lines[i].id)
  }

  /** `removeFromCart($userId, $keys)`: the ids of the user's lines named in
      `keys` are collected, then every line with one of those ids is
      deleted; the result is the number of rows deleted. */
  function RemoveFromCart(lines: seq<Line>, user: int, keys: seq<int>): (r: (seq<Line>, nat))
    ensures r.1 == |lines| - |r.0|
    ensures forall l :: l in r.0 ==> l in lines
  {
    var ids := Ids(Filter(lines, Chosen(user, keys)));
    var after := Filter(lines, IdNotIn(ids));
    FilterCount(lines, IdNotIn(ids));
    assert forall l :: l in after ==> l in lines by {
      forall l | l in after ensures l in lines {
        FilterMember(lines, IdNotIn(ids), l);
      }
    }
    (after, |lines| - |after|)
  }

  /** With unique ids, `removeFromCart` deletes exactly the user's lines
      named in `keys`: other users' lines, and lines not named, stay. */
  lemma RemoveFromCartExact(lines: seq<Line>, user: int, keys: seq<int>)
    requires UniqueIds(lines)
    ensures RemoveFromCart(lines, user, keys).0 == Filter(lines, Kept(user, keys))
  {
    var chosen := Filter(lines, Chosen(user, keys));
    var ids := Ids(chosen);
    forall i | 0 <= i < |lines|
      ensures IdNotIn(ids)(lines[i]) == Kept(user, keys)(lines[i])
    {
      var l := lines[i];
      if l.id in keys && l.user == user {
        FilterMember(lines, Chosen(user, keys), l);
        var j := IndexOf(chosen, l);
        assert ids[j] == l.id;
      }
      if l.id in ids {
        var j := IndexOf(ids, l.id);
        var m := chosen[j];
        FilterMember(lines, Chosen(user, keys), m);
        var a := IndexOf(lines, m);
        assert lines[a].id == l.id;
        assert a == i;
      }
    }
    FilterAgree(lines, IdNotIn(ids), Kept(user, keys));
  }

  /** Dropping lines keeps ids unique, keys unique and quantities positive. */
  lemma FilterKeepsInvariants(lines: seq<Line>, f: Line -> bool)
    ensures UniqueIds(lines) ==> UniqueIds(Filter(lines, f))
    ensures UniqueKeys(lines) ==> UniqueKeys(Filter(lines, f))
    ensures Positive(lines) ==> Positive(Filter(lines, f))
  {
    if UniqueIds(lines) {
      FilterKeepsIds(lines, f);
    }
    if UniqueKeys(lines) {
      FilterKeepsKeys(lines, f);
    }
    forall i | 0 <= i < |Filter(lines, f)|
      ensures Positive(lines) ==> Filter(lines, f)[i].quantity >= 1
    {
      FilterMember(lines, f, Filter(lines, f)[i]);
    }
  }

  lemma {:induction false} FilterKeepsIds(lines: seq<Line>, f: Line -> bool)
    requires UniqueIds(lines)
    ensures UniqueIds(Filter(lines, f))
    decreases |lines|
  {
    if lines != [] {
      FilterKeepsIds(lines[1..], f);
      var rest := Filter(lines[1..], f);
      forall l | l in rest
        ensures l.id != lines[0].id
      {
        FilterMember(lines[1..], f, l);
        var j := IndexOf(lines[1..], l);
        assert lines[j + 1] == l;
      }
      if f(lines[0]) {
        assert Filter(lines, f) == [lines[0]] + rest;
      }
    }
  }

  lemma {:induction false} FilterKeepsKeys(lines: seq<Line>, f: Line -> bool)
    requires UniqueKeys(lines)
    ensures UniqueKeys(Filter(lines, f))
    decreases |lines|
  {
    if lines != [] {
      FilterKeepsKeys(lines[1..], f);
      var rest := Filter(lines[1..], f);
      forall l | l in rest
        ensures KeyOf(l) != KeyOf(lines[0])
      {
        FilterMember(lines[1..], f, l);
        var j := IndexOf(lines[1..], l);
        assert lines[j + 1] == l;
      }
      if f(lines[0]) {
        assert Filter(lines, f) == [lines[0]] + rest;
      }
    }
  }

  /** `removeFromCart` keeps ids unique, keys unique and quantities positive. */
  lemma RemoveFromCartKeepsInvariants(lines: seq<Line>, user: int, keys: seq<int>)
    requires UniqueIds(lines)
    ensures var after := RemoveFromCart(lines, user, keys).0;
            && UniqueIds(after)
            && (UniqueKeys(lines) ==> UniqueKeys(after))
            && (Positive(lines) ==> Positive(after))
  {
    RemoveFromCartExact(lines, user, keys);
    FilterKeepsInvariants(lines, Kept(user, keys));
  }

  // ---------------------------------------------------------------------
  // getProducts

  /** The product option a cart key names, as `getProductOption` loads it. */
  datatype OptionInfo = OptionInfo(kind: string)

  /** A product option value, as `getProductOptionValue` loads it (its
      decimal price and weight left out). */
  datatype ValueInfo = ValueInfo(productOption: int, points: int, pointsPrefix: Value, subtract: int, quantity: int)

  /** The rows `getProducts` reads besides the cart. */
  datatype Catalog = Catalog(products: Records.Table, options: map<int, OptionInfo>, values: map<int, ValueInfo>)

  /** One entry of the result. */
  datatype Item = Item(cart: int, product: int, quantity: int, points: int, hasStock: bool)

  /** `(int) $value`: an array casts to 1 when it has elements, else 0. */
  function ChoiceInt(c: Choice): int {
    match c
    case One(v) => IntCast(v)
    case Many(vs) => if vs == [] then 0 else 1
  }

  /** What a value adds to the points: `+` adds, `-` subtracts, any other
      prefix nothing. */
  function Delta(v: ValueInfo): int {
    if v.pointsPrefix == Str("+") then v.points
    else if v.pointsPrefix == Str("-") then -v.points
    else 0
  }

  /** A value that tracks stock and has none, or less than the line holds. */
  predicate Short(v: ValueInfo, cartQty: int) {
    v.subtract != 0 && (v.quantity == 0 || v.quantity < cartQty)
  }

  /** The stock test on the product, as written: `quantity || quantity <=
      cart quantity`. */
  predicate BaseStockAsWritten(quantity: int, cartQty: int) {
    quantity != 0 || quantity <= cartQty
  }

  /** The stock test on the product as intended, by the rule applied to
      option values: out of stock when there is none or too little. */
  predicate BaseStock(quantity: int, cartQty: int) {
    !(quantity == 0 || quantity < cartQty)
  }

  /** As written, the test never fails for a line of positive quantity:
      a product with quantity 0 in a line for 1 counts as in stock. */
  lemma BaseStockAlwaysHolds(quantity: int, cartQty: int)
    requires cartQty >= 0
    ensures BaseStockAsWritten(quantity, cartQty)
    ensures BaseStockAsWritten(0, 1) && !BaseStock(0, 1)
  {
  }

  /** Which product stock test `getProducts` applies: the one in the
      service, or the intended one. */
  datatype StockRule = AsWritten | Corrected

  predicate ProductInStock(rule: StockRule, quantity: int, cartQty: int) {
    if rule.AsWritten? then BaseStockAsWritten(quantity, cartQty) else BaseStock(quantity, cartQty)
  }

  /** The intended test: the product has at least what the line holds. */
  lemma BaseStockMeans(quantity: int, cartQty: int)
    requires cartQty >= 1
    ensures BaseStock(quantity, cartQty) <==> quantity >= cartQty
  {
  }

  /** The loaded values among `ids` that belong to product option `po`;
      others, and ids that load nothing, are skipped. */
  function Matching(db: Catalog, po: int, ids: seq<int>): (vs: seq<ValueInfo>)
    ensures forall k :: 0 <= k < |vs| ==> vs[k].productOption == po
    decreases |ids|
  {
    if ids == [] then []
    else
      (if ids[0] in db.values && db.values[ids[0]].productOption == po then [db.values[ids[0]]] else [])
      + Matching(db, po, ids[1..])
  }

  /** The ids a checkbox choice names. */
  function CastAll(vs: seq<Value>): (ids: seq<int>)
    ensures |ids| == |vs|
    ensures forall k :: 0 <= k < |vs| ==> ids[k] == IntCast(vs[k])
  {
    seq(|vs|, k requires 0 <= k < |vs| => IntCast(vs[k]))
  }

  /** The values one entry of the line's options applies: the chosen value
      of a select or radio, the ticked values of a checkbox given a list;
      nothing for other types or an unknown product option. */
  function AppliedFor(db: Catalog, po: int, c: Choice): seq<ValueInfo> {
    if po !in db.options then []
    else if db.options[po].kind == "select" || db.options[po].kind == "radio" then Matching(db, po, [ChoiceInt(c)])
    else if db.options[po].kind == "checkbox" && c.Many? then Matching(db, po, CastAll(c.vs))
    else []
  }

  /** The values all entries of the line's options apply, in order. */
  function Applied(db: Catalog, choices: Choices): seq<ValueInfo>
    decreases |choices|
  {
    if choices == [] then [] else AppliedFor(db, choices[0].0, choices[0].1) + Applied(db, choices[1..])
  }

  function SumDelta(vs: seq<ValueInfo>): int
    decreases |vs|
  {
    if vs == [] then 0 else Delta(vs[0]) + SumDelta(vs[1..])
  }

  predicate NoneShort(vs: seq<ValueInfo>, cartQty: int) {
    forall k :: 0 <= k < |vs| ==> !Short(vs[k], cartQty)
  }

  /** The running figures of the option loop. */
  datatype Tally = Tally(points: int, hasStock: bool)

  /** The body of the inner `if ($productOptionValue->product_option_id === $poId)`. */
  function ApplyValue(t: Tally, db: Catalog, po: int, id: int, cartQty: int): Tally {
    if id in db.values && db.values[id].productOption == po then
      Tally(t.points + Delta(db.values[id]), t.hasStock && !Short(db.values[id], cartQty))
    else t
  }

  /** The `foreach ($value as $povId)` loop of a checkbox. */
  function ApplyValues(t: Tally, db: Catalog, po: int, ids: seq<int>, cartQty: int): Tally
    decreases |ids|
  {
    if ids == [] then t else ApplyValues(ApplyValue(t, db, po, ids[0], cartQty), db, po, ids[1..], cartQty)
  }

  /** One pass of `foreach (json_decode($cart->option) as $poId => $value)`. */
  function ApplyEntry(t: Tally, db: Catalog, po: int, c: Choice, cartQty: int): Tally {
    if po !in db.options then t
    else if db.options[po].kind == "select" || db.options[po].kind == "radio" then ApplyValue(t, db, po, ChoiceInt(c), cartQty)
    else if db.options[po].kind == "checkbox" && c.Many? then ApplyValues(t, db, po, CastAll(c.vs), cartQty)
    else t
  }

  /** The whole option loop. */
  function ApplyAll(t: Tally, db: Catalog, choices: Choices, cartQty: int): Tally
    decreases |choices|
  {
    if choices == [] then t else ApplyAll(ApplyEntry(t, db, choices[0].0, choices[0].1, cartQty), db, choices[1..], cartQty)
  }

  lemma {:induction false} SumDeltaAppend(a: seq<ValueInfo>, b: seq<ValueInfo>)
    ensures SumDelta(a + b) == SumDelta(a) + SumDelta(b)
    decreases |a|
  {
    if a == [] {
      assert a + b == b;
    } else {
      assert (a + b)[1..] == a[1..] + b;
      SumDeltaAppend(a[1..], b);
    }
  }

  lemma NoneShortAppend(a: seq<ValueInfo>, b: seq<ValueInfo>, cartQty: int)
    ensures NoneShort(a + b, cartQty) <==> NoneShort(a, cartQty) && NoneShort(b, cartQty)
  {
    if NoneShort(a, cartQty) && NoneShort(b, cartQty) {
      forall k | 0 <= k < |a + b| ensures !Short((a + b)[k], cartQty) {
        if k >= |a| {
          assert (a + b)[k] == b[k - |a|];
        }
      }
    }
    if NoneShort(a + b, cartQty) {
      forall k | 0 <= k < |a| ensures !Short(a[k], cartQty) {
        assert (a + b)[k] == a[k];
      }
      forall k | 0 <= k < |b| ensures !Short(b[k], cartQty) {
        assert (a + b)[|a| + k] == b[k];
      }
    }
  }

  /** The checkbox loop applies the matching values in order. */
  lemma {:induction false} ApplyValuesMeans(t: Tally, db: Catalog, po: int, ids: seq<int>, cartQty: int)
    ensures ApplyValues(t, db, po, ids, cartQty)
         == Tally(t.points + SumDelta(Matching(db, po, ids)), t.hasStock && NoneShort(Matching(db, po, ids), cartQty))
    decreases |ids|
  {
    if ids != [] {
      var t1 := ApplyValue(t, db, po, ids[0], cartQty);
      ApplyValuesMeans(t1, db, po, ids[1..], cartQty);
      var head := if ids[0] in db.values && db.values[ids[0]].productOption == po then [db.values[ids[0]]] else [];
      SumDeltaAppend(head, Matching(db, po, ids[1..]));
      NoneShortAppend(head, Matching(db, po, ids[1..]), cartQty);
      if head != [] {
        assert SumDelta(head) == Delta(head[0]);
      }
    }
  }

  /** The option loop adds the points of every applied value and keeps the
      stock flag exactly when none of them is short. */
  lemma {:induction false} ApplyAllMeans(t: Tally, db: Catalog, choices: Choices, cartQty: int)
    ensures ApplyAll(t, db, choices, cartQty)
         == Tally(t.points + SumDelta(Applied(db, choices)), t.hasStock && NoneShort(Applied(db, choices), cartQty))
    decreases |choices|
  {
    if choices != [] {
      var po := choices[0].0;
      var c := choices[0].1;
      var t1 := ApplyEntry(t, db, po, c, cartQty);
      ApplyAllMeans(t1, db, choices[1..], cartQty);
      ApplyEntryMeans(t, db, po, c, cartQty);
      SumDeltaAppend(AppliedFor(db, po, c), Applied(db, choices[1..]));
      NoneShortAppend(AppliedFor(db, po, c), Applied(db, choices[1..]), cartQty);
    }
  }

  /** One entry of the option loop applies the values `AppliedFor` names. */
  lemma ApplyEntryMeans(t: Tally, db: Catalog, po: int, c: Choice, cartQty: int)
    ensures ApplyEntry(t, db, po, c, cartQty)
         == Tally(t.points + SumDelta(AppliedFor(db, po, c)), t.hasStock && NoneShort(AppliedFor(db, po, c), cartQty))
  {
    if po !in db.options {
    } else if db.options[po].kind == "select" || db.options[po].kind == "radio" {
      ApplyValuesMeans(t, db, po, [ChoiceInt(c)], cartQty);
      assert ApplyValues(t, db, po, [ChoiceInt(c)], cartQty) == ApplyValue(t, db, po, ChoiceInt(c), cartQty);
    } else if db.options[po].kind == "checkbox" && c.Many? {
      ApplyValuesMeans(t, db, po, CastAll(c.vs), cartQty);
    }
  }

  /** The entry for a line whose product loads: the product's points,
      adjusted by every applied option value and multiplied by the line's
      quantity; in stock when the product passes the stock test `rule` and
      no applied value is short. */
  function LineItem(rule: StockRule, db: Catalog, l: Line): (it: Item)
    requires l.product in db.products
    ensures it.cart == l.id && it.product == l.product && it.quantity == l.quantity
    ensures it.points == (IntCast(Records.Get(db.products[l.product], "points")) + SumDelta(Applied(db, l.options))) * l.quantity
    ensures it.hasStock <==> (ProductInStock(rule, IntCast(Records.Get(db.products[l.product], "quantity")), l.quantity)
                              && NoneShort(Applied(db, l.options), l.quantity))
  {
    var p := db.products[l.product];
    var start := Tally(IntCast(Records.Get(p, "points")), ProductInStock(rule, IntCast(Records.Get(p, "quantity")), l.quantity));
    var t := ApplyAll(start, db, l.options, l.quantity);
    ApplyAllMeans(start, db, l.options, l.quantity);
    Item(l.id, l.product, l.quantity, t.points * l.quantity, t.hasStock)
  }

  /** As written, the product's own quantity plays no part: a line of
      non-negative quantity is in stock exactly when no applied value is
      short. */
  lemma LineItemIgnoresStock(db: Catalog, l: Line)
    requires l.product in db.products && l.quantity >= 0
    ensures LineItem(AsWritten, db, l).hasStock <==> NoneShort(Applied(db, l.options), l.quantity)
  {
    BaseStockAlwaysHolds(IntCast(Records.Get(db.products[l.product], "quantity")), l.quantity);
  }

  /** With the corrected test, a line of positive quantity is in stock
      exactly when the product has at least that many and no applied value
      is short. */
  lemma LineItemCorrectedStock(db: Catalog, l: Line)
    requires l.product in db.products && l.quantity >= 1
    ensures LineItem(Corrected, db, l).hasStock
        <==> IntCast(Records.Get(db.products[l.product], "quantity")) >= l.quantity && NoneShort(Applied(db, l.options), l.quantity)
  {
    BaseStockMeans(IntCast(Records.Get(db.products[l.product], "quantity")), l.quantity);
  }

  /** The two tests give the same entry but for `hasStock`, and whatever
      the corrected test finds in stock the service does too. */
  lemma LineItemRules(db: Catalog, l: Line)
    requires l.product in db.products
    ensures LineItem(AsWritten, db, l) == LineItem(Corrected, db, l).(hasStock := LineItem(AsWritten, db, l).hasStock)
    ensures LineItem(Corrected, db, l).hasStock ==> LineItem(AsWritten, db, l).hasStock
  {
  }

  /** Selects the lines of `user`. */
  function OfUser(user: int): Line -> bool {
    (l: Line) => l.user == user
  }

  /** Selects the lines whose product loads. */
  function Loads(db: Catalog): Line -> bool {
    (l: Line) => l.product in db.products
  }

  /** Selects the lines whose product does not load. */
  function Dangling(db: Catalog): Line -> bool {
    (l: Line) => l.product !in db.products
  }

  /** Selects the lines `getProducts(user)` keeps in the cart. */
  function Survives(user: int, db: Catalog): Line -> bool {
    (l: Line) => !(l.user == user && l.product !in db.products)
  }

  /** The `foreach ($carts ...)` loop over `pending`, the user's lines: a
      line whose product does not load is removed from `cart` with
      `removeFromCart`, any other yields its entry. */
  function Walk(rule: StockRule, cart: seq<Line>, pending: seq<Line>, user: int, db: Catalog): (r: (seq<Item>, seq<Line>))
    ensures |r.0| == |Filter(pending, Loads(db))|
    ensures forall k :: 0 <= k < |r.0| ==> Filter(pending, Loads(db))[k].product in db.products
    ensures forall k :: 0 <= k < |r.0| ==> r.0[k] == LineItem(rule, db, Filter(pending, Loads(db))[k])
    decreases |pending|
  {
    if pending == [] then ([], cart)
    else if pending[0].product !in db.products then
      assert Filter(pending, Loads(db)) == Filter(pending[1..], Loads(db));
      Walk(rule, RemoveFromCart(cart, user, [pending[0].id]).0, pending[1..], user, db)
    else
      var rest := Walk(rule, cart, pending[1..], user, db);
      assert Filter(pending, Loads(db)) == [pending[0]] + Filter(pending[1..], Loads(db));
      ([LineItem(rule, db, pending[0])] + rest.0, rest.1)
  }

  /** `getProducts($userId)`: an entry for each of the user's lines whose
      product loads, in table order, and the cart without the user's lines
      whose product does not. */
  function GetProducts(rule: StockRule, cart: seq<Line>, user: int, db: Catalog): (r: (seq<Item>, seq<Line>))
    ensures var shown := Filter(Filter(cart, OfUser(user)), Loads(db));
            && |r.0| == |shown|
            && forall k :: 0 <= k < |r.0| ==> shown[k].product in db.products && r.0[k] == LineItem(rule, db, shown[k])
  {
    Walk(rule, cart, Filter(cart, OfUser(user)), user, db)
  }

  /** Selects the lines of `user` whose id is among `ids`. */
  function UserIdIn(user: int, ids: seq<int>): Line -> bool {
    (l: Line) => !(l.user == user && l.id in ids)
  }

  /** Removing the user's line `id` and then those among `rest` is
      removing those among `[id] + rest`. */
  lemma RemoveInTurn(cart: seq<Line>, user: int, id: int, rest: seq<int>)
    ensures Filter(Filter(cart, Kept(user, [id])), UserIdIn(user, rest)) == Filter(cart, UserIdIn(user, [id] + rest))
  {
    FilterFilter(cart, Kept(user, [id]), UserIdIn(user, rest));
    forall i | 0 <= i < |cart|
      ensures Both(Kept(user, [id]), UserIdIn(user, rest))(cart[i]) == UserIdIn(user, [id] + rest)(cart[i])
    {
      KeptInTurn(user, id, rest, cart[i]);
    }
    FilterAgree(cart, Both(Kept(user, [id]), UserIdIn(user, rest)), UserIdIn(user, [id] + rest));
  }

  /** One line survives removing `id` and then `rest` iff it survives
      removing `[id] + rest`. */
  lemma KeptInTurn(user: int, id: int, rest: seq<int>, l: Line)
    ensures Both(Kept(user, [id]), UserIdIn(user, rest))(l) == UserIdIn(user, [id] + rest)(l)
  {
    assert l.id in [id] + rest <==> l.id == id || l.id in rest;
  }

  /** The dangling lines of `pending` when its first line dangles. */
  lemma DanglingHead(pending: seq<Line>, db: Catalog)
    requires pending != [] && pending[0].product !in db.products
    ensures Ids(Filter(pending, Dangling(db))) == [pending[0].id] + Ids(Filter(pending[1..], Dangling(db)))
  {
    var f := Filter(pending[1..], Dangling(db));
    assert Filter(pending, Dangling(db)) == [pending[0]] + f;
    IdsAppend([pending[0]], f);
    assert Ids([pending[0]]) == [pending[0].id];
  }

  lemma IdsAppend(a: seq<Line>, b: seq<Line>)
    ensures Ids(a + b) == Ids(a) + Ids(b)
  {
    forall i | 0 <= i < |a| + |b|
      ensures Ids(a + b)[i] == (Ids(a) + Ids(b))[i]
    {
      if i >= |a| {
        assert (a + b)[i] == b[i - |a|];
      }
    }
  }

  /** The loop removes from the cart exactly the user's lines that share an
      id with a dangling pending line. */
  lemma {:induction false} WalkRemoves(rule: StockRule, cart: seq<Line>, pending: seq<Line>, user: int, db: Catalog)
    requires UniqueIds(cart)
    ensures Walk(rule, cart, pending, user, db).1 == Filter(cart, UserIdIn(user, Ids(Filter(pending, Dangling(db)))))
    decreases |pending|
  {
    if pending == [] {
      FilterKeepsAll(cart, UserIdIn(user, []));
    } else if pending[0].product !in db.products {
      var p := pending[0];
      var cart1 := RemoveFromCart(cart, user, [p.id]).0;
      RemoveFromCartExact(cart, user, [p.id]);
      FilterKeepsInvariants(cart, Kept(user, [p.id]));
      WalkRemoves(rule, cart1, pending[1..], user, db);
      DanglingHead(pending, db);
      RemoveInTurn(cart, user, p.id, Ids(Filter(pending[1..], Dangling(db))));
    } else {
      WalkRemoves(rule, cart, pending[1..], user, db);
      assert Filter(pending, Dangling(db)) == Filter(pending[1..], Dangling(db));
    }
  }

  /** With unique ids, `getProducts` leaves the cart without exactly the
      user's lines whose product does not load; every other line stays. */
  lemma GetProductsRemoves(rule: StockRule, cart: seq<Line>, user: int, db: Catalog)
    requires UniqueIds(cart)
    ensures GetProducts(rule, cart, user, db).1 == Filter(cart, Survives(user, db))
  {
    var missing := Ids(Filter(Filter(cart, OfUser(user)), Dangling(db)));
    WalkRemoves(rule, cart, Filter(cart, OfUser(user)), user, db);
    forall i | 0 <= i < |cart|
      ensures UserIdIn(user, missing)(cart[i]) == Survives(user, db)(cart[i])
    {
      DanglingMissing(cart, user, db, cart[i]);
      MissingDangling(cart, user, db, cart[i]);
    }
    FilterAgree(cart, UserIdIn(user, missing), Survives(user, db));
  }

  /** A line of the user whose product does not load has its id among the
      dangling ids. */
  lemma DanglingMissing(cart: seq<Line>, user: int, db: Catalog, l: Line)
    requires l in cart
    ensures l.user == user && l.product !in db.products ==> l.id in Ids(Filter(Filter(cart, OfUser(user)), Dangling(db)))
  {
    if l.user == user && l.product !in db.products {
      var dangling := Filter(Filter(cart, OfUser(user)), Dangling(db));
      FilterMember(cart, OfUser(user), l);
      FilterMember(Filter(cart, OfUser(user)), Dangling(db), l);
      assert Ids(dangling)[IndexOf(dangling, l)] == l.id;
    }
  }

  /** With unique ids, a line of the user whose id is among the dangling
      ids is itself dangling. */
  lemma MissingDangling(cart: seq<Line>, user: int, db: Catalog, l: Line)
    requires UniqueIds(cart) && l in cart
    ensures l.user == user && l.id in Ids(Filter(Filter(cart, OfUser(user)), Dangling(db))) ==> l.product !in db.products
  {
    var dangling := Filter(Filter(cart, OfUser(user)), Dangling(db));
    if l.user == user && l.id in Ids(dangling) {
      var m := dangling[IndexOf(Ids(dangling), l.id)];
      FilterMember(Filter(cart, OfUser(user)), Dangling(db), m);
      FilterMember(cart, OfUser(user), m);
      assert cart[IndexOf(cart, m)].id == l.id;
      assert cart[IndexOf(cart, l)] == l;
    }
  }

  /** The loop removes the same lines under either stock test. */
  lemma {:induction false} WalkRulesAgree(cart: seq<Line>, pending: seq<Line>, user: int, db: Catalog)
    ensures Walk(AsWritten, cart, pending, user, db).1 == Walk(Corrected, cart, pending, user, db).1
    decreases |pending|
  {
    if pending != [] {
      if pending[0].product !in db.products {
        WalkRulesAgree(RemoveFromCart(cart, user, [pending[0].id]).0, pending[1..], user, db);
      } else {
        WalkRulesAgree(cart, pending[1..], user, db);
      }
    }
  }

  /** `getProducts` as written and corrected list the same entries and leave
      the same cart; they differ only in `hasStock`, where the corrected
      test is the stricter. */
  lemma GetProductsRules(cart: seq<Line>, user: int, db: Catalog)
    ensures |GetProducts(AsWritten, cart, user, db).0| == |GetProducts(Corrected, cart, user, db).0|
    ensures GetProducts(AsWritten, cart, user, db).1 == GetProducts(Corrected, cart, user, db).1
    ensures forall k :: 0 <= k < |GetProducts(Corrected, cart, user, db).0| ==>
              var w := GetProducts(AsWritten, cart, user, db).0[k];
              var c := GetProducts(Corrected, cart, user, db).0[k];
              w == c.(hasStock := w.hasStock) && (c.hasStock ==> w.hasStock)
  {
    WalkRulesAgree(cart, Filter(cart, OfUser(user)), user, db);
    var shown := Filter(Filter(cart, OfUser(user)), Loads(db));
    forall k | 0 <= k < |shown|
      ensures LineItem(AsWritten, db, shown[k]) == LineItem(Corrected, db, shown[k]).(hasStock := LineItem(AsWritten, db, shown[k]).hasStock)
      ensures LineItem(Corrected, db, shown[k]).hasStock ==> LineItem(AsWritten, db, shown[k]).hasStock
    {
      LineItemRules(db, shown[k]);
    }
  }
}

=== FILE: category.dfy ===
/** The category service: the `categories` rows and their `category_path`
    rows, changed together by `create`, `update` and `delete`. */
module CategoryService {
  import opened Php
  import opened Records
  import Seqs
  import CategoryPath
  import PathConsistency

  /** The two tables the service writes. */
  datatype Catalog = Catalog(categories: Records.Table, paths: CategoryPath.Table)

  /** The longest name `create` accepts; `update` accepts up to `MetaMax`. */
  const NameMax := 64
  /** The longest meta title, description and keywords either accepts. */
  const MetaMax := 255

  /** The columns `create` assigns and their defaults. */
  const Columns: Record := map[
    "top" := Int(0), "column" := Int(0), "sort_order" := Int(0), "status" := Int(0),
    "description" := Str(""), "meta_title" := Str(""), "meta_description" := Str(""),
    "meta_keyword" := Str(""), "parent_id" := Int(0), "name" := Null]

  /** The row `create` saves: the assigned columns, and an `image` that the
      request cannot set. */
  function NewCategory(data: Record): (node: Record)
    ensures node.Keys == Columns.Keys + {"image"}
    ensures node["image"] == Null
    ensures node["name"] == Get(data, "name")
    ensures node["parent_id"] == Coalesce(data, "parent_id", Int(0))
  {
    Defaults(data, Columns)["image" := Null]
  }

  predicate MetaOk(data: Record) {
    && StrLen(Get(data, "meta_title")) <= MetaMax
    && StrLen(Get(data, "meta_description")) <= MetaMax
    && StrLen(Get(data, "meta_keyword")) <= MetaMax
  }

  /** `$data['parent_id'] ?? 0`, as the id the path queries use. */
  function ParentOf(data: Record): int {
    IntCast(Coalesce(data, "parent_id", Int(0)))
  }

  /** The sign of `$data['parent_id'] ?? 0` as the `< 0` checks see it: a
      parent of `"-0.5"` is negative although its integer part is 0. */
  function ParentSign(data: Record): int {
    Sign(Coalesce(data, "parent_id", Int(0)))
  }

  /** `create($data)` with `id` the next auto-increment id: rejected with 400
      for a falsy name, a name over 64 code points, a negative parent or an
      over-long meta field, before anything is written; otherwise the row is
      saved and the new category's path is the parent's path followed by
      itself. */
  function Create(s: Catalog, data: Record, id: nat): (r: Result<Catalog>)
    requires id !in s.categories
    requires CategoryPath.RowsOf(s.paths, id) == []
    ensures r.Fail? <==>
      || Falsy(Get(data, "name")) || StrLen(Get(data, "name")) > 64
      || ParentSign(data) < 0
      || StrLen(Get(data, "meta_title")) > 255
      || StrLen(Get(data, "meta_description")) > 255
      || StrLen(Get(data, "meta_keyword")) > 255
    ensures r.Fail? ==> r.status == BadRequest
    ensures r.Ok? ==> r.value.categories.Keys == s.categories.Keys + {id}
    ensures r.Ok? ==> forall c :: c in s.categories ==> r.value.categories[c] == s.categories[c]
    ensures r.Ok? ==> r.value.categories[id] == NewCategory(data)["id" := Int(id)]
    ensures r.Ok? ==> CategoryPath.Path(r.value.paths, id) == CategoryPath.Path(s.paths, ParentOf(data)) + [id]
    ensures r.Ok? ==> forall c :: c != id ==> CategoryPath.RowsOf(r.value.paths, c) == CategoryPath.RowsOf(s.paths, c)
  {
    var node := NewCategory(data);
    NewCategoryChecked(data);
    var valid := NameOk(node["name"], NameMax) && Sign(node["parent_id"]) >= 0 && MetaOk(node);
    match CreateRecord(s.categories, id, node, valid)
    case Fail(status) => Fail(status)
    case Ok(categories) =>
      AttachPaths(s.paths, id, ParentOf(data));
      Ok(Catalog(categories, CategoryPath.Attach(s.paths, id, ParentOf(data))))
  }

  /** The fields `create` checks are the request's own. */
  lemma NewCategoryChecked(data: Record)
    ensures "name" in NewCategory(data) && "parent_id" in NewCategory(data)
    ensures MetaOk(NewCategory(data)) <==> MetaOk(data)
  {
    assert "name" in Columns && "parent_id" in Columns;
  }

  /** Attaching a category without rows gives it its parent's path and
      itself, and leaves every other category's rows alone. */
  lemma AttachPaths(paths: CategoryPath.Table, id: nat, parent: int)
    requires CategoryPath.RowsOf(paths, id) == []
    ensures CategoryPath.Path(CategoryPath.Attach(paths, id, parent), id) == CategoryPath.Path(paths, parent) + [id]
    ensures forall c :: c != id ==> CategoryPath.RowsOf(CategoryPath.Attach(paths, id, parent), c) == CategoryPath.RowsOf(paths, c)
  {
    forall c | c != id
      ensures CategoryPath.RowsOf(CategoryPath.Attach(paths, id, parent), c) == CategoryPath.RowsOf(paths, c)
    {
      CategoryPath.AttachRows(paths, id, parent, c);
    }
    CategoryPath.AttachRows(paths, id, parent, id);
  }

  /** The parent check compares the parent with 0 and does not cast it: a
      parent below 0 whose integer part is 0, such as `"-0.5"`
      (`Php.HalfBelowZero`), is refused by both `create` and `update`. */
  lemma FractionalParentRefused(s: Catalog, data: Record, id: nat)
    requires id !in s.categories
    requires CategoryPath.RowsOf(s.paths, id) == []
    requires Sign(Get(data, "parent_id")) < 0 && IntCast(Get(data, "parent_id")) == 0
    ensures Create(s, data, id).Fail? && Create(s, data, id).status == BadRequest
    ensures Update(s, id, data).Fail?
  {
    assert Coalesce(data, "parent_id", Int(0)) == Get(data, "parent_id");
  }

  /** The checks `update` makes on the request. */
  predicate UpdateValid(data: Record) {
    NameOk(Get(data, "name"), MetaMax) && ParentSign(data) >= 0 && MetaOk(data)
  }

  /** `update($id, $data)`: 404 for an unknown id; 400 for an empty name, a
      name over 255 code points (not 64 as in `create`), a negative parent
      or an over-long meta field; otherwise the row is merged with the
      request and the subtree at `id` is rewritten under the merged
      `parent_id` — on every update, whether or not the parent changed.
      The rewrite is the replacing one (see `CategoryPath.MoveSubtree`). */
  function Update(s: Catalog, id: int, data: Record): (r: Result<Catalog>)
    ensures r.Fail? <==> id !in s.categories || !UpdateValid(data)
    ensures r.Fail? ==> r.status == if id !in s.categories then NotFound else BadRequest
    ensures r.Ok? ==> r.value.categories == s.categories[id := Merge(s.categories[id], data)]
    ensures r.Ok? ==> forall c :: CategoryPath.Find(CategoryPath.Snapshot(s.paths, id), c).None? ==>
              CategoryPath.RowsOf(r.value.paths, c) == CategoryPath.RowsOf(s.paths, c)
  {
    match UpdateRecord(s.categories, id, data, UpdateValid(data))
    case Fail(status) => Fail(status)
    case Ok(categories) =>
      var parent := IntCast(Get(categories[id], "parent_id"));
      var paths := CategoryPath.MoveSubtree(s.paths, id, parent);
      assert forall c :: CategoryPath.Find(CategoryPath.Snapshot(s.paths, id), c).None? ==>
               CategoryPath.RowsOf(paths, c) == CategoryPath.RowsOf(s.paths, c) by {
        forall c | CategoryPath.Find(CategoryPath.Snapshot(s.paths, id), c).None?
          ensures CategoryPath.RowsOf(paths, c) == CategoryPath.RowsOf(s.paths, c)
        {
          CategoryPath.FoldKeepsUnnamed(s.paths, CategoryPath.Snapshot(s.paths, id), parent, CategoryPath.Replacing, c);
        }
      }
      Ok(Catalog(categories, paths))
  }

  /** `update($id, $data)` as the service does it: the checks and the merge
      of `Update`, with the subtree rewritten by the insert-only rewrite
      `CategoryPath.RewriteSubtree`, which leaves each moved category's
      surviving rows next to its new ones. */
  function UpdateAsWritten(s: Catalog, id: int, data: Record): (r: Result<Catalog>)
    ensures r.Fail? <==> id !in s.categories || !UpdateValid(data)
    ensures r.Fail? ==> r.status == if id !in s.categories then NotFound else BadRequest
    ensures r.Ok? ==> r.value.categories == s.categories[id := Merge(s.categories[id], data)]
    ensures r.Ok? ==> forall c :: CategoryPath.Find(CategoryPath.Snapshot(s.paths, id), c).None? ==>
              CategoryPath.RowsOf(r.value.paths, c) == CategoryPath.RowsOf(s.paths, c)
  {
    match UpdateRecord(s.categories, id, data, UpdateValid(data))
    case Fail(status) => Fail(status)
    case Ok(categories) =>
      var parent := IntCast(Get(categories[id], "parent_id"));
      var paths := CategoryPath.RewriteSubtree(s.paths, id, parent);
      assert forall c :: CategoryPath.Find(CategoryPath.Snapshot(s.paths, id), c).None? ==>
               CategoryPath.RowsOf(paths, c) == CategoryPath.RowsOf(s.paths, c) by {
        forall c | CategoryPath.Find(CategoryPath.Snapshot(s.paths, id), c).None?
          ensures CategoryPath.RowsOf(paths, c) == CategoryPath.RowsOf(s.paths, c)
        {
          CategoryPath.FoldKeepsUnnamed(s.paths, CategoryPath.Snapshot(s.paths, id), parent, CategoryPath.AsWritten, c);
        }
      }
      Ok(Catalog(categories, paths))
  }

  /** `delete($id)`: 404 for an unknown id; otherwise only the category row
      goes. Its path rows, and its descendants' rows and paths, stay. */
  function Delete(s: Catalog, id: int): (r: Result<Catalog>)
    ensures r.Fail? <==> id !in s.categories
    ensures r.Fail? ==> r.status == NotFound
    ensures r.Ok? ==> r.value.categories.Keys == s.categories.Keys - {id}
    ensures r.Ok? ==> forall c :: c in r.value.categories ==> r.value.categories[c] == s.categories[c]
    ensures r.Ok? ==> r.value.paths == s.paths
  {
    match Records.Delete(s.categories, id)
    case Fail(status) => Fail(status)
    case Ok(categories) => Ok(Catalog(categories, s.paths))
  }

  /** Deleting a category just created gives back the category rows as
      they were, but not the path table: the new category's path rows stay
      behind. */
  lemma CreateThenDelete(s: Catalog, data: Record, id: nat)
    requires id !in s.categories
    requires CategoryPath.RowsOf(s.paths, id) == []
    requires Create(s, data, id).Ok?
    ensures Delete(Create(s, data, id).value, id).Ok?
    ensures Delete(Create(s, data, id).value, id).value.categories == s.categories
    ensures CategoryPath.Path(Delete(Create(s, data, id).value, id).value.paths, id)
         == CategoryPath.Path(s.paths, ParentOf(data)) + [id]
  {
    var created := Create(s, data, id).value;
    assert id in created.categories;
    var deleted := Delete(created, id).value;
    assert deleted.paths == created.paths;
    MapsAgree(deleted.categories, created.categories, s.categories);
  }

  /** A map that keeps some keys of a second map, with their values, equals
      a third map that has the same keys and also agrees with the second. */
  lemma MapsAgree<K, V>(a: map<K, V>, b: map<K, V>, c: map<K, V>)
    requires a.Keys == c.Keys
    requires forall k :: k in a ==> k in b && a[k] == b[k]
    requires forall k :: k in c ==> k in b && c[k] == b[k]
    ensures a == c
  {
  }

  /** The sort whitelist of `list`. */
  function ListOrder(sort: string, order: string): (o: Ordering)
    ensures o.OrderBy? <==> sort == "name" || sort == "sort_order"
    ensures o.OrderBy? ==> o.column == sort
  {
    ListOrderWhitelist(sort, order, ["name", "sort_order"]);
    Records.ListOrder(sort, order, ["name", "sort_order"])
  }

  // ---------------------------------------------------------------------
  // The service on a consistent path table

  /** A catalog whose path table describes a tree. */
  ghost predicate Valid(s: Catalog) {
    PathConsistency.Consistent(s.paths)
  }

  /** `create` keeps the path table a tree. */
  lemma CreateKeepsValid(s: Catalog, data: Record, id: nat)
    requires id !in s.categories
    requires CategoryPath.RowsOf(s.paths, id) == []
    requires Valid(s)
    ensures Create(s, data, id).Ok? ==> Valid(Create(s, data, id).value)
  {
    PathConsistency.AttachConsistent(s.paths, id, ParentOf(data));
  }

  /** `update` keeps the path table a tree when the new parent lies outside
      the subtree being moved (the service does not check this). Every
      category below `id` then has the new parent's path in front of its
      path from `id` down. */
  lemma UpdateKeepsValid(s: Catalog, id: nat, data: Record, c: nat)
    requires Valid(s)
    requires Update(s, id, data).Ok?
    requires id !in CategoryPath.Path(s.paths, IntCast(Get(Merge(s.categories[id], data), "parent_id")))
    ensures Valid(Update(s, id, data).value)
    ensures var parent := IntCast(Get(Merge(s.categories[id], data), "parent_id"));
            var p := CategoryPath.Path(s.paths, c);
            CategoryPath.Path(Update(s, id, data).value.paths, c)
            == if id in p then CategoryPath.Path(s.paths, parent) + p[Seqs.IndexOf(p, id)..] else p
  {
    var parent := IntCast(Get(Merge(s.categories[id], data), "parent_id"));
    PathConsistency.MoveSubtreeConsistent(s.paths, id, parent);
    PathConsistency.MoveSubtreePath(s.paths, id, parent, c);
  }

  /** An update that keeps the category under its current parent leaves the
      path table's rows as they were. */
  lemma UpdateSameParentKeepsPaths(s: Catalog, id: nat, data: Record, c: nat)
    requires Valid(s)
    requires Update(s, id, data).Ok?
    requires CategoryPath.Path(s.paths, id)
          == CategoryPath.Path(s.paths, IntCast(Get(Merge(s.categories[id], data), "parent_id"))) + [id]
    ensures CategoryPath.RowsOf(Update(s, id, data).value.paths, c) == CategoryPath.RowsOf(s.paths, c)
  {
    var parent := IntCast(Get(Merge(s.categories[id], data), "parent_id"));
    PathConsistency.MoveSubtreeInPlace(s.paths, id, parent, c);
  }

  /** As written, `update` breaks the tree whatever the new parent: the
      category's path then reads itself, the parent's path, and itself
      again. */
  lemma UpdateAsWrittenBreaksTree(s: Catalog, id: nat, data: Record)
    requires Valid(s)
    requires UpdateAsWritten(s, id, data).Ok?
    requires CategoryPath.RowsOf(s.paths, id) != []
    requires id !in CategoryPath.Path(s.paths, IntCast(Get(Merge(s.categories[id], data), "parent_id")))
    ensures CategoryPath.Chain(UpdateAsWritten(s, id, data).value.paths, id)
         == [id] + CategoryPath.Path(s.paths, IntCast(Get(Merge(s.categories[id], data), "parent_id"))) + [id]
    ensures !Valid(UpdateAsWritten(s, id, data).value)
  {
    var parent := IntCast(Get(Merge(s.categories[id], data), "parent_id"));
    PathConsistency.RewriteSubtreeDuplicates(s.paths, id, parent);
  }

  /** Even an update that keeps the category under its current parent
      breaks the tree as written, where `Update` leaves the rows alone
      (`UpdateSameParentKeepsPaths`). */
  lemma UpdateAsWrittenSameParent(s: Catalog, id: nat, data: Record)
    requires Valid(s)
    requires UpdateAsWritten(s, id, data).Ok?
    requires CategoryPath.Path(s.paths, id)
          == CategoryPath.Path(s.paths, IntCast(Get(Merge(s.categories[id], data), "parent_id"))) + [id]
    ensures CategoryPath.Chain(UpdateAsWritten(s, id, data).value.paths, id) == [id] + CategoryPath.Path(s.paths, id)
    ensures !Valid(UpdateAsWritten(s, id, data).value)
  {
    var parent := IntCast(Get(Merge(s.categories[id], data), "parent_id"));
    var p := CategoryPath.Path(s.paths, parent);
    PathConsistency.PathIsChain(s.paths, id);
    PathConsistency.NotOwnAncestor(s.paths, id, p);
    assert CategoryPath.RowsOf(s.paths, id) != [];
    UpdateAsWrittenBreaksTree(s, id, data);
  }
}

=== FILE: category_path.dfy ===
/** The `category_path` closure table. For every category it holds one row
    per category on the way from the top-most ancestor down to the category
    itself; `level` counts from 0 at the top-most ancestor, so the category's
    own row carries the highest level. The table has no unique key, so it is
    a sequence of rows in insertion order, and rows may repeat. */
module CategoryPath {
  import opened Seqs

  /** One row: `path` is an ancestor of `category` (or the category itself)
      at depth `level` below the top. Ids are unsigned integers. */
  datatype PathRow = PathRow(category: nat, path: nat, level: nat)

  type Table = seq<PathRow>

  // ---------------------------------------------------------------------
  // Selections (the WHERE clauses the service issues)

  function OfCategory(c: int): PathRow -> bool {
    (r: PathRow) => r.category == c
  }

  function WithPath(x: int): PathRow -> bool {
    (r: PathRow) => r.path == x
  }

  function AtOrAbove(level: int): PathRow -> bool {
    (r: PathRow) => r.level >= level
  }

  /** The rows a `DELETE ... WHERE category_id = d AND level < L` leaves. */
  function NotBelowIn(d: int, level: int): PathRow -> bool {
    (r: PathRow) => !(r.category == d && r.level < level)
  }

  /** The rows a `DELETE ... WHERE category_id = d` leaves. */
  function NotOf(d: int): PathRow -> bool {
    (r: PathRow) => r.category != d
  }

  /** `where('category_id', c)`: the rows of `c`, in table order. */
  function RowsOf(t: Table, c: int): seq<PathRow> {
    Filter(t, OfCategory(c))
  }

  /** The path ids of some rows, in the rows' order. */
  function Ids(rows: seq<PathRow>): (xs: seq<nat>)
    ensures |xs| == |rows|
    ensures forall i :: 0 <= i < |rows| ==> xs[i] == rows[i].path
  {
    seq(|rows|, i requires 0 <= i < |rows| => rows[i].path)
  }

  // ---------------------------------------------------------------------
  // `orderBy('level', 'asc')`: a stable sort, so rows of equal level keep
  // their table order (the tie-break this model fixes).

  ghost predicate SortedByLevel(s: seq<PathRow>) {
    forall i, j :: 0 <= i < j < |s| ==> s[i].level <= s[j].level
  }

  function Insert(r: PathRow, s: seq<PathRow>): (o: seq<PathRow>)
    ensures |o| == |s| + 1
  {
    if s == [] || r.level <= s[0].level then [r] + s else [s[0]] + Insert(r, s[1..])
  }

  function SortByLevel(s: seq<PathRow>): (o: seq<PathRow>)
    ensures |o| == |s|
  {
    if s == [] then [] else Insert(s[0], SortByLevel(s[1..]))
  }

  lemma {:induction false} InsertCount(r: PathRow, s: seq<PathRow>)
    ensures multiset(Insert(r, s)) == multiset([r]) + multiset(s)
  {
    if s != [] && r.level > s[0].level {
      InsertCount(r, s[1..]);
      assert s == [s[0]] + s[1..];
    }
  }

  lemma {:induction false} InsertSorted(r: PathRow, s: seq<PathRow>)
    requires SortedByLevel(s)
    ensures SortedByLevel(Insert(r, s))
  {
    if s != [] && r.level > s[0].level {
      InsertSorted(r, s[1..]);
      InsertAtLeast(r, s[1..], s[0].level);
    }
  }

  /** Inserting a row at or above a level into rows at or above it. */
  lemma {:induction false} InsertAtLeast(r: PathRow, s: seq<PathRow>, lo: int)
    requires r.level >= lo
    requires forall k :: 0 <= k < |s| ==> s[k].level >= lo
    ensures forall k :: 0 <= k < |s| + 1 ==> Insert(r, s)[k].level >= lo
  {
    if s != [] && r.level > s[0].level {
      InsertAtLeast(r, s[1..], lo);
    }
  }

  /** The sort returns the same rows, ordered by level. */
  lemma {:induction false} SortByLevelSpec(s: seq<PathRow>)
    ensures multiset(SortByLevel(s)) == multiset(s)
    ensures SortedByLevel(SortByLevel(s))
  {
    if s != [] {
      SortByLevelSpec(s[1..]);
      InsertCount(s[0], SortByLevel(s[1..]));
      InsertSorted(s[0], SortByLevel(s[1..]));
      assert s == [s[0]] + s[1..];
    }
  }

  function AtLevel(level: int): PathRow -> bool {
    (r: PathRow) => r.level == level
  }

  lemma {:induction false} InsertStable(r: PathRow, s: seq<PathRow>, level: int)
    requires SortedByLevel(s)
    ensures Filter(Insert(r, s), AtLevel(level)) == Filter([r] + s, AtLevel(level))
  {
    if s != [] && r.level > s[0].level {
      InsertStable(r, s[1..], level);
      assert ([r] + s)[1..] == s;
      assert ([r] + s[1..])[1..] == s[1..];
      if s[0].level == level {
        // then r.level > level and every later row is at `level` or above
        assert Filter([r] + s, AtLevel(level)) == Filter(s, AtLevel(level));
      }
    }
  }

  /** The tie-break: among rows of one level the sort keeps table order. */
  lemma {:induction false} SortByLevelStable(s: seq<PathRow>, level: int)
    ensures Filter(SortByLevel(s), AtLevel(level)) == Filter(s, AtLevel(level))
  {
    if s != [] {
      SortByLevelStable(s[1..], level);
      SortByLevelSpec(s[1..]);
      InsertStable(s[0], SortByLevel(s[1..]), level);
      assert ([s[0]] + SortByLevel(s[1..]))[1..] == SortByLevel(s[1..]);
    }
  }

  /** Rows already in level order come back unchanged. */
  lemma {:induction false} SortedUnchanged(s: seq<PathRow>)
    requires SortedByLevel(s)
    ensures SortByLevel(s) == s
  {
    if s != [] {
      SortedUnchanged(s[1..]);
      assert s == [s[0]] + s[1..];
    }
  }

  /** `Path(c)`: the path ids of c's rows in ascending level, equal levels in
      table order. This is what the service reads back as a category's path. */
  function Path(t: Table, c: int): seq<nat> {
    Ids(SortByLevel(RowsOf(t, c)))
  }

  /** The path ids of c's rows in table order. */
  function Chain(t: Table, c: int): seq<nat> {
    Ids(RowsOf(t, c))
  }

  // ---------------------------------------------------------------------
  // The rows the service writes: `$level` counts from 0 as it goes.

  /** The rows `(c, xs[0], 0), (c, xs[1], 1), ...`. */
  function PathRowsFor(c: nat, xs: seq<nat>): (rows: seq<PathRow>)
    ensures |rows| == |xs|
  {
    seq(|xs|, i requires 0 <= i < |xs| => PathRow(c, xs[i], i))
  }

  /** Levels numbered 0, 1, 2, ... in table order. */
  ghost predicate LevelsFromZero(rows: seq<PathRow>) {
    forall i :: 0 <= i < |rows| ==> rows[i].level == i
  }

  lemma PathRowsForSpec(c: nat, xs: seq<nat>, d: int)
    ensures Ids(PathRowsFor(c, xs)) == xs
    ensures LevelsFromZero(PathRowsFor(c, xs))
    ensures RowsOf(PathRowsFor(c, xs), d) == if d == c then PathRowsFor(c, xs) else []
  {
    if d == c {
      FilterKeepsAll(PathRowsFor(c, xs), OfCategory(d));
    } else {
      FilterDropsAll(PathRowsFor(c, xs), OfCategory(d));
    }
  }

  lemma LevelsFromZeroSorted(rows: seq<PathRow>)
    requires LevelsFromZero(rows)
    ensures SortByLevel(rows) == rows
  {
    SortedUnchanged(rows);
  }

  lemma IdsAppend(a: seq<PathRow>, b: seq<PathRow>)
    ensures Ids(a + b) == Ids(a) + Ids(b)
  {
  }

  lemma IdsSuffix(a: seq<PathRow>, k: nat)
    requires k <= |a|
    ensures Ids(a[k..]) == Ids(a)[k..]
  {
  }

  // ---------------------------------------------------------------------
  // How the table operations act on one category's rows.

  lemma RowsOfAppend(a: Table, b: Table, c: int)
    ensures RowsOf(a + b, c) == RowsOf(a, c) + RowsOf(b, c)
  {
    FilterAppend(a, b, OfCategory(c));
  }

  /** Deleting d's rows below `level` touches only d, and of d keeps the rows
      at `level` or above. */
  lemma RowsOfDropBelow(t: Table, d: int, level: int, c: int)
    ensures RowsOf(Filter(t, NotBelowIn(d, level)), c)
         == if c == d then Filter(RowsOf(t, d), AtOrAbove(level)) else RowsOf(t, c)
  {
    FilterCommute(t, NotBelowIn(d, level), OfCategory(c));
    var rs := RowsOf(t, c);
    if c == d {
      FilterAgree(rs, NotBelowIn(d, level), AtOrAbove(level));
    } else {
      FilterKeepsAll(rs, NotBelowIn(d, level));
    }
  }

  /** Deleting all of d's rows touches only d. */
  lemma RowsOfDropAll(t: Table, d: int, c: int)
    ensures RowsOf(Filter(t, NotOf(d)), c) == if c == d then [] else RowsOf(t, c)
  {
    FilterCommute(t, NotOf(d), OfCategory(c));
    var rs := RowsOf(t, c);
    if c == d {
      FilterDropsAll(rs, NotOf(d));
    } else {
      FilterKeepsAll(rs, NotOf(d));
    }
  }

  /** How often a row occurs among c's rows. */
  lemma RowsOfCount(t: Table, c: int)
    ensures forall r :: multiset(RowsOf(t, c))[r] == if r.category == c then multiset(t)[r] else 0
  {
    FilterCount(t, OfCategory(c));
  }

  // ---------------------------------------------------------------------
  // `create`: the new category's rows.

  /** The rows `create` writes for a new category `id` under `parent`: the
      parent's path, then the category itself, levels numbered from 0. */
  function Attach(t: Table, id: nat, parent: int): (t': Table)
    ensures |t'| == |t| + |RowsOf(t, parent)| + 1
    ensures t'[..|t|] == t
  {
    t + PathRowsFor(id, Path(t, parent) + [id])
  }

  /** The rows of the new category are `(id, Path(parent)[i], i)` followed by
      `(id, id, |Path(parent)|)`; every other category keeps its rows. With a
      parent that has no rows (`parent_id` 0) the only row is `(id, id, 0)`. */
  lemma AttachRows(t: Table, id: nat, parent: int, c: int)
    requires RowsOf(t, id) == []
    ensures RowsOf(Attach(t, id, parent), c)
         == if c == id then PathRowsFor(id, Path(t, parent) + [id]) else RowsOf(t, c)
    ensures Path(Attach(t, id, parent), id) == Path(t, parent) + [id]
    ensures RowsOf(t, parent) == [] ==> RowsOf(Attach(t, id, parent), id) == [PathRow(id, id, 0)]
  {
    var xs := Path(t, parent) + [id];
    RowsOfAppend(t, PathRowsFor(id, xs), c);
    RowsOfAppend(t, PathRowsFor(id, xs), id);
    PathRowsForSpec(id, xs, c);
    PathRowsForSpec(id, xs, id);
    LevelsFromZeroSorted(PathRowsFor(id, xs));
    assert RowsOf(Attach(t, id, parent), id) == PathRowsFor(id, xs);
  }

  // ---------------------------------------------------------------------
  // `update`: the subtree rewrite, one snapshot row at a time.

  /** `AsWritten` is the rewrite as the service performs it; `Replacing` also
      deletes the category's remaining rows before writing its new ones. */
  datatype Mode = AsWritten | Replacing

  /** One pass of the rewrite loop for snapshot row `cp` and new parent
      `parent`: delete the rows of `cp.category` below `cp.level`, read the
      parent's path and what is left of the category's path, and write their
      concatenation numbered from 0. */
  function Step(t: Table, cp: PathRow, parent: int, mode: Mode): (t': Table)
    ensures |t'| <= |t| + |RowsOf(t, parent)| + |RowsOf(t, cp.category)|
  {
    var d := cp.category;
    var kept := Filter(t, NotBelowIn(d, cp.level));
    RowsOfDropBelow(t, d, cp.level, parent);
    RowsOfDropBelow(t, d, cp.level, d);
    var xs := Path(kept, parent) + Path(kept, d);
    (if mode == AsWritten then kept else Filter(kept, NotOf(d))) + PathRowsFor(d, xs)
  }

  /** The loop over the snapshot, each pass seeing the table the previous
      passes left. */
  function Fold(t: Table, snapshot: seq<PathRow>, parent: int, mode: Mode): Table
    decreases |snapshot|
  {
    if snapshot == [] then t else Fold(Step(t, snapshot[0], parent, mode), snapshot[1..], parent, mode)
  }

  /** Every row whose path passes through `id`, by ascending level (ties in
      table order): the categories of the subtree rooted at `id`. */
  function Snapshot(t: Table, id: int): (s: seq<PathRow>)
    ensures forall i :: 0 <= i < |s| ==> s[i].path == id
  {
    SortByLevelSpec(Filter(t, WithPath(id)));
    FilterCount(t, WithPath(id));
    var s := SortByLevel(Filter(t, WithPath(id)));
    assert forall i :: 0 <= i < |s| ==> s[i] in multiset(s);
    s
  }

  /** The path rewrite of `update($id, ...)` with new parent `parent`, as
      the service performs it. */
  function RewriteSubtree(t: Table, id: int, parent: int): Table {
    Fold(t, Snapshot(t, id), parent, AsWritten)
  }

  /** The path rewrite with each category's old rows replaced rather than
      kept next to the new ones. */
  function MoveSubtree(t: Table, id: int, parent: int): Table {
    Fold(t, Snapshot(t, id), parent, Replacing)
  }

  /** What one pass leaves of category `c`'s rows `rows`, when `c` is the
      snapshot row's category: the rows at or above `level` survive (and are
      kept as they are when nothing replaces them), and new rows carry
      `prefix` followed by the survivors' ids in level order. */
  function Rewritten(c: nat, rows: seq<PathRow>, level: int, prefix: seq<nat>, mode: Mode): seq<PathRow> {
    var survivors := Filter(rows, AtOrAbove(level));
    (if mode == AsWritten then survivors else []) + PathRowsFor(c, prefix + Ids(SortByLevel(survivors)))
  }

  /** One pass touches only the snapshot row's category, and rewrites it
      from the parent's current path and its own surviving rows. */
  lemma StepRowsOf(t: Table, cp: PathRow, parent: int, mode: Mode, c: int)
    requires parent != cp.category
    ensures RowsOf(Step(t, cp, parent, mode), c)
         == if c == cp.category then Rewritten(cp.category, RowsOf(t, c), cp.level, Path(t, parent), mode)
            else RowsOf(t, c)
  {
    var d := cp.category;
    var kept := Filter(t, NotBelowIn(d, cp.level));
    RowsOfDropBelow(t, d, cp.level, parent);
    RowsOfDropBelow(t, d, cp.level, d);
    RowsOfDropBelow(t, d, cp.level, c);
    var xs := Path(kept, parent) + Path(kept, d);
    assert xs == Path(t, parent) + Ids(SortByLevel(Filter(RowsOf(t, d), AtOrAbove(cp.level))));
    var base := if mode == AsWritten then kept else Filter(kept, NotOf(d));
    RowsOfAppend(base, PathRowsFor(d, xs), c);
    PathRowsForSpec(d, xs, c);
    if mode == Replacing {
      RowsOfDropAll(kept, d, c);
    }
  }

  /** The first snapshot row of category `c`, if any. */
  function Find(s: seq<PathRow>, c: int): (o: Option<PathRow>)
    ensures o.None? <==> forall i :: 0 <= i < |s| ==> s[i].category != c
    ensures o.Some? ==> o.value in s && o.value.category == c
  {
    if s == [] then None
    else if s[0].category == c then Some(s[0])
    else Find(s[1..], c)
  }

  /** The loop as a whole: when the snapshot names each category at most
      once and never the new parent, every category the snapshot names is
      rewritten once from its original rows and the parent's ORIGINAL path,
      and every other category keeps its rows. */
  lemma {:induction false} FoldRowsOf(t: Table, snapshot: seq<PathRow>, parent: int, mode: Mode, c: int)
    requires forall i, j :: 0 <= i < j < |snapshot| ==> snapshot[i].category != snapshot[j].category
    requires forall i :: 0 <= i < |snapshot| ==> snapshot[i].category != parent
    ensures RowsOf(Fold(t, snapshot, parent, mode), c)
         == match Find(snapshot, c)
            case None => RowsOf(t, c)
            case Some(cp) => Rewritten(cp.category, RowsOf(t, c), cp.level, Path(t, parent), mode)
    decreases |snapshot|
  {
    if snapshot != [] {
      var cp, rest := snapshot[0], snapshot[1..];
      var t1 := Step(t, cp, parent, mode);
      forall i, j | 0 <= i < j < |rest|
        ensures rest[i].category != rest[j].category
      {
        assert rest[i] == snapshot[i + 1] && rest[j] == snapshot[j + 1];
      }
      forall i | 0 <= i < |rest|
        ensures rest[i].category != parent && rest[i].category != cp.category
      {
        assert rest[i] == snapshot[i + 1];
      }
      FoldRowsOf(t1, rest, parent, mode, c);
      StepRowsOf(t, cp, parent, mode, parent);
      assert Path(t1, parent) == Path(t, parent);
      StepRowsOf(t, cp, parent, mode, c);
      if c == cp.category {
        assert Find(rest, c).None?;
      } else {
        assert Find(snapshot, c) == Find(rest, c);
      }
    }
  }

  /** One pass leaves every other category's rows alone, whatever the table
      (even when it reads the parent's path from a category it rewrites). */
  lemma StepKeepsOthers(t: Table, cp: PathRow, parent: int, mode: Mode, c: int)
    requires c != cp.category
    ensures RowsOf(Step(t, cp, parent, mode), c) == RowsOf(t, c)
  {
    var d := cp.category;
    var kept := Filter(t, NotBelowIn(d, cp.level));
    RowsOfDropBelow(t, d, cp.level, parent);
    RowsOfDropBelow(t, d, cp.level, d);
    RowsOfDropBelow(t, d, cp.level, c);
    var xs := Path(kept, parent) + Path(kept, d);
    var base := if mode == AsWritten then kept else Filter(kept, NotOf(d));
    RowsOfAppend(base, PathRowsFor(d, xs), c);
    PathRowsForSpec(d, xs, c);
    RowsOfDropAll(kept, d, c);
  }

  /** A category the snapshot does not name keeps its rows through the
      whole loop, whatever the table. */
  lemma {:induction false} FoldKeepsUnnamed(t: Table, snapshot: seq<PathRow>, parent: int, mode: Mode, c: int)
    requires Find(snapshot, c).None?
    ensures RowsOf(Fold(t, snapshot, parent, mode), c) == RowsOf(t, c)
    decreases |snapshot|
  {
    if snapshot != [] {
      FoldKeepsUnnamed(Step(t, snapshot[0], parent, mode), snapshot[1..], parent, mode, c);
      StepKeepsOthers(t, snapshot[0], parent, mode, c);
    }
  }
}

=== FILE: manufacturer.dfy ===
/** The manufacturer (brand) service. */
module ManufacturerService {
  import opened Php
  import opened Records

  /** The columns `create` assigns and their defaults. */
  const Columns: Record := map["name" := Null, "image" := Str(""), "sort_order" := Int(0)]

  /** `create($data)` with `id` the next auto-increment id: 400 for a falsy
      name or one over 64 code points; otherwise the row holds the name, the
      image (default '') and the sort order (default 0). */
  function Create(tbl: Table, data: Record, id: int): (r: Result<Table>)
    requires id !in tbl
    ensures r.Fail? <==> Falsy(Get(data, "name")) || StrLen(Get(data, "name")) > 64
    ensures r.Fail? ==> r.status == BadRequest
    ensures r.Ok? ==> r.value.Keys == tbl.Keys + {id}
    ensures r.Ok? ==> forall k :: k in tbl ==> r.value[k] == tbl[k]
    ensures r.Ok? ==> r.value[id] == map["id" := Int(id), "name" := Get(data, "name"),
                                        "image" := Coalesce(data, "image", Str("")),
                                        "sort_order" := Coalesce(data, "sort_order", Int(0))]
  {
    NewRow(data, id);
    CreateRecord(tbl, id, Defaults(data, Columns), NameOk(Get(data, "name"), 64))
  }

  /** The saved row: the assigned columns and the new id. */
  lemma NewRow(data: Record, id: int)
    ensures Defaults(data, Columns)["id" := Int(id)]
         == map["id" := Int(id), "name" := Get(data, "name"),
                "image" := Coalesce(data, "image", Str("")),
                "sort_order" := Coalesce(data, "sort_order", Int(0))]
  {
  }

  /** `update($id, $data)`: 404 for an unknown id, 400 for an empty name or
      one over 64 code points, otherwise the merge. */
  function Update(tbl: Table, id: int, data: Record): (r: Result<Table>)
    ensures r.Fail? <==> id !in tbl || Falsy(Get(data, "name")) || StrLen(Get(data, "name")) > 64
    ensures r.Fail? ==> r.status == if id !in tbl then NotFound else BadRequest
    ensures r.Ok? ==> r.value == tbl[id := Merge(tbl[id], data)]
  {
    UpdateRecord(tbl, id, data, NameOk(Get(data, "name"), 64))
  }

  /** The sort whitelist of `list`: name and sort_order. */
  function ListOrder(sort: string, order: string): (o: Ordering)
    ensures o.OrderBy? <==> sort == "name" || sort == "sort_order"
    ensures o.OrderBy? ==> o.column == sort && (o.dir == Desc <==> AsciiLower(order) == "desc")
  {
    ListOrderWhitelist(sort, order, ["name", "sort_order"]);
    Records.ListOrder(sort, order, ["name", "sort_order"])
  }

  /** `create` and `update` accept exactly the same names. */
  lemma CreateAndUpdateAgreeOnNames(tbl: Table, data: Record, id: int, other: int)
    requires id !in tbl && other in tbl
    ensures Create(tbl, data, id).Ok? <==> Update(tbl, other, data).Ok?
  {
  }
}

=== FILE: option.dfy ===
/** The option service: an option (a named choice such as "Size") and its
    values, kept in `option_value` rows that point back at it. */
module OptionService {
  import opened Php
  import opened Records
  import opened Seqs

  /** An `option_value` row. */
  datatype ValueRow = ValueRow(id: int, option: int, name: Value, image: Value, sortOrder: Value)

  /** The option table and the value table, the latter in insertion order. */
  datatype Options = Options(options: Records.Table, values: seq<ValueRow>)

  /** The types `create` accepts. "image" is not among them. */
  const Types: seq<string> := ["radio", "checkbox", "text", "select", "textarea", "file", "date", "time", "datetime"]

  /** The option a value row belongs to. */
  function OptionOf(r: ValueRow): int {
    r.option
  }

  /** The value rows of option `o`, in insertion order. */
  function ValuesOf(rows: seq<ValueRow>, o: int): seq<ValueRow> {
    Group(rows, OptionOf, o)
  }

  /** The rows the `foreach ($data['option_values'] ?? [] ...)` loop saves for
      option `o` named `name`, the k-th getting auto-increment id `next + k`. */
  function NewValues(o: int, name: Value, request: seq<Record>, next: int): (rows: seq<ValueRow>)
    ensures |rows| == |request|
    ensures forall k :: 0 <= k < |rows| ==> rows[k].id == next + k && rows[k].option == o
    ensures forall k :: 0 <= k < |rows| ==>
              && rows[k].name == Coalesce(request[k], "name", name)
              && rows[k].image == Coalesce(request[k], "image", Str(""))
              && rows[k].sortOrder == Coalesce(request[k], "sort_order", Int(0))
    decreases |request|
  {
    if request == [] then []
    else
      [ValueRow(next, o, Coalesce(request[0], "name", name), Coalesce(request[0], "image", Str("")),
                Coalesce(request[0], "sort_order", Int(0)))]
      + NewValues(o, name, request[1..], next + 1)
  }

  /** `create($data)`, `values` being `$data['option_values'] ?? []`, `id` the
      next option id and `next` the next value id: 400 for a falsy name, a
      name over 64 code points, or a type not loosely equal to one of
      `Types`; otherwise the option row and one value row per request entry
      are saved. */
  function Create(s: Options, data: Record, values: seq<Record>, id: int, next: int): (r: Result<Options>)
    requires id !in s.options
    ensures r.Fail? <==> !NameOk(Get(data, "name"), 64) || !InArrayLoose(Get(data, "type"), Types)
    ensures r.Fail? ==> r.status == BadRequest
    ensures r.Ok? ==> r.value.options.Keys == s.options.Keys + {id}
    ensures r.Ok? ==> forall k :: k in s.options ==> r.value.options[k] == s.options[k]
    ensures r.Ok? ==> r.value.options[id] == map["id" := Int(id), "name" := Get(data, "name"),
                         "type" := Get(data, "type"), "sort_order" := Coalesce(data, "sort_order", Int(0))]
    ensures r.Ok? ==> r.value.values == s.values + NewValues(id, Get(data, "name"), values, next)
  {
    var name := Get(data, "name");
    var kind := Get(data, "type");
    var node := map["id" := Int(id), "name" := name, "type" := kind, "sort_order" := Coalesce(data, "sort_order", Int(0))];
    match CreateRecord(s.options, id, node, NameOk(name, 64) && InArrayLoose(kind, Types))
    case Fail(status) => Fail(status)
    case Ok(options) => Ok(Options(options, s.values + NewValues(id, name, values, next)))
  }

  /** The type check in words: the nine type names, and also the integer 0,
      which PHP 7 finds equal to any of them. */
  lemma TypeCheckMeans(t: Value)
    ensures InArrayLoose(t, Types) <==> t == Int(0) || (t.Str? && t.s in Types)
    ensures !InArrayLoose(Str("image"), Types)
  {
    InArrayLooseLetterWords(t, Types);
    InArrayLooseLetterWords(Str("image"), Types);
  }

  /** After `create` the new option has exactly the requested values, and
      every other option keeps its own. */
  lemma CreateValues(s: Options, data: Record, values: seq<Record>, id: int, next: int, o: int)
    requires id !in s.options
    requires ValuesOf(s.values, id) == []
    requires Create(s, data, values, id, next).Ok?
    ensures ValuesOf(Create(s, data, values, id, next).value.values, o)
         == if o == id then NewValues(id, Get(data, "name"), values, next) else ValuesOf(s.values, o)
  {
    AppendGroup(s.values, OptionOf, id, NewValues(id, Get(data, "name"), values, next), o);
  }

  /** `update($id, $data)`, `values` being `$data['option_values'] ?? []`:
      404 for an unknown id, 400 for an empty name or one over 64 code
      points (the type is not checked); otherwise the merge, and the
      option's value rows are replaced by the requested ones, named after
      the merged option by default. */
  function Update(s: Options, id: int, data: Record, values: seq<Record>, next: int): (r: Result<Options>)
    ensures r.Fail? <==> id !in s.options || !NameOk(Get(data, "name"), 64)
    ensures r.Fail? ==> r.status == if id !in s.options then NotFound else BadRequest
    ensures r.Ok? ==> r.value.options == s.options[id := Merge(s.options[id], data)]
    ensures r.Ok? ==> forall k :: 0 <= k < |r.value.values| ==>
              (r.value.values[k].option == id <==> k >= |r.value.values| - |values|)
  {
    match UpdateRecord(s.options, id, data, NameOk(Get(data, "name"), 64))
    case Fail(status) => Fail(status)
    case Ok(options) =>
      var added := NewValues(id, Get(options[id], "name"), values, next);
      ReplaceLast(s.values, OptionOf, id, added);
      Ok(Options(options, Replace(s.values, OptionOf, id, added)))
  }

  /** After `update` the option has exactly the requested values, whatever
      it had before, and every other option keeps its own. */
  lemma UpdateValues(s: Options, id: int, data: Record, values: seq<Record>, next: int, o: int)
    requires Update(s, id, data, values, next).Ok?
    ensures ValuesOf(Update(s, id, data, values, next).value.values, o)
         == if o == id then NewValues(id, Get(Merge(s.options[id], data), "name"), values, next)
            else ValuesOf(s.values, o)
  {
    var name := Get(Merge(s.options[id], data), "name");
    ReplaceGroup(s.values, OptionOf, id, NewValues(id, name, values, next), o);
  }

  /** Repeating an `update` leaves the option row as it was and gives the
      option the same values again (under fresh ids). */
  lemma UpdateTwice(s: Options, id: int, data: Record, values: seq<Record>, next: int, next2: int)
    requires Update(s, id, data, values, next).Ok?
    ensures var once := Update(s, id, data, values, next).value;
            var twice := Update(once, id, data, values, next2);
            && twice.Ok?
            && twice.value.options == once.options
            && |ValuesOf(twice.value.values, id)| == |ValuesOf(once.values, id)|
            && forall k :: 0 <= k < |ValuesOf(once.values, id)| ==>
                 ValuesOf(twice.value.values, id)[k].id == ValuesOf(once.values, id)[k].id - next + next2
                 && ValuesOf(twice.value.values, id)[k].name == ValuesOf(once.values, id)[k].name
                 && ValuesOf(twice.value.values, id)[k].image == ValuesOf(once.values, id)[k].image
                 && ValuesOf(twice.value.values, id)[k].sortOrder == ValuesOf(once.values, id)[k].sortOrder
  {
    var once := Update(s, id, data, values, next).value;
    UpdateIdempotent(s.options, id, data, NameOk(Get(data, "name"), 64));
    UpdateValues(s, id, data, values, next, id);
    UpdateValues(once, id, data, values, next2, id);
    MergeIdempotent(s.options[id], data);
  }

  /** The sort whitelist of `list`: name, type and sort_order. */
  function ListOrder(sort: string, order: string): (o: Ordering)
    ensures o.OrderBy? <==> sort == "name" || sort == "type" || sort == "sort_order"
    ensures o.OrderBy? ==> o.column == sort && (o.dir == Desc <==> AsciiLower(order) == "desc")
  {
    ListOrderWhitelist(sort, order, ["name", "type", "sort_order"]);
    Records.ListOrder(sort, order, ["name", "type", "sort_order"])
  }
}

=== FILE: path_consistency.dfy ===
/** When is a path table a tree, and what the `update` rewrite does to one.
    A table is consistent when every category's rows are numbered 0, 1, 2, ...
    in table order, end with the category itself, and agree with the rows of
    each ancestor they name. On such a table the rewrite as the service
    performs it leaves each moved category with its old surviving rows AND
    the new ones; the replacing rewrite moves the subtree and keeps the
    table consistent. */
module PathConsistency {
  import opened Seqs
  import opened CategoryPath

  ghost predicate WellLevelled(t: Table) {
    forall c: nat :: LevelsFromZero(RowsOf(t, c))
  }

  ghost predicate EndsWithSelf(t: Table, c: nat) {
    Chain(t, c) == [] || Chain(t, c)[|Chain(t, c)| - 1] == c
  }

  ghost predicate SelfLast(t: Table) {
    forall c: nat :: EndsWithSelf(t, c)
  }

  /** The `k`-th ancestor of `c` has as its own path the first `k + 1`
      entries of `c`'s path. */
  ghost predicate AncestorAgrees(t: Table, c: nat, k: int) {
    0 <= k < |Chain(t, c)| ==> Chain(t, Chain(t, c)[k]) == Chain(t, c)[..k + 1]
  }

  ghost predicate PrefixClosed(t: Table) {
    forall c: nat, k :: AncestorAgrees(t, c, k)
  }

  ghost predicate Consistent(t: Table) {
    WellLevelled(t) && SelfLast(t) && PrefixClosed(t)
  }

  // ---------------------------------------------------------------------
  // Facts about consistent tables

  /** In a well-levelled table a category's rows are determined by its
      path, and sorting by level changes nothing. */
  lemma WellLevelledRows(t: Table, c: nat)
    requires WellLevelled(t)
    ensures RowsOf(t, c) == PathRowsFor(c, Chain(t, c))
    ensures Path(t, c) == Chain(t, c)
  {
    var rs := RowsOf(t, c);
    assert LevelsFromZero(rs);
    forall i | 0 <= i < |rs|
      ensures rs[i] == PathRowsFor(c, Chain(t, c))[i]
    {
      assert OfCategory(c)(rs[i]);
    }
    LevelsFromZeroSorted(rs);
  }

  /** No category appears twice on a path. */
  lemma ChainDistinct(t: Table, c: nat)
    requires PrefixClosed(t)
    ensures forall i, j :: 0 <= i < j < |Chain(t, c)| ==> Chain(t, c)[i] != Chain(t, c)[j]
  {
    var ch := Chain(t, c);
    forall i, j | 0 <= i < j < |ch|
      ensures ch[i] != ch[j]
    {
      assert AncestorAgrees(t, c, i);
      assert AncestorAgrees(t, c, j);
    }
  }

  /** A category does not occur on the path above it. */
  lemma NotOwnAncestor(t: Table, id: nat, above: seq<nat>)
    requires PrefixClosed(t)
    requires Chain(t, id) == above + [id]
    ensures id !in above
  {
    ChainDistinct(t, id);
    forall i | 0 <= i < |above|
      ensures above[i] != id
    {
      assert Chain(t, id)[i] == above[i];
      assert Chain(t, id)[|above|] == id;
    }
  }

  /** Wherever `id` occurs on a path it sits at its own depth, and the
      entries up to it are its own path. */
  lemma AncestorIndex(t: Table, c: nat, id: nat)
    requires PrefixClosed(t)
    requires id in Chain(t, c)
    ensures IndexOf(Chain(t, c), id) == |Chain(t, id)| - 1
    ensures Chain(t, id) == Chain(t, c)[..IndexOf(Chain(t, c), id) + 1]
  {
    assert AncestorAgrees(t, c, IndexOf(Chain(t, c), id));
  }

  /** A path through the `k`-th ancestor of `c` is a path through `c`, at
      the same position. */
  lemma AncestorOfAncestor(t: Table, c: nat, k: nat, id: nat)
    requires PrefixClosed(t)
    requires k < |Chain(t, c)|
    ensures id in Chain(t, Chain(t, c)[k]) <==> id in Chain(t, c)[..k + 1]
    ensures id in Chain(t, Chain(t, c)[k]) ==>
              IndexOf(Chain(t, Chain(t, c)[k]), id) == IndexOf(Chain(t, c), id)
  {
    assert AncestorAgrees(t, c, k);
    var ch := Chain(t, c);
    if id in ch[..k + 1] {
      var x := ch[k];
      var m := IndexOf(Chain(t, x), id);
      assert Chain(t, x)[m] == ch[m];
    }
  }

  /** How often a row occurs in the snapshot of `id`: as often as among its
      category's rows when its path id is `id`, else never. */
  lemma SnapshotCount(t: Table, id: nat, r: PathRow)
    ensures multiset(Snapshot(t, id))[r] == if r.path == id then multiset(RowsOf(t, r.category))[r] else 0
  {
    SortByLevelSpec(Filter(t, WithPath(id)));
    FilterCount(t, WithPath(id));
    RowsOfCount(t, r.category);
  }

  /** A category's rows in a well-levelled table are pairwise different. */
  lemma RowsOnce(t: Table, c: nat)
    requires WellLevelled(t)
    ensures forall x :: multiset(RowsOf(t, c))[x] <= 1
  {
    var rs := RowsOf(t, c);
    assert LevelsFromZero(rs);
    forall i, j | 0 <= i < j < |rs|
      ensures rs[i] != rs[j]
    {
      assert rs[i].level == i && rs[j].level == j;
    }
    DistinctCounts(rs);
  }

  /** A row lies in the snapshot of `id` exactly when it is the row of a
      category of the subtree at `id`'s position, and it lies there once. */
  lemma SnapshotMember(t: Table, id: nat, r: PathRow)
    requires Consistent(t)
    ensures r in Snapshot(t, id) <==>
              id in Chain(t, r.category) && r == PathRow(r.category, id, IndexOf(Chain(t, r.category), id))
    ensures multiset(Snapshot(t, id))[r] <= 1
  {
    var c := r.category;
    var rs := RowsOf(t, c);
    var ch := Chain(t, c);
    SnapshotCount(t, id, r);
    RowsOnce(t, c);
    WellLevelledRows(t, c);
    assert r in Snapshot(t, id) <==> r.path == id && r in rs by {
      assert r in Snapshot(t, id) <==> r in multiset(Snapshot(t, id));
      assert r in rs <==> r in multiset(rs);
    }
    if r.path == id && r in rs {
      var k :| 0 <= k < |rs| && rs[k] == r;
      assert ch[k] == id;
      ChainDistinct(t, c);
      assert IndexOf(ch, id) == k;
    }
    if id in ch && r == PathRow(c, id, IndexOf(ch, id)) {
      assert rs[IndexOf(ch, id)] == r;
    }
  }

  /** The snapshot names a category exactly when `id` is on its path, and
      then holds its row at `id`'s position. */
  lemma SnapshotFind(t: Table, id: nat, c: nat)
    requires Consistent(t)
    ensures Find(Snapshot(t, id), c)
         == if id in Chain(t, c) then Some(PathRow(c, id, IndexOf(Chain(t, c), id))) else None
  {
    var s := Snapshot(t, id);
    if id in Chain(t, c) {
      SnapshotMember(t, id, PathRow(c, id, IndexOf(Chain(t, c), id)));
      var v := Find(s, c).value;
      SnapshotMember(t, id, v);
    } else {
      forall i | 0 <= i < |s|
        ensures s[i].category != c
      {
        SnapshotMember(t, id, s[i]);
      }
    }
  }

  /** The snapshot names each category at most once. */
  lemma SnapshotDistinct(t: Table, id: nat)
    requires Consistent(t)
    ensures forall i, j :: 0 <= i < j < |Snapshot(t, id)| ==>
              Snapshot(t, id)[i].category != Snapshot(t, id)[j].category
  {
    var s := Snapshot(t, id);
    forall i, j | 0 <= i < j < |s|
      ensures s[i].category != s[j].category
    {
      SnapshotMember(t, id, s[i]);
      SnapshotMember(t, id, s[j]);
      if s[i].category == s[j].category {
        RepeatedElementCount(s, i, j);
      }
    }
  }

  /** Of rows numbered from 0, those at `level` or above are the suffix
      from `level`, already in level order. */
  lemma SurvivorsAreSuffix(rs: seq<PathRow>, level: nat)
    requires LevelsFromZero(rs)
    requires level <= |rs|
    ensures Filter(rs, AtOrAbove(level)) == rs[level..]
    ensures SortByLevel(rs[level..]) == rs[level..]
  {
    assert rs == rs[..level] + rs[level..];
    FilterAppend(rs[..level], rs[level..], AtOrAbove(level));
    FilterDropsAll(rs[..level], AtOrAbove(level));
    FilterKeepsAll(rs[level..], AtOrAbove(level));
    SuffixSorted(rs, level);
  }

  /** A suffix of rows numbered from 0 is in level order. */
  lemma SuffixSorted(rs: seq<PathRow>, level: nat)
    requires LevelsFromZero(rs)
    requires level <= |rs|
    ensures SortByLevel(rs[level..]) == rs[level..]
  {
    var sfx := rs[level..];
    assert forall i :: 0 <= i < |sfx| ==> sfx[i].level == level + i;
    SortedUnchanged(sfx);
  }

  // ---------------------------------------------------------------------
  // The rewrite on a consistent table

  /** The path the move gives `c`: for a category of the subtree at `id`,
      the new parent's path followed by the part of its own path from `id`
      down; every other path is unchanged. */
  ghost function MovedChain(t: Table, id: nat, parent: int, c: nat): seq<nat> {
    if id in Chain(t, c) then Chain(t, parent) + Chain(t, c)[IndexOf(Chain(t, c), id)..] else Chain(t, c)
  }

  /** The snapshot of a consistent table never names the new parent when
      the parent lies outside the subtree. */
  lemma SnapshotAvoidsParent(t: Table, id: nat, parent: int)
    requires Consistent(t)
    requires id !in Path(t, parent)
    ensures forall i :: 0 <= i < |Snapshot(t, id)| ==> Snapshot(t, id)[i].category != parent
  {
    var s := Snapshot(t, id);
    forall i | 0 <= i < |s|
      ensures s[i].category != parent
    {
      SnapshotMember(t, id, s[i]);
      WellLevelledRows(t, s[i].category);
    }
  }

  /** The rows either rewrite leaves each category, on a consistent table
      and a parent outside the subtree. */
  lemma FoldMovedRows(t: Table, id: nat, parent: int, mode: Mode, c: nat)
    requires Consistent(t)
    requires id !in Path(t, parent)
    ensures RowsOf(Fold(t, Snapshot(t, id), parent, mode), c)
         == if id in Chain(t, c) then
              (if mode == AsWritten then RowsOf(t, c)[IndexOf(Chain(t, c), id)..] else [])
                + PathRowsFor(c, MovedChain(t, id, parent, c))
            else RowsOf(t, c)
  {
    SnapshotDistinct(t, id);
    SnapshotAvoidsParent(t, id, parent);
    FoldRowsOf(t, Snapshot(t, id), parent, mode, c);
    SnapshotFind(t, id, c);
    if id in Chain(t, c) {
      var k := IndexOf(Chain(t, c), id);
      var rs := RowsOf(t, c);
      assert LevelsFromZero(rs);
      SurvivorsAreSuffix(rs, k);
      IdsSuffix(rs, k);
      if parent >= 0 {
        WellLevelledRows(t, parent);
      }
    }
  }

  /** The replacing rewrite leaves every category exactly the rows of its
      moved path. */
  lemma MoveSubtreeRows(t: Table, id: nat, parent: int, c: nat)
    requires Consistent(t)
    requires id !in Path(t, parent)
    ensures RowsOf(MoveSubtree(t, id, parent), c) == PathRowsFor(c, MovedChain(t, id, parent, c))
  {
    FoldMovedRows(t, id, parent, Replacing, c);
    WellLevelledRows(t, c);
  }

  /** Moving the subtree at `id` under `parent`: a category whose path runs
      through `id` keeps the part from `id` down and gets the parent's path
      in front of it; the path of every other category is unchanged. */
  lemma MoveSubtreePath(t: Table, id: nat, parent: int, c: nat)
    requires Consistent(t)
    requires id !in Path(t, parent)
    ensures id in Path(t, c) ==>
              Path(MoveSubtree(t, id, parent), c) == Path(t, parent) + Path(t, c)[IndexOf(Path(t, c), id)..]
    ensures id !in Path(t, c) ==> Path(MoveSubtree(t, id, parent), c) == Path(t, c)
  {
    MoveSubtreeRows(t, id, parent, c);
    var xs := MovedChain(t, id, parent, c);
    PathRowsForSpec(c, xs, c);
    LevelsFromZeroSorted(PathRowsFor(c, xs));
    WellLevelledRows(t, c);
    if parent >= 0 {
      WellLevelledRows(t, parent);
    }
  }

  /** No row has a negative category, so a negative id has an empty path. */
  lemma NegativeChain(t: Table, c: int)
    ensures c < 0 ==> Chain(t, c) == []
  {
    if c < 0 {
      FilterDropsAll(t, OfCategory(c));
    }
  }

  /** On a well-levelled table reading a path sorted or in table order is
      the same, for any id. */
  lemma PathIsChain(t: Table, c: int)
    requires WellLevelled(t)
    ensures Path(t, c) == Chain(t, c)
  {
    if c >= 0 {
      WellLevelledRows(t, c);
    } else {
      FilterDropsAll(t, OfCategory(c));
    }
  }

  /** The ancestors of a category outside the subtree stay where they are. */
  lemma MovedAgreesOutside(t: Table, id: nat, parent: int, c: nat, k: nat)
    requires PrefixClosed(t)
    requires id !in Chain(t, c)
    requires k < |Chain(t, c)|
    ensures MovedChain(t, id, parent, Chain(t, c)[k]) == Chain(t, c)[..k + 1]
  {
    AncestorOfAncestor(t, c, k, id);
    assert AncestorAgrees(t, c, k);
  }

  /** The ancestors of a moved category from `id` down move with it. */
  lemma MovedAgreesInside(t: Table, id: nat, parent: int, c: nat, n: nat)
    requires PrefixClosed(t)
    requires id in Chain(t, c)
    requires IndexOf(Chain(t, c), id) <= n < |Chain(t, c)|
    ensures MovedChain(t, id, parent, Chain(t, c)[n])
         == Chain(t, parent) + Chain(t, c)[IndexOf(Chain(t, c), id)..n + 1]
  {
    var ch := Chain(t, c);
    var j := IndexOf(ch, id);
    assert ch[..n + 1][j] == id;
    AncestorOfAncestor(t, c, n, id);
    assert AncestorAgrees(t, c, n);
    assert Chain(t, ch[n])[j..] == ch[j..n + 1];
  }

  /** The moved paths are again closed under taking ancestors. */
  lemma MovedAgrees(t: Table, id: nat, parent: int, c: nat, k: nat)
    requires Consistent(t)
    requires id !in Path(t, parent)
    requires k < |MovedChain(t, id, parent, c)|
    ensures MovedChain(t, id, parent, MovedChain(t, id, parent, c)[k]) == MovedChain(t, id, parent, c)[..k + 1]
  {
    if id !in Chain(t, c) {
      MovedAgreesOutside(t, id, parent, c, k);
    } else if k < |Chain(t, parent)| {
      PathIsChain(t, parent);
      NegativeChain(t, parent);
      MovedAgreesAbove(t, id, parent, c, k);
    } else {
      MovedAgreesBelow(t, id, parent, c, k);
    }
  }

  /** `MovedAgrees` at a position inside the new parent's path. */
  lemma MovedAgreesAbove(t: Table, id: nat, parent: nat, c: nat, k: nat)
    requires PrefixClosed(t)
    requires id !in Chain(t, parent)
    requires id in Chain(t, c)
    requires k < |Chain(t, parent)|
    ensures MovedChain(t, id, parent, MovedChain(t, id, parent, c)[k]) == MovedChain(t, id, parent, c)[..k + 1]
  {
    var pp := Chain(t, parent);
    var m := MovedChain(t, id, parent, c);
    assert m == pp + Chain(t, c)[IndexOf(Chain(t, c), id)..];
    assert m[k] == pp[k] && m[..k + 1] == pp[..k + 1];
    MovedAgreesOutside(t, id, parent, parent, k);
  }

  /** `MovedAgrees` at a position in the moved part, from `id` down. */
  lemma MovedAgreesBelow(t: Table, id: nat, parent: int, c: nat, k: nat)
    requires PrefixClosed(t)
    requires id in Chain(t, c)
    requires |Chain(t, parent)| <= k < |MovedChain(t, id, parent, c)|
    ensures MovedChain(t, id, parent, MovedChain(t, id, parent, c)[k]) == MovedChain(t, id, parent, c)[..k + 1]
  {
    var pp := Chain(t, parent);
    var ch := Chain(t, c);
    var j := IndexOf(ch, id);
    var m := MovedChain(t, id, parent, c);
    assert m == pp + ch[j..];
    var n := j + k - |pp|;
    SpliceAt(pp, ch, j, k);
    assert m[k] == ch[n] && m[..k + 1] == pp + ch[j..n + 1];
    MovedAgreesInside(t, id, parent, c, n);
    assert MovedChain(t, id, parent, ch[n]) == pp + ch[j..n + 1];
  }

  /** A moved path still ends with the category itself. */
  lemma MovedEndsWithSelf(t: Table, id: nat, parent: int, c: nat)
    requires SelfLast(t)
    ensures MovedChain(t, id, parent, c) == [] || MovedChain(t, id, parent, c)[|MovedChain(t, id, parent, c)| - 1] == c
  {
    var ch := Chain(t, c);
    assert EndsWithSelf(t, c);
    if id in ch {
      var m := Chain(t, parent) + ch[IndexOf(ch, id)..];
      assert MovedChain(t, id, parent, c) == m;
      assert m[|m| - 1] == ch[|ch| - 1];
    } else {
      assert MovedChain(t, id, parent, c) == ch;
    }
  }

  /** A table whose rows are exactly those of the moved paths is consistent. */
  lemma MovedTableConsistent(t: Table, id: nat, parent: int, t2: Table)
    requires Consistent(t)
    requires id !in Path(t, parent)
    requires forall c: nat :: RowsOf(t2, c) == PathRowsFor(c, MovedChain(t, id, parent, c))
    ensures Consistent(t2)
  {
    forall c: nat
      ensures Chain(t2, c) == MovedChain(t, id, parent, c)
      ensures LevelsFromZero(RowsOf(t2, c))
    {
      PathRowsForSpec(c, MovedChain(t, id, parent, c), c);
    }
    assert WellLevelled(t2);
    forall c: nat
      ensures EndsWithSelf(t2, c)
    {
      MovedEndsWithSelf(t, id, parent, c);
    }
    assert SelfLast(t2);
    forall c: nat, k | 0 <= k < |Chain(t2, c)|
      ensures AncestorAgrees(t2, c, k)
    {
      MovedAgrees(t, id, parent, c, k);
    }
    assert PrefixClosed(t2);
  }

  /** The replacing rewrite turns a consistent table into a consistent one. */
  lemma MoveSubtreeConsistent(t: Table, id: nat, parent: int)
    requires Consistent(t)
    requires id !in Path(t, parent)
    ensures Consistent(MoveSubtree(t, id, parent))
  {
    var t2 := MoveSubtree(t, id, parent);
    forall c: nat
      ensures RowsOf(t2, c) == PathRowsFor(c, MovedChain(t, id, parent, c))
    {
      MoveSubtreeRows(t, id, parent, c);
    }
    MovedTableConsistent(t, id, parent, t2);
  }

  /** The rows the rewrite as written leaves: a moved category keeps its
      rows from `id` down and gets the rows of its moved path after them, so
      its rows no longer describe one path. */
  lemma RewriteSubtreeRows(t: Table, id: nat, parent: int, c: nat)
    requires Consistent(t)
    requires id !in Path(t, parent)
    ensures RowsOf(RewriteSubtree(t, id, parent), c)
         == if id in Chain(t, c) then RowsOf(t, c)[IndexOf(Chain(t, c), id)..] + PathRowsFor(c, MovedChain(t, id, parent, c))
            else RowsOf(t, c)
  {
    FoldMovedRows(t, id, parent, AsWritten, c);
  }

  /** A category's own row is the last of its rows, at its depth. */
  lemma OwnRow(t: Table, id: nat)
    requires Consistent(t)
    requires RowsOf(t, id) != []
    ensures id in Chain(t, id)
    ensures IndexOf(Chain(t, id), id) == |RowsOf(t, id)| - 1
    ensures RowsOf(t, id)[IndexOf(Chain(t, id), id)..] == [PathRow(id, id, |RowsOf(t, id)| - 1)]
    ensures Chain(t, id)[IndexOf(Chain(t, id), id)..] == [id]
  {
    OwnIndex(t, id);
    WellLevelledRows(t, id);
  }

  /** A category with rows is the last entry of its own path, and first
      occurs there. */
  lemma OwnIndex(t: Table, id: nat)
    requires Consistent(t)
    requires RowsOf(t, id) != []
    ensures id in Chain(t, id)
    ensures IndexOf(Chain(t, id), id) == |RowsOf(t, id)| - 1
  {
    assert EndsWithSelf(t, id);
    AncestorIndex(t, id, id);
  }

  /** The rewrite as written corrupts the moved category itself, whatever
      the new parent (the old one included): its rows read `id`, then the
      parent's path, then `id` again, and their levels no longer run from 0. */
  lemma RewriteSubtreeDuplicates(t: Table, id: nat, parent: int)
    requires Consistent(t)
    requires id !in Path(t, parent)
    requires RowsOf(t, id) != []
    ensures Chain(RewriteSubtree(t, id, parent), id) == [id] + Path(t, parent) + [id]
    ensures !WellLevelled(RewriteSubtree(t, id, parent))
  {
    var own := PathRow(id, id, |RowsOf(t, id)| - 1);
    RewrittenOwnRows(t, id, parent);
    OwnRowFirst(RewriteSubtree(t, id, parent), id, own, Path(t, parent));
  }

  /** The moved category's rows after the rewrite as written: its own row,
      then the rows of its new path. */
  lemma RewrittenOwnRows(t: Table, id: nat, parent: int)
    requires Consistent(t)
    requires id !in Path(t, parent)
    requires RowsOf(t, id) != []
    ensures RowsOf(RewriteSubtree(t, id, parent), id)
         == [PathRow(id, id, |RowsOf(t, id)| - 1)] + PathRowsFor(id, Path(t, parent) + [id])
  {
    OwnRow(t, id);
    PathIsChain(t, parent);
    assert MovedChain(t, id, parent, id) == Path(t, parent) + [id];
    RewriteSubtreeRows(t, id, parent, id);
  }

  /** Rows that start with the category's own row and then restart from
      level 0 with the written path. */
  lemma OwnRowFirst(t2: Table, id: nat, own: PathRow, prefix: seq<nat>)
    requires own.path == id
    requires RowsOf(t2, id) == [own] + PathRowsFor(id, prefix + [id])
    ensures Chain(t2, id) == [id] + prefix + [id]
    ensures !WellLevelled(t2)
  {
    var xs := prefix + [id];
    var written := PathRowsFor(id, xs);
    IdsAppend([own], written);
    PathRowsForSpec(id, xs, id);
    assert RowsOf(t2, id)[1] == written[0];
    assert !LevelsFromZero(RowsOf(t2, id));
    assert [id] + xs == [id] + prefix + [id];
  }

  // ---------------------------------------------------------------------
  // `create` on a consistent table

  /** The path `create` gives each category: the parent's path and the new
      id for the new category, the old path for every other one. */
  ghost function AttachedChain(t: Table, id: nat, parent: int, c: nat): seq<nat> {
    if c == id then Chain(t, parent) + [id] else Chain(t, c)
  }

  /** A category without rows lies on no path of a consistent table. */
  lemma RowlessOnNoPath(t: Table, id: nat, c: nat)
    requires PrefixClosed(t)
    requires RowsOf(t, id) == []
    ensures id !in Chain(t, c)
  {
    if id in Chain(t, c) {
      AncestorIndex(t, c, id);
    }
  }

  /** The ancestors of an old category keep their paths. */
  lemma AttachedAgreesOld(t: Table, id: nat, parent: int, c: nat, k: nat)
    requires PrefixClosed(t)
    requires RowsOf(t, id) == []
    requires k < |Chain(t, c)|
    ensures AttachedChain(t, id, parent, Chain(t, c)[k]) == Chain(t, c)[..k + 1]
  {
    assert AncestorAgrees(t, c, k);
    RowlessOnNoPath(t, id, c);
    assert Chain(t, c)[..k + 1][k] == Chain(t, c)[k];
  }

  lemma AttachedAgrees(t: Table, id: nat, parent: int, c: nat, k: nat)
    requires Consistent(t)
    requires RowsOf(t, id) == []
    requires k < |AttachedChain(t, id, parent, c)|
    ensures AttachedChain(t, id, parent, AttachedChain(t, id, parent, c)[k]) == AttachedChain(t, id, parent, c)[..k + 1]
  {
    if c != id {
      AttachedAgreesOld(t, id, parent, c, k);
      assert AttachedChain(t, id, parent, c) == Chain(t, c);
    } else {
      AttachedAgreesNew(t, id, parent, k);
    }
  }

  /** The ancestors of the new category: the parent's path, and itself. */
  lemma AttachedAgreesNew(t: Table, id: nat, parent: int, k: nat)
    requires PrefixClosed(t)
    requires RowsOf(t, id) == []
    requires k <= |Chain(t, parent)|
    ensures AttachedChain(t, id, parent, AttachedChain(t, id, parent, id)[k]) == AttachedChain(t, id, parent, id)[..k + 1]
  {
    var pp := Chain(t, parent);
    var m := pp + [id];
    assert AttachedChain(t, id, parent, id) == m;
    if k < |pp| {
      NegativeChain(t, parent);
      assert m[k] == pp[k] && m[..k + 1] == pp[..k + 1];
      AttachedAgreesOld(t, id, parent, parent, k);
    } else {
      assert m[k] == id && m[..k + 1] == m;
    }
  }

  /** A table whose rows are exactly those of the attached paths is consistent. */
  lemma AttachedTableConsistent(t: Table, id: nat, parent: int, t2: Table)
    requires Consistent(t)
    requires RowsOf(t, id) == []
    requires forall c: nat :: RowsOf(t2, c) == PathRowsFor(c, AttachedChain(t, id, parent, c))
    ensures Consistent(t2)
  {
    forall c: nat
      ensures Chain(t2, c) == AttachedChain(t, id, parent, c)
      ensures LevelsFromZero(RowsOf(t2, c))
    {
      PathRowsForSpec(c, AttachedChain(t, id, parent, c), c);
    }
    assert WellLevelled(t2);
    forall c: nat
      ensures EndsWithSelf(t2, c)
    {
      assert EndsWithSelf(t, c);
    }
    assert SelfLast(t2);
    forall c: nat, k | 0 <= k < |Chain(t2, c)|
      ensures AncestorAgrees(t2, c, k)
    {
      AttachedAgrees(t, id, parent, c, k);
    }
    assert PrefixClosed(t2);
  }

  /** `create` keeps a consistent table consistent, and gives the new
      category the parent's path followed by itself. */
  lemma AttachConsistent(t: Table, id: nat, parent: int)
    requires Consistent(t)
    requires RowsOf(t, id) == []
    ensures Consistent(Attach(t, id, parent))
    ensures Path(Attach(t, id, parent), id) == Path(t, parent) + [id]
  {
    var t2 := Attach(t, id, parent);
    PathIsChain(t, parent);
    forall c: nat
      ensures RowsOf(t2, c) == PathRowsFor(c, AttachedChain(t, id, parent, c))
    {
      AttachRows(t, id, parent, c);
      WellLevelledRows(t, c);
    }
    AttachedTableConsistent(t, id, parent, t2);
    AttachRows(t, id, parent, id);
  }

  // ---------------------------------------------------------------------
  // Moves undone

  /** A category does not occur above itself on its own path. */
  lemma NotAboveSelf(t: Table, x: nat, prefix: seq<nat>)
    requires PrefixClosed(t)
    requires Chain(t, x) == prefix + [x]
    ensures x !in prefix
  {
    ChainDistinct(t, x);
    forall i | 0 <= i < |prefix|
      ensures prefix[i] != x
    {
      assert Chain(t, x)[i] == prefix[i];
      assert Chain(t, x)[|prefix|] == x;
    }
  }

  /** The part of a path from `x` down, when `x`'s own path is `prefix`
      followed by `x`. */
  lemma SplitAt(t: Table, x: nat, prefix: seq<nat>, c: nat)
    requires PrefixClosed(t)
    requires Chain(t, x) == prefix + [x]
    requires x in Chain(t, c)
    ensures IndexOf(Chain(t, c), x) == |prefix|
    ensures Chain(t, c) == prefix + Chain(t, c)[|prefix|..]
  {
    AncestorIndex(t, c, x);
    var ch := Chain(t, c);
    assert ch[..|prefix|] == Chain(t, x)[..|prefix|];
    assert ch == ch[..|prefix|] + ch[|prefix|..];
  }

  /** Moving `x` under its current parent leaves every category's rows as
      they were: with the replacing rewrite an `update` that does not change
      `parent_id` does not change the paths. */
  lemma MoveSubtreeInPlace(t: Table, x: nat, p0: int, c: nat)
    requires Consistent(t)
    requires Path(t, x) == Path(t, p0) + [x]
    ensures x !in Path(t, p0)
    ensures RowsOf(MoveSubtree(t, x, p0), c) == RowsOf(t, c)
  {
    PathIsChain(t, x);
    PathIsChain(t, p0);
    NotAboveSelf(t, x, Chain(t, p0));
    MoveSubtreeRows(t, x, p0, c);
    WellLevelledRows(t, c);
    if x in Chain(t, c) {
      SplitAt(t, x, Chain(t, p0), c);
    }
  }

  /** Moving `x` away from its parent `p0` and back restores every
      category's rows. */
  lemma MoveSubtreeRoundTrip(t: Table, x: nat, p0: nat, p: int, c: nat)
    requires Consistent(t)
    requires Path(t, x) == Path(t, p0) + [x]
    requires x !in Path(t, p)
    ensures x !in Path(MoveSubtree(t, x, p), p0)
    ensures RowsOf(MoveSubtree(MoveSubtree(t, x, p), x, p0), c) == RowsOf(t, c)
  {
    var t1 := MoveSubtree(t, x, p);
    MoveAwayKeepsParent(t, x, p0, p);
    PathIsChain(t1, p0);
    MoveSubtreeRows(t1, x, p0, c);
    RoundTripChain(t, x, p0, p, c);
    WellLevelledRows(t, c);
  }

  /** Moving `x` away leaves a consistent table in which its old parent
      keeps its path, a path without `x`. */
  lemma MoveAwayKeepsParent(t: Table, x: nat, p0: nat, p: int)
    requires Consistent(t)
    requires Path(t, x) == Path(t, p0) + [x]
    requires x !in Path(t, p)
    ensures Consistent(MoveSubtree(t, x, p))
    ensures x !in Chain(t, p0)
    ensures Chain(MoveSubtree(t, x, p), p0) == Chain(t, p0)
  {
    MoveSubtreeConsistent(t, x, p);
    PathIsChain(t, x);
    PathIsChain(t, p0);
    NotAboveSelf(t, x, Chain(t, p0));
    MoveSubtreePath(t, x, p, p0);
    PathIsChain(MoveSubtree(t, x, p), p0);
  }

  /** Moving `x` back under `p0` gives every category its original path. */
  lemma RoundTripChain(t: Table, x: nat, p0: nat, p: int, c: nat)
    requires Consistent(t)
    requires Path(t, x) == Path(t, p0) + [x]
    requires x !in Path(t, p)
    ensures MovedChain(MoveSubtree(t, x, p), x, p0, c) == Chain(t, c)
  {
    var t1 := MoveSubtree(t, x, p);
    MoveAwayKeepsParent(t, x, p0, p);
    PathIsChain(t, c);
    MoveSubtreePath(t, x, p, c);
    PathIsChain(t1, c);
    if x in Chain(t, c) {
      RoundTripBelow(t, x, p0, p, c);
    } else {
      assert Chain(t1, c) == Chain(t, c);
      assert MovedChain(t1, x, p0, c) == Chain(t1, c);
    }
  }

  /** `RoundTripChain` for a category of the subtree at `x`. */
  lemma RoundTripBelow(t: Table, x: nat, p0: nat, p: int, c: nat)
    requires Consistent(t)
    requires Path(t, x) == Path(t, p0) + [x]
    requires x !in Path(t, p)
    requires x in Chain(t, c)
    ensures MovedChain(MoveSubtree(t, x, p), x, p0, c) == Chain(t, c)
  {
    var t1 := MoveSubtree(t, x, p);
    MoveAwayKeepsParent(t, x, p0, p);
    PathIsChain(t, x);
    PathIsChain(t, p0);
    PathIsChain(t, p);
    PathIsChain(t, c);
    SplitAt(t, x, Chain(t, p0), c);
    var rest := Chain(t, c)[|Chain(t, p0)|..];
    MoveSubtreePath(t, x, p, c);
    PathIsChain(t1, c);
    assert Chain(t1, c) == Chain(t, p) + rest;
    assert rest[0] == x;
    SuffixFromFirst(Chain(t, p), rest, x);
  }



  // ---------------------------------------------------------------------
  // A two-category tree: category 1 at the top, category 2 below it.

  const TwoLevels: Table := [PathRow(1, 1, 0), PathRow(2, 1, 0), PathRow(2, 2, 1)]

  lemma TwoLevelsRows(c: nat)
    ensures RowsOf(TwoLevels, c)
         == if c == 1 then [PathRow(1, 1, 0)]
            else if c == 2 then [PathRow(2, 1, 0), PathRow(2, 2, 1)]
            else []
  {
    var t := TwoLevels;
    assert t[1..] == [PathRow(2, 1, 0), PathRow(2, 2, 1)];
    assert t[1..][1..] == [PathRow(2, 2, 1)];
    assert t[1..][1..][1..] == [];
  }

  lemma TwoLevelsChain(c: nat)
    ensures Chain(TwoLevels, c) == if c == 1 then [1] else if c == 2 then [1, 2] else []
  {
    TwoLevelsRows(c);
  }

  lemma TwoLevelsAgree(c: nat, k: int)
    ensures LevelsFromZero(RowsOf(TwoLevels, c))
    ensures EndsWithSelf(TwoLevels, c)
    ensures AncestorAgrees(TwoLevels, c, k)
  {
    TwoLevelsRows(c);
    TwoLevelsChain(c);
    TwoLevelsAncestors(c, k);
  }

  lemma TwoLevelsAncestors(c: nat, k: int)
    ensures AncestorAgrees(TwoLevels, c, k)
  {
    TwoLevelsChain(c);
    if c == 2 && 0 <= k < 2 {
      var a := [1, 2][k];
      TwoLevelsChain(a);
      assert Chain(TwoLevels, a) == [1, 2][..k + 1];
    } else if c == 1 && k == 0 {
      TwoLevelsChain(1);
      assert Chain(TwoLevels, 1) == [1][..1];
    }
  }

  lemma TwoLevelsChains()
    ensures Chain(TwoLevels, 1) == [1] && Chain(TwoLevels, 2) == [1, 2]
  {
    TwoLevelsChain(1);
    TwoLevelsChain(2);
  }

  lemma TwoLevelsConsistent()
    ensures Consistent(TwoLevels)
  {
    forall c: nat, k
      ensures LevelsFromZero(RowsOf(TwoLevels, c))
      ensures EndsWithSelf(TwoLevels, c)
      ensures AncestorAgrees(TwoLevels, c, k)
    {
      TwoLevelsAgree(c, k);
    }
    assert WellLevelled(TwoLevels) by {
      forall c: nat
        ensures LevelsFromZero(RowsOf(TwoLevels, c))
      {
        TwoLevelsAgree(c, 0);
      }
    }
    assert SelfLast(TwoLevels) by {
      forall c: nat
        ensures EndsWithSelf(TwoLevels, c)
      {
        TwoLevelsAgree(c, 0);
      }
    }
  }

  lemma ThreeRowsPath(t2: Table)
    requires RowsOf(t2, 2) == [PathRow(2, 2, 1), PathRow(2, 1, 0), PathRow(2, 2, 1)]
    ensures Path(t2, 2) == [1, 2, 2]
  {
    var rows := RowsOf(t2, 2);
    assert rows[1..] == [PathRow(2, 1, 0), PathRow(2, 2, 1)];
    assert rows[1..][1..] == [PathRow(2, 2, 1)];
    assert SortByLevel([PathRow(2, 2, 1)]) == [PathRow(2, 2, 1)];
    assert SortByLevel(rows[1..]) == [PathRow(2, 1, 0), PathRow(2, 2, 1)];
    assert Insert(PathRow(2, 2, 1), [PathRow(2, 2, 1)]) == [PathRow(2, 2, 1), PathRow(2, 2, 1)];
    assert [PathRow(2, 1, 0), PathRow(2, 2, 1)][1..] == [PathRow(2, 2, 1)];
    assert Insert(PathRow(2, 2, 1), [PathRow(2, 1, 0), PathRow(2, 2, 1)])
        == [PathRow(2, 1, 0), PathRow(2, 2, 1), PathRow(2, 2, 1)];
    assert SortByLevel(rows) == [PathRow(2, 1, 0), PathRow(2, 2, 1), PathRow(2, 2, 1)];
  }

  /** Saving category 2 of a tree where it sits right below the top
      category 1, with its parent unchanged: the rewrite as written leaves it
      with the path [1, 2, 2], while the replacing rewrite keeps [1, 2]. */
  lemma RewriteSubtreeExample(t: Table)
    requires Consistent(t)
    requires Path(t, 1) == [1] && Path(t, 2) == [1, 2]
    ensures Path(RewriteSubtree(t, 2, 1), 2) == [1, 2, 2]
    ensures Path(MoveSubtree(t, 2, 1), 2) == [1, 2]
  {
    RewriteSubtreeExampleRows(t);
    MoveSubtreeInPlace(t, 2, 1, 2);
  }

  lemma RewriteSubtreeExampleRows(t: Table)
    requires Consistent(t)
    requires Path(t, 1) == [1] && Path(t, 2) == [1, 2]
    ensures Path(RewriteSubtree(t, 2, 1), 2) == [1, 2, 2]
  {
    WellLevelledRows(t, 2);
    assert |RowsOf(t, 2)| == 2;
    RewrittenOwnRows(t, 2, 1);
    assert PathRowsFor(2, [1, 2]) == [PathRow(2, 1, 0), PathRow(2, 2, 1)];
    ThreeRowsPath(RewriteSubtree(t, 2, 1));
  }

  /** The two-category tree is one such table. */
  lemma TwoLevelsExample()
    ensures Consistent(TwoLevels)
    ensures Path(TwoLevels, 1) == [1] && Path(TwoLevels, 2) == [1, 2]
  {
    TwoLevelsConsistent();
    TwoLevelsChains();
    PathIsChain(TwoLevels, 1);
    PathIsChain(TwoLevels, 2);
  }
}

=== FILE: php.dfy ===
/** The few PHP value semantics the shop services depend on: truthiness
    (`!$x`, `empty($x)`), `mb_strlen`, the `(int)` cast, and how a value
    compares with an integer. Comparisons follow PHP 7, the language version
    the services' framework targets: a string compared with an integer is
    read as the number at its front. */
module Php {

  /** A request field or column value. PHP floats, booleans and arrays are not
      modelled as scalar values. */
  datatype Value = Null | Int(i: int) | Str(s: string)

  /** `!$v` is true (and `empty($v)` for a present key): null, 0, "" and "0". */
  predicate Falsy(v: Value) {
    match v
    case Null => true
    case Int(i) => i == 0
    case Str(s) => s == "" || s == "0"
  }

  predicate IsDigit(ch: char) {
    '0' <= ch <= '9'
  }

  /** The whitespace PHP skips in front of a numeric string. */
  predicate IsSpace(ch: char) {
    ch == ' ' || ch == '\t' || ch == '\n' || ch == '\r' || ch == '\U{0B}' || ch == '\U{0C}'
  }

  function Pow10(k: nat): (p: nat)
    ensures p >= 1
  {
    if k == 0 then 1 else 10 * Pow10(k - 1)
  }

  /** Number of decimal digits of `n`. */
  function DigitCount(n: nat): (k: nat)
    ensures k >= 1
  {
    if n < 10 then 1 else 1 + DigitCount(n / 10)
  }

  /** `DigitCount` is the length of the decimal numeral: `n` lies in
      `[10^(k-1), 10^k)`, or is 0. */
  lemma {:induction false} DigitCountBounds(n: nat)
    ensures n < Pow10(DigitCount(n))
    ensures n == 0 || Pow10(DigitCount(n) - 1) <= n
  {
    if n >= 10 {
      DigitCountBounds(n / 10);
    }
  }

  /** `mb_strlen($v)`: code points of a string, characters of an integer's
      decimal form (with its sign); null reads as the empty string. */
  function StrLen(v: Value): nat {
    match v
    case Null => 0
    case Int(i) => if i < 0 then 1 + DigitCount(-i) else DigitCount(i)
    case Str(s) => |s|
  }

  /** Length of the run of digits at the front of `s`. */
  function DigitRun(s: string): (n: nat)
    ensures n <= |s|
    ensures forall k :: 0 <= k < n ==> IsDigit(s[k])
    ensures n < |s| ==> !IsDigit(s[n])
  {
    if s == [] || !IsDigit(s[0]) then 0 else 1 + DigitRun(s[1..])
  }

  function DigitValue(ch: char): (n: nat)
    requires IsDigit(ch)
    ensures n < 10
  {
    ch as int - '0' as int
  }

  /** The number a string of decimal digits denotes. */
  function DigitsValue(d: string): nat
    requires forall k :: 0 <= k < |d| ==> IsDigit(d[k])
  {
    if d == [] then 0
    else 10 * DigitsValue(d[..|d| - 1]) + DigitValue(d[|d| - 1])
  }

  /** `s` without its leading whitespace. */
  function TrimStart(s: string): (t: string)
    ensures |t| <= |s|
    ensures t == [] || !IsSpace(t[0])
  {
    if s != [] && IsSpace(s[0]) then TrimStart(s[1..]) else s
  }

  /** The number `-digits * 10^scale` when `negative`, else
      `digits * 10^scale`. */
  datatype Decimal = Decimal(negative: bool, digits: nat, scale: int)

  /** The number at the front of a string, as PHP 7 reads it when the string
      is cast or meets an integer: after leading whitespace, an optional
      sign, then an unsigned number; a string without one reads as 0. */
  function LeadingNumber(s: string): Decimal {
    var t := TrimStart(s);
    if t != [] && t[0] == '-' then Unsigned(t[1..]).(negative := true)
    else if t != [] && t[0] == '+' then Unsigned(t[1..])
    else Unsigned(t)
  }

  /** Digits with an optional fractional part (at least one digit in all),
      then an optional exponent. */
  function Unsigned(u: string): Decimal {
    var a := DigitRun(u);
    if a < |u| && u[a] == '.' then Fraction(u[..a], u[a + 1..])
    else if a == 0 then Decimal(false, 0, 0)
    else Decimal(false, DigitsValue(u[..a]), ExponentOf(u[a..]))
  }

  /** The number with whole digits `w`, a point, and then `v`. */
  function Fraction(w: string, v: string): Decimal
    requires forall k :: 0 <= k < |w| ==> IsDigit(w[k])
  {
    var b := DigitRun(v);
    if |w| + b == 0 then Decimal(false, 0, 0)
    else
      DigitsConcat(w, v[..b]);
      Decimal(false, DigitsValue(w + v[..b]), ExponentOf(v[b..]) - b)
  }

  lemma DigitsConcat(a: string, b: string)
    requires forall k :: 0 <= k < |a| ==> IsDigit(a[k])
    requires forall k :: 0 <= k < |b| ==> IsDigit(b[k])
    ensures forall k :: 0 <= k < |a + b| ==> IsDigit((a + b)[k])
  {
  }

  /** The exponent at the front of `s`: `e` or `E`, an optional sign and at
      least one digit; 0 when there is none. */
  function ExponentOf(s: string): int {
    if |s| < 2 || (s[0] != 'e' && s[0] != 'E') then 0
    else
      var signed := s[1] == '-' || s[1] == '+';
      var u := if signed then s[2..] else s[1..];
      var n := DigitRun(u);
      if n == 0 then 0
      else if s[1] == '-' then -(DigitsValue(u[..n]) as int)
      else DigitsValue(u[..n])
  }

  /** `n * 10^k`. */
  function Shift(n: nat, k: nat): nat {
    if k == 0 then n else 10 * Shift(n, k - 1)
  }

  /** `n / 10^k`, rounding down. */
  function Unshift(n: nat, k: nat): nat {
    if k == 0 then n else Unshift(n / 10, k - 1)
  }

  /** The magnitude of a decimal rounded toward zero. */
  function Magnitude(d: Decimal): (m: nat)
    ensures d.digits == 0 ==> m == 0
  {
    if d.scale >= 0 then ShiftZero(d.digits, d.scale); Shift(d.digits, d.scale)
    else UnshiftZero(d.digits, -d.scale); Unshift(d.digits, -d.scale)
  }

  lemma {:induction false} ShiftZero(n: nat, k: nat)
    ensures n == 0 ==> Shift(n, k) == 0
  {
    if k > 0 {
      ShiftZero(n, k - 1);
    }
  }

  lemma {:induction false} UnshiftZero(n: nat, k: nat)
    ensures n == 0 ==> Unshift(n, k) == 0
  {
    if k > 0 {
      UnshiftZero(n / 10, k - 1);
    }
  }

  /** A decimal's integer part, rounding toward zero, as `(int)` does. */
  function Truncate(d: Decimal): int {
    var m: int := Magnitude(d);
    if d.negative then -m else m
  }

  /** Whether a decimal is exactly the integer `i`. */
  predicate DenotesInt(d: Decimal, i: int) {
    Truncate(d) == i && (d.scale >= 0 || Shift(Unshift(d.digits, -d.scale), -d.scale) == d.digits)
  }

  /** `(int) $v`. Integers too large for a machine word are not modelled. */
  function IntCast(v: Value): int {
    match v
    case Null => 0
    case Int(i) => i
    case Str(s) => Truncate(LeadingNumber(s))
  }

  /** -1, 0 or 1 as `$v` compares with the integer 0 in PHP 7: a string
      through the number at its front, fraction and exponent included. */
  function Sign(v: Value): int {
    match v
    case Null => 0
    case Int(i) => if i < 0 then -1 else if i == 0 then 0 else 1
    case Str(s) =>
      var d := LeadingNumber(s);
      if d.digits == 0 then 0 else if d.negative then -1 else 1
  }

  /** The comparison with 0 and the cast agree on integers, but the cast
      drops a fraction the comparison sees: `"0.5"` is above 0 and casts
      to 0, `"-0.5"` is below 0 and casts to 0, and `"1e3"` casts to 1000. */
  lemma SignAndCast(v: Value)
    ensures IntCast(v) > 0 ==> Sign(v) > 0
    ensures IntCast(v) < 0 ==> Sign(v) < 0
    ensures Sign(v) >= 0 ==> IntCast(v) >= 0
    ensures v.Int? ==> (Sign(v) > 0 <==> IntCast(v) > 0) && (Sign(v) < 0 <==> IntCast(v) < 0)
  {
  }

  /** `"0.5"` reads as 5 * 10^-1. */
  lemma HalfNumber()
    ensures Unsigned("0.5") == Decimal(false, 5, -1)
  {
    assert DigitRun("0.5") == 1;
    assert "0.5"[..1] == "0" && "0.5"[2..] == "5";
    HalfFraction();
  }

  lemma HalfFraction()
    ensures Fraction("0", "5") == Decimal(false, 5, -1)
  {
    assert DigitRun("5") == 1;
    assert "0" + "5"[..1] == "05";
    assert DigitsValue("05") == 5;
    assert "5"[1..] == [];
  }

  /** `"0.5"` is above 0, yet it casts to 0. */
  lemma HalfAboveZero()
    ensures Sign(Str("0.5")) == 1 && IntCast(Str("0.5")) == 0
  {
    assert TrimStart("0.5") == "0.5";
    HalfNumber();
  }

  /** `"-0.5"` is below 0, yet it casts to 0. */
  lemma HalfBelowZero()
    ensures Sign(Str("-0.5")) == -1 && IntCast(Str("-0.5")) == 0
  {
    assert TrimStart("-0.5") == "-0.5";
    assert "-0.5"[1..] == "0.5";
    HalfNumber();
  }

  /** `"1e3"` casts to 1000. */
  lemma ExponentCast()
    ensures IntCast(Str("1e3")) == 1000 && Sign(Str("1e3")) == 1
  {
    assert TrimStart("1e3") == "1e3";
    assert DigitRun("1e3") == 1;
    assert "1e3"[..1] == "1" && DigitsValue("1") == 1;
    assert "1e3"[1..] == "e3";
    ExponentThree();
    assert Unsigned("1e3") == Decimal(false, 1, 3);
    assert Shift(1, 3) == 1000;
  }

  lemma ExponentThree()
    ensures ExponentOf("e3") == 3
  {
    assert "e3"[1..] == "3" && DigitRun("3") == 1 && "3"[..1] == "3";
    assert DigitsValue("3") == 3;
  }

  /** `$v == $w` for a string `w` that is not numeric: null equals only the
      empty string, an integer equals `w` when it is exactly the number at
      `w`'s front (PHP 7), and a string equals `w` only when it is `w`. */
  predicate LooseEqualsWord(v: Value, w: string) {
    match v
    case Null => w == ""
    case Int(i) => DenotesInt(LeadingNumber(w), i)
    case Str(s) => s == w
  }

  /** `in_array($v, $words)` without the strict flag. */
  predicate InArrayLoose(v: Value, words: seq<string>) {
    exists k :: 0 <= k < |words| && LooseEqualsWord(v, words[k])
  }

  /** A word that starts with a letter reads as 0, so exactly the integer 0
      and the word itself compare equal to it. */
  lemma LooseEqualsLetterWord(v: Value, w: string)
    requires w != [] && ('a' <= w[0] <= 'z' || 'A' <= w[0] <= 'Z')
    ensures LooseEqualsWord(v, w) <==> v == Int(0) || v == Str(w)
  {
    assert TrimStart(w) == w;
    assert DigitRun(w) == 0;
    assert LeadingNumber(w) == Decimal(false, 0, 0);
  }

  /** `in_array` over letter words accepts the integer 0 and the words
      themselves, and nothing else. */
  lemma InArrayLooseLetterWords(v: Value, words: seq<string>)
    requires forall k :: 0 <= k < |words| ==> words[k] != [] && ('a' <= words[k][0] <= 'z' || 'A' <= words[k][0] <= 'Z')
    ensures InArrayLoose(v, words) <==> (|words| > 0 && v == Int(0)) || (v.Str? && v.s in words)
  {
    forall k | 0 <= k < |words|
      ensures LooseEqualsWord(v, words[k]) <==> v == Int(0) || v == Str(words[k])
    {
      LooseEqualsLetterWord(v, words[k]);
    }
    if v.Str? && v.s in words {
      var k :| 0 <= k < |words| && words[k] == v.s;
      assert LooseEqualsWord(v, words[k]);
    }
    if |words| > 0 && v == Int(0) {
      assert LooseEqualsWord(v, words[0]);
    }
  }

  /** `strtolower` on the ASCII letters. */
  function AsciiLower(s: string): (r: string)
    ensures |r| == |s|
    ensures forall k :: 0 <= k < |s| ==> r[k] == LowerChar(s[k])
  {
    if s == [] then [] else [LowerChar(s[0])] + AsciiLower(s[1..])
  }

  function LowerChar(ch: char): char {
    if 'A' <= ch <= 'Z' then (ch as int - 'A' as int + 'a' as int) as char else ch
  }

  /** The `strtolower($order) === 'desc'` test accepts exactly the sixteen
      spellings of "desc" in any mix of letter case. */
  lemma {:induction false} LowerIsDesc(s: string)
    ensures AsciiLower(s) == "desc" <==>
      (|s| == 4 && (s[0] == 'd' || s[0] == 'D') && (s[1] == 'e' || s[1] == 'E')
                && (s[2] == 's' || s[2] == 'S') && (s[3] == 'c' || s[3] == 'C'))
  {
    var r := AsciiLower(s);
    if |s| == 4 {
      assert r == "desc" <==> r[0] == 'd' && r[1] == 'e' && r[2] == 's' && r[3] == 'c';
    }
  }
}

=== FILE: product.dfy ===
/** The product service: the product row and the rows that link it to
    categories, stores, attributes and options, written together by
    `create` and rewritten wholesale by `update`. */
module ProductService {
  import opened Php
  import opened Records
  import opened Seqs

  /** A `product_to_category` row. */
  datatype CategoryLink = CategoryLink(product: int, category: int)
  /** A `product_to_store` row. */
  datatype StoreLink = StoreLink(product: int, store: int)
  /** A `product_attribute` row. */
  datatype AttributeLink = AttributeLink(product: int, attribute: int, text: Value)

  /** A `product_option` row. `value` is only assigned for the types
      without a list of values; elsewhere it keeps the column default,
      written here as null. */
  datatype OptionRow = OptionRow(id: int, product: int, option: int, value: Value, required: int)

  /** A `product_option_value` row, without its decimal price and weight.
      `id` is whatever the request gave on `update` (not cast); on `create`
      it is the auto-increment id. */
  datatype OptionValueRow = OptionValueRow(
    id: Value, productOption: int, product: int, option: int, optionValue: int,
    quantity: int, subtract: int, points: int, pointsPrefix: Value,
    pricePrefix: Value, weightPrefix: Value)

  /** One entry of `$data['product_options']`: its scalar fields, and its
      `product_option_value` list when that key is set. */
  datatype OptionRequest = OptionRequest(fields: Record, values: Option<seq<Record>>)

  /** The list-valued parts of a request, each `?? []` when absent. */
  datatype Links = Links(categoryIds: seq<Value>, storeIds: seq<Value>,
                         attributes: seq<Record>, options: seq<OptionRequest>)

  /** The tables the service writes, the link tables in insertion order. */
  datatype Catalog = Catalog(
    products: Records.Table, categories: seq<CategoryLink>, stores: seq<StoreLink>,
    attributes: seq<AttributeLink>, options: seq<OptionRow>, optionValues: seq<OptionValueRow>)

  function CategoryOwner(r: CategoryLink): int { r.product }
  function StoreOwner(r: StoreLink): int { r.product }
  function AttributeOwner(r: AttributeLink): int { r.product }
  function OptionOwner(r: OptionRow): int { r.product }
  function ValueOwner(r: OptionValueRow): int { r.product }

  // ---------------------------------------------------------------------
  // The product row

  /** The columns `create` assigns and their defaults; `today` is
      `date('Y-m-d')`. The weight column is listed with the default the
      other dimensions have. */
  function Columns(today: Value): Record {
    map[
      "description" := Str(""), "tag" := Str(""), "meta_title" := Str(""),
      "meta_description" := Str(""), "meta_keyword" := Str(""),
      "sku" := Str(""), "upc" := Str(""), "location" := Str(""), "price" := Int(0),
      "tax_class_id" := Int(0), "stock_status" := Int(0),
      "length" := Int(0), "width" := Int(0), "height" := Int(0), "length_class" := Int(0),
      "weight_class" := Int(0), "status" := Int(0), "sort_order" := Int(0),
      "image" := Str(""), "manufacturer_id" := Int(0),
      "quantity" := Int(0), "weight" := Int(0), "minimum" := Int(1), "subtract" := Int(1),
      "shipping" := Int(1), "date_available" := today, "model" := Str(""), "name" := Null]
  }

  /** The product row `create` builds, with the weight read from the
      request's "height" key, as the service does it. */
  function NewProductAsWritten(data: Record, today: Value): (node: Record)
    ensures node.Keys == Columns(today).Keys
    ensures node["weight"] == Coalesce(data, "height", Int(0))
  {
    Defaults(data, Columns(today))["weight" := Coalesce(data, "height", Int(0))]
  }

  /** The product row with every column read from its own key. */
  function NewProduct(data: Record, today: Value): (node: Record)
    ensures node.Keys == Columns(today).Keys
    ensures forall k :: k in node ==> node[k] == Coalesce(data, k, Columns(today)[k])
  {
    Defaults(data, Columns(today))
  }

  /** The defaults in words: a field the request leaves out gets minimum,
      subtract and shipping 1, today's date, and 0 or "" elsewhere. */
  lemma NewProductDefaults(data: Record, today: Value)
    requires forall k :: k in data ==> data[k] == Null
    ensures var node := NewProduct(data, today);
            && node["minimum"] == Int(1) && node["subtract"] == Int(1) && node["shipping"] == Int(1)
            && node["date_available"] == today
            && node["quantity"] == Int(0) && node["model"] == Str("") && node["weight"] == Int(0)
            && node["name"] == Null
  {
    ColumnsStock(today);
    ColumnsBlank(today);
    ColumnsChecked(today);
  }

  lemma ColumnsStock(today: Value)
    ensures var cols := Columns(today);
            && "minimum" in cols && "subtract" in cols && "shipping" in cols && "date_available" in cols
            && cols["minimum"] == Int(1) && cols["subtract"] == Int(1) && cols["shipping"] == Int(1)
            && cols["date_available"] == today
  {
  }

  lemma ColumnsBlank(today: Value)
    ensures var cols := Columns(today);
            && "quantity" in cols && "weight" in cols
            && cols["quantity"] == Int(0) && cols["weight"] == Int(0)
  {
  }

  lemma ColumnsChecked(today: Value)
    ensures var cols := Columns(today);
            && "name" in cols && "model" in cols
            && cols["name"] == Null && cols["model"] == Str("")
  {
  }

  /** The two fields `create` checks come from the request, the model
      defaulting to "". */
  lemma NewProductChecked(data: Record, today: Value)
    ensures "name" in NewProduct(data, today) && "model" in NewProduct(data, today)
    ensures NewProduct(data, today)["name"] == Get(data, "name")
    ensures NewProduct(data, today)["model"] == Coalesce(data, "model", Str(""))
  {
    ColumnsChecked(today);
  }

  /** As written, a request with weight 5 and no height saves weight 0. */
  lemma WeightFromHeight(today: Value)
    ensures NewProductAsWritten(map["weight" := Int(5)], today)["weight"] == Int(0)
    ensures NewProduct(map["weight" := Int(5)], today)["weight"] == Int(5)
  {
    var data: Record := map["weight" := Int(5)];
    assert "height" !in data;
    assert NewProduct(data, today)["weight"] == Coalesce(data, "weight", Int(0));
  }

  /** As written, the saved weight does not depend on the request's weight. */
  lemma WeightIgnoresWeight(data: Record, w: Value, today: Value)
    ensures NewProductAsWritten(data["weight" := w], today)["weight"] == NewProductAsWritten(data, today)["weight"]
    ensures w != Null ==> NewProduct(data["weight" := w], today)["weight"] == w
  {
    assert Coalesce(data["weight" := w], "height", Int(0)) == Coalesce(data, "height", Int(0));
  }

  /** The checks of `create` on the built row: name non-empty and at most 255
      code points, model non-empty and at most 64. */
  predicate CreateValid(node: Record)
    requires "name" in node && "model" in node
  {
    NameOk(node["name"], 255) && NameOk(node["model"], 64)
  }

  // ---------------------------------------------------------------------
  // Link rows

  /** One `product_to_category` row per requested id, cast to int. */
  function CategoryLinks(product: int, ids: seq<Value>): (rows: seq<CategoryLink>)
    ensures |rows| == |ids|
    ensures forall k :: 0 <= k < |ids| ==> rows[k] == CategoryLink(product, IntCast(ids[k]))
  {
    seq(|ids|, k requires 0 <= k < |ids| => CategoryLink(product, IntCast(ids[k])))
  }

  /** One `product_to_store` row per requested id, cast to int. */
  function StoreLinks(product: int, ids: seq<Value>): (rows: seq<StoreLink>)
    ensures |rows| == |ids|
    ensures forall k :: 0 <= k < |ids| ==> rows[k] == StoreLink(product, IntCast(ids[k]))
  {
    seq(|ids|, k requires 0 <= k < |ids| => StoreLink(product, IntCast(ids[k])))
  }

  /** One `product_attribute` row per requested entry: its "id" cast to int
      and its "text" as given. */
  function AttributeLinks(product: int, attrs: seq<Record>): (rows: seq<AttributeLink>)
    ensures |rows| == |attrs|
    ensures forall k :: 0 <= k < |attrs| ==>
              rows[k] == AttributeLink(product, IntCast(Get(attrs[k], "id")), Get(attrs[k], "text"))
  {
    seq(|attrs|, k requires 0 <= k < |attrs| =>
      AttributeLink(product, IntCast(Get(attrs[k], "id")), Get(attrs[k], "text")))
  }

  // ---------------------------------------------------------------------
  // Options

  /** The option types whose entries carry a list of values. */
  const ChoiceTypes: seq<string> := ["select", "radio", "checkbox", "image"]

  /** `in_array($po['type'], [...])`, loosely compared. */
  predicate IsChoice(req: OptionRequest) {
    InArrayLoose(Get(req.fields, "type"), ChoiceTypes)
  }

  /** Whether an entry writes anything: a choice type only with
      `product_option_value` set, any other type always. */
  predicate Writes(req: OptionRequest) {
    !IsChoice(req) || req.values.Some?
  }

  /** The counters of the two auto-increment ids a save draws from. On
      `create` every option and value row takes the next id. On `update` a
      row is inserted with the id the request gives; only an option whose
      `product_option_id` casts to 0, or a value whose
      `product_option_value_id` is null or 0, is inserted without an id of
      its own and takes the next one. */
  datatype IdSource = Auto(nextOption: int, nextValue: int) | Requested(nextOption: int, nextValue: int)

  /** An entry of `update` whose `(int) $po['product_option_id']` is 0. */
  predicate NoOptionId(req: OptionRequest) {
    IntCast(Get(req.fields, "product_option_id")) == 0
  }

  /** A value entry of `update` whose `product_option_value_id` is null, 0 or "0". */
  predicate NoValueId(pov: Record) {
    var v := Get(pov, "product_option_value_id");
    v == Null || v == Int(0) || v == Str("0")
  }

  /** Whether an entry's option row takes the next option id. */
  predicate DrawsOptionId(req: OptionRequest, ids: IdSource) {
    ids.Auto? || NoOptionId(req)
  }

  /** The rows one entry writes. */
  datatype Saved = Saved(option: OptionRow, values: seq<OptionValueRow>)

  /** The id of value `k`: on `create` the `k`-th next one; on `update` the
      requested one, or for a value without one the next id not taken by
      an earlier value of the entry. */
  function ValueId(povs: seq<Record>, k: int, ids: IdSource): Value
    requires 0 <= k < |povs|
  {
    if ids.Auto? then Int(ids.nextValue + k)
    else if NoValueId(povs[k]) then Int(ids.nextValue + |Filter(povs[..k], NoValueId)|)
    else Get(povs[k], "product_option_value_id")
  }

  /** The `product_option_value` rows of one choice entry whose option row
      has id `po`. */
  function ValueRows(product: int, po: int, option: int, povs: seq<Record>, ids: IdSource): (rows: seq<OptionValueRow>)
    ensures |rows| == |povs|
    ensures ids.Auto? ==> forall k :: 0 <= k < |povs| ==> rows[k].id == Int(ids.nextValue + k)
    ensures ids.Requested? ==> forall k :: 0 <= k < |povs| && !NoValueId(povs[k]) ==>
              rows[k].id == Get(povs[k], "product_option_value_id")
    ensures ids.Requested? ==> forall k :: 0 <= k < |povs| && NoValueId(povs[k]) ==>
              rows[k].id == Int(ids.nextValue + |Filter(povs[..k], NoValueId)|)
    ensures forall k :: 0 <= k < |povs| ==>
              && rows[k].productOption == po && rows[k].product == product && rows[k].option == option
              && rows[k].optionValue == IntCast(Get(povs[k], "option_value_id"))
              && rows[k].quantity == IntCast(Get(povs[k], "quantity"))
              && rows[k].subtract == IntCast(Get(povs[k], "subtract"))
              && rows[k].points == IntCast(Get(povs[k], "points"))
              && rows[k].pointsPrefix == Get(povs[k], "points_prefix")
  {
    seq(|povs|, k requires 0 <= k < |povs| => ValueRow(product, po, option, povs[k], ValueId(povs, k, ids)))
  }

  /** The `product_option_value` row one value entry writes with id `id`. */
  function ValueRow(product: int, po: int, option: int, pov: Record, id: Value): OptionValueRow {
    OptionValueRow(
      id, po, product, option, IntCast(Get(pov, "option_value_id")),
      IntCast(Get(pov, "quantity")), IntCast(Get(pov, "subtract")),
      IntCast(Get(pov, "points")), Get(pov, "points_prefix"),
      Get(pov, "price_prefix"), Get(pov, "weight_prefix"))
  }

  /** The values of one entry of `update` that are inserted without an id
      take distinct ids, none below the counter and all below the counter
      once they are taken. */
  lemma FreshValueIds(product: int, po: int, option: int, povs: seq<Record>, nextOption: int, nextValue: int, j: int, k: int)
    requires 0 <= j < k < |povs| && NoValueId(povs[j]) && NoValueId(povs[k])
    ensures var rows := ValueRows(product, po, option, povs, Requested(nextOption, nextValue));
            && rows[j].id != rows[k].id
            && rows[j].id.Int? && nextValue <= rows[j].id.i
            && rows[k].id.Int? && rows[k].id.i < nextValue + |Filter(povs, NoValueId)|
  {
    FilterCountsFrom(povs[..k], NoValueId, j);
    assert povs[..k][..j] == povs[..j];
    FilterCountsFrom(povs, NoValueId, k);
  }

  /** The rows one writing entry saves. */
  function SaveOne(product: int, req: OptionRequest, ids: IdSource): (s: Saved)
    requires Writes(req)
    ensures ids.Auto? ==> s.option.id == ids.nextOption
    ensures ids.Requested? ==>
              s.option.id == if NoOptionId(req) then ids.nextOption else IntCast(Get(req.fields, "product_option_id"))
    ensures s.option.product == product
    ensures s.option.option == IntCast(Get(req.fields, "option_id"))
    ensures s.option.required == IntCast(Get(req.fields, "required"))
    ensures IsChoice(req) ==> s.option.value == Null && |s.values| == |req.values.value|
    ensures !IsChoice(req) ==> s.option.value == Get(req.fields, "value") && s.values == []
    ensures forall k :: 0 <= k < |s.values| ==> s.values[k].productOption == s.option.id && s.values[k].product == product
  {
    var id := if DrawsOptionId(req, ids) then ids.nextOption else IntCast(Get(req.fields, "product_option_id"));
    var option := IntCast(Get(req.fields, "option_id"));
    var required := IntCast(Get(req.fields, "required"));
    if IsChoice(req) then
      Saved(OptionRow(id, product, option, Null, required), ValueRows(product, id, option, req.values.value, ids))
    else
      Saved(OptionRow(id, product, option, Get(req.fields, "value"), required), [])
  }

  /** The number of value ids one entry draws. */
  function ValuesDrawn(req: OptionRequest, ids: IdSource): nat {
    if !IsChoice(req) || req.values.None? then 0
    else if ids.Auto? then |req.values.value|
    else |Filter(req.values.value, NoValueId)|
  }

  /** The counters after one writing entry is saved. */
  function Advance(ids: IdSource, req: OptionRequest): IdSource {
    ids.(nextOption := ids.nextOption + (if DrawsOptionId(req, ids) then 1 else 0),
         nextValue := ids.nextValue + ValuesDrawn(req, ids))
  }

  /** The counters once the writing entries `ws` are saved in order. */
  function CountersAfter(ws: seq<OptionRequest>, ids: IdSource): IdSource
    decreases |ws|
  {
    if ws == [] then ids else CountersAfter(ws[1..], Advance(ids, ws[0]))
  }

  /** The `foreach ($data['product_options'] ...)` loop: what each entry
      saves, in request order; entries that write nothing are skipped. */
  function Dispatch(product: int, reqs: seq<OptionRequest>, ids: IdSource): (saved: seq<Saved>)
    ensures |saved| == |Filter(reqs, Writes)|
    ensures forall k :: 0 <= k < |saved| ==> saved[k].option.product == product
    ensures ids.Auto? ==> forall k :: 0 <= k < |saved| ==> saved[k].option.id == ids.nextOption + k
    decreases |reqs|
  {
    if reqs == [] then []
    else if !Writes(reqs[0]) then Dispatch(product, reqs[1..], ids)
    else
      var s := SaveOne(product, reqs[0], ids);
      [s] + Dispatch(product, reqs[1..], Advance(ids, reqs[0]))
  }

  /** Each saved entry is the one `SaveOne` makes of the matching writing
      entry, under the counters the earlier writing entries leave. */
  lemma {:induction false} DispatchEach(product: int, reqs: seq<OptionRequest>, ids: IdSource, k: int)
    requires 0 <= k < |Dispatch(product, reqs, ids)|
    ensures Dispatch(product, reqs, ids)[k]
         == SaveOne(product, Filter(reqs, Writes)[k], CountersAfter(Filter(reqs, Writes)[..k], ids))
    decreases |reqs|
  {
    if !Writes(reqs[0]) {
      DispatchSkip(product, reqs, ids, k);
      DispatchEach(product, reqs[1..], ids, k);
    } else if k == 0 {
      DispatchFirst(product, reqs, ids);
    } else {
      DispatchEach(product, reqs[1..], Advance(ids, reqs[0]), k - 1);
      DispatchStep(product, reqs, ids, k);
    }
  }

  lemma DispatchSkip(product: int, reqs: seq<OptionRequest>, ids: IdSource, k: int)
    requires reqs != [] && !Writes(reqs[0]) && 0 <= k < |Dispatch(product, reqs, ids)|
    ensures Dispatch(product, reqs, ids) == Dispatch(product, reqs[1..], ids)
    ensures Filter(reqs, Writes) == Filter(reqs[1..], Writes)
  {
  }

  lemma DispatchFirst(product: int, reqs: seq<OptionRequest>, ids: IdSource)
    requires reqs != [] && Writes(reqs[0])
    ensures Dispatch(product, reqs, ids)[0] == SaveOne(product, Filter(reqs, Writes)[0], CountersAfter(Filter(reqs, Writes)[..0], ids))
  {
    assert Filter(reqs, Writes)[..0] == [];
    assert Filter(reqs, Writes)[0] == reqs[0];
  }

  lemma DispatchStep(product: int, reqs: seq<OptionRequest>, ids: IdSource, k: int)
    requires reqs != [] && Writes(reqs[0]) && 0 < k < |Dispatch(product, reqs, ids)|
    ensures Dispatch(product, reqs, ids)[k] == Dispatch(product, reqs[1..], Advance(ids, reqs[0]))[k - 1]
    ensures Filter(reqs, Writes)[k] == Filter(reqs[1..], Writes)[k - 1]
    ensures CountersAfter(Filter(reqs, Writes)[..k], ids)
         == CountersAfter(Filter(reqs[1..], Writes)[..k - 1], Advance(ids, reqs[0]))
  {
    var rest := Filter(reqs[1..], Writes);
    assert Filter(reqs, Writes) == [reqs[0]] + rest;
    assert Filter(reqs, Writes)[..k] == [reqs[0]] + rest[..k - 1];
    CountersAfterCons(reqs[0], rest[..k - 1], ids);
  }

  lemma CountersAfterCons(w: OptionRequest, ws: seq<OptionRequest>, ids: IdSource)
    ensures CountersAfter([w] + ws, ids) == CountersAfter(ws, Advance(ids, w))
  {
    assert ([w] + ws)[1..] == ws;
  }

  /** On `update`, the option counter moves once per entry inserted
      without an option id. */
  lemma {:induction false} CountersAfterRequested(ws: seq<OptionRequest>, nextOption: int, nextValue: int)
    ensures CountersAfter(ws, Requested(nextOption, nextValue)).Requested?
    ensures CountersAfter(ws, Requested(nextOption, nextValue)).nextOption == nextOption + |Filter(ws, NoOptionId)|
    ensures CountersAfter(ws, Requested(nextOption, nextValue)).nextValue >= nextValue
    decreases |ws|
  {
    if ws != [] {
      var a := Advance(Requested(nextOption, nextValue), ws[0]);
      CountersAfterRequested(ws[1..], a.nextOption, a.nextValue);
    }
  }

  /** On `update`, two option rows inserted without an id take distinct
      ids, none below the counter, and their value rows follow them. */
  lemma FreshOptionIds(product: int, reqs: seq<OptionRequest>, nextOption: int, nextValue: int, j: int, k: int)
    requires 0 <= j < k < |Dispatch(product, reqs, Requested(nextOption, nextValue))|
    requires NoOptionId(Filter(reqs, Writes)[j]) && NoOptionId(Filter(reqs, Writes)[k])
    ensures var saved := Dispatch(product, reqs, Requested(nextOption, nextValue));
            && saved[j].option.id != saved[k].option.id
            && nextOption <= saved[j].option.id < saved[k].option.id
            && forall i :: 0 <= i < |saved[k].values| ==> saved[k].values[i].productOption == saved[k].option.id
  {
    var ws := Filter(reqs, Writes);
    FreshOptionId(product, reqs, nextOption, nextValue, j);
    FreshOptionId(product, reqs, nextOption, nextValue, k);
    assert ws[..k][..j] == ws[..j];
    FilterCountsFrom(ws[..k], NoOptionId, j);
  }

  /** On `update`, an option row inserted without an id takes the option
      counter moved once per earlier such entry. */
  lemma FreshOptionId(product: int, reqs: seq<OptionRequest>, nextOption: int, nextValue: int, k: int)
    requires 0 <= k < |Dispatch(product, reqs, Requested(nextOption, nextValue))|
    requires NoOptionId(Filter(reqs, Writes)[k])
    ensures var saved := Dispatch(product, reqs, Requested(nextOption, nextValue));
            && saved[k].option.id == nextOption + |Filter(Filter(reqs, Writes)[..k], NoOptionId)|
            && forall i :: 0 <= i < |saved[k].values| ==> saved[k].values[i].productOption == saved[k].option.id
  {
    var ws := Filter(reqs, Writes);
    DispatchEach(product, reqs, Requested(nextOption, nextValue), k);
    CountersAfterRequested(ws[..k], nextOption, nextValue);
  }

  /** A request that names every option and value id is saved the same
      whatever the counters. */
  lemma {:induction false} DispatchNamed(product: int, reqs: seq<OptionRequest>, o1: int, v1: int, o2: int, v2: int)
    requires forall k :: 0 <= k < |reqs| ==> Named(reqs[k])
    ensures Dispatch(product, reqs, Requested(o1, v1)) == Dispatch(product, reqs, Requested(o2, v2))
    decreases |reqs|
  {
    if reqs != [] {
      if Writes(reqs[0]) {
        SaveNamed(product, reqs[0], o1, v1, o2, v2);
        var a1 := Advance(Requested(o1, v1), reqs[0]);
        var a2 := Advance(Requested(o2, v2), reqs[0]);
        DispatchNamed(product, reqs[1..], a1.nextOption, a1.nextValue, a2.nextOption, a2.nextValue);
      } else {
        DispatchNamed(product, reqs[1..], o1, v1, o2, v2);
      }
    }
  }

  /** An entry that names its option id and every value id. */
  predicate Named(req: OptionRequest) {
    && !NoOptionId(req)
    && (req.values.Some? ==> forall i :: 0 <= i < |req.values.value| ==> !NoValueId(req.values.value[i]))
  }

  lemma SaveNamed(product: int, req: OptionRequest, o1: int, v1: int, o2: int, v2: int)
    requires Writes(req) && Named(req)
    ensures SaveOne(product, req, Requested(o1, v1)) == SaveOne(product, req, Requested(o2, v2))
  {
    if IsChoice(req) {
      var id := IntCast(Get(req.fields, "product_option_id"));
      var option := IntCast(Get(req.fields, "option_id"));
      var povs := req.values.value;
      assert ValueRows(product, id, option, povs, Requested(o1, v1)) == ValueRows(product, id, option, povs, Requested(o2, v2));
    }
  }

  /** Entries of a choice type without `product_option_value` write nothing. */
  lemma DispatchSkips(product: int, reqs: seq<OptionRequest>, ids: IdSource)
    requires forall k :: 0 <= k < |reqs| ==> IsChoice(reqs[k]) && reqs[k].values.None?
    ensures Dispatch(product, reqs, ids) == []
  {
    FilterDropsAll(reqs, Writes);
  }

  /** The option rows of the saved entries. */
  function OptionRows(saved: seq<Saved>): (rows: seq<OptionRow>)
    ensures |rows| == |saved|
    ensures forall k :: 0 <= k < |saved| ==> rows[k] == saved[k].option
  {
    seq(|saved|, k requires 0 <= k < |saved| => saved[k].option)
  }

  /** The value rows of the saved entries, entry by entry. */
  function ValueRowsOf(saved: seq<Saved>): seq<OptionValueRow>
    decreases |saved|
  {
    if saved == [] then [] else saved[0].values + ValueRowsOf(saved[1..])
  }

  /** Every option and value row the dispatch writes belongs to the product. */
  lemma {:induction false} DispatchOwned(product: int, reqs: seq<OptionRequest>, ids: IdSource)
    ensures AllOwnedBy(OptionRows(Dispatch(product, reqs, ids)), OptionOwner, product)
    ensures AllOwnedBy(ValueRowsOf(Dispatch(product, reqs, ids)), ValueOwner, product)
    decreases |reqs|
  {
    if reqs != [] {
      if !Writes(reqs[0]) {
        DispatchOwned(product, reqs[1..], ids);
      } else {
        var s := SaveOne(product, reqs[0], ids);
        DispatchOwned(product, reqs[1..], Advance(ids, reqs[0]));
        var saved := Dispatch(product, reqs, ids);
        assert saved[1..] == Dispatch(product, reqs[1..], Advance(ids, reqs[0]));
        assert ValueRowsOf(saved) == s.values + ValueRowsOf(saved[1..]);
      }
    }
  }

  /** The link rows a request writes for `product`. */
  function NewLinks(s: Catalog, product: int, links: Links, ids: IdSource): (t: Catalog)
    ensures t.products == s.products
  {
    var saved := Dispatch(product, links.options, ids);
    Catalog(s.products,
      s.categories + CategoryLinks(product, links.categoryIds),
      s.stores + StoreLinks(product, links.storeIds),
      s.attributes + AttributeLinks(product, links.attributes),
      s.options + OptionRows(saved),
      s.optionValues + ValueRowsOf(saved))
  }

  /** `DELETE ... WHERE product_id = product` on every link table. */
  function Unlink(s: Catalog, product: int): (t: Catalog)
    ensures t.products == s.products
  {
    Catalog(s.products,
      Filter(s.categories, NotOwnedBy(CategoryOwner, product)),
      Filter(s.stores, NotOwnedBy(StoreOwner, product)),
      Filter(s.attributes, NotOwnedBy(AttributeOwner, product)),
      Filter(s.options, NotOwnedBy(OptionOwner, product)),
      Filter(s.optionValues, NotOwnedBy(ValueOwner, product)))
  }

  /** The link rows of one product, one group per table. */
  datatype Linked = Linked(categories: seq<CategoryLink>, stores: seq<StoreLink>,
                           attributes: seq<AttributeLink>, options: seq<OptionRow>,
                           optionValues: seq<OptionValueRow>)

  function LinkedTo(s: Catalog, product: int): Linked {
    Linked(Group(s.categories, CategoryOwner, product), Group(s.stores, StoreOwner, product),
           Group(s.attributes, AttributeOwner, product), Group(s.options, OptionOwner, product),
           Group(s.optionValues, ValueOwner, product))
  }

  /** What a request asks to link to `product`. */
  function Asked(product: int, links: Links, ids: IdSource): Linked {
    var saved := Dispatch(product, links.options, ids);
    Linked(CategoryLinks(product, links.categoryIds), StoreLinks(product, links.storeIds),
           AttributeLinks(product, links.attributes), OptionRows(saved), ValueRowsOf(saved))
  }

  // ---------------------------------------------------------------------
  // The service

  /** The row as saved: the columns `create` assigns, and the two columns
      it leaves to the table's default of 0, `points` and `viewed`. */
  function Stored(node: Record): (row: Record)
    ensures row.Keys == node.Keys + {"points", "viewed"}
    ensures row["points"] == Int(0) && row["viewed"] == Int(0)
    ensures forall k :: k in node && k != "points" && k != "viewed" ==> row[k] == node[k]
  {
    node["points" := Int(0)]["viewed" := Int(0)]
  }

  /** The saving half of `create`, given the built row: 400 when the checks
      on it fail, otherwise the row under its new id and every requested
      link row. */
  function Save(s: Catalog, node: Record, links: Links, id: int, ids: IdSource): (r: Result<Catalog>)
    requires id !in s.products && "name" in node && "model" in node
    ensures r.Fail? <==> !CreateValid(node)
    ensures r.Fail? ==> r.status == BadRequest
    ensures r.Ok? ==> r.value.products == s.products[id := Stored(node)["id" := Int(id)]]
    ensures r.Ok? ==> r.value == NewLinks(s, id, links, ids).(products := r.value.products)
  {
    match CreateRecord(s.products, id, Stored(node), CreateValid(node))
    case Fail(status) => Fail(status)
    case Ok(products) => Ok(NewLinks(s, id, links, ids).(products := products))
  }

  /** A column other than the checked ones and those the table defaults
      changes nothing in a save but itself. */
  lemma SaveSets(s: Catalog, node: Record, links: Links, id: int, ids: IdSource, k: string, v: Value)
    requires id !in s.products && "name" in node && "model" in node
    requires k !in {"name", "model", "points", "viewed", "id"}
    ensures Save(s, node[k := v], links, id, ids).Fail? <==> Save(s, node, links, id, ids).Fail?
    ensures Save(s, node, links, id, ids).Ok? ==>
              var saved := Save(s, node, links, id, ids).value;
              Save(s, node[k := v], links, id, ids).value
                == saved.(products := saved.products[id := saved.products[id][k := v]])
  {
    StoredSet(node, k, v, id);
  }

  lemma StoredSet(node: Record, k: string, v: Value, id: int)
    requires k != "points" && k != "viewed" && k != "id"
    ensures Stored(node[k := v])["id" := Int(id)] == Stored(node)["id" := Int(id)][k := v]
  {
    assert node[k := v]["points" := Int(0)]["viewed" := Int(0)]["id" := Int(id)]
        == node["points" := Int(0)]["viewed" := Int(0)]["id" := Int(id)][k := v];
  }

  /** `create($data)` with the next product id and the next option and value
      ids: 400 for a falsy name, a name over 255 code points, a falsy model or
      a model over 64, checked on the built row; otherwise the product row
      and every requested link row are saved. The row is the corrected
      `NewProduct`; `CreateAsWritten` is the service as it stands. */
  function Create(s: Catalog, data: Record, links: Links, today: Value, id: int, nextOption: int, nextValue: int)
    : (r: Result<Catalog>)
    requires id !in s.products
    ensures r.Fail? <==> !NameOk(Get(data, "name"), 255) || !NameOk(Coalesce(data, "model", Str("")), 64)
    ensures r.Fail? ==> r.status == BadRequest
    ensures r.Ok? ==> r.value.products.Keys == s.products.Keys + {id}
    ensures r.Ok? ==> forall p :: p in s.products ==> r.value.products[p] == s.products[p]
    ensures r.Ok? ==> r.value.products[id] == Stored(NewProduct(data, today))["id" := Int(id)]
    ensures r.Ok? ==> r.value == NewLinks(s, id, links, Auto(nextOption, nextValue)).(products := r.value.products)
  {
    NewProductChecked(data, today);
    Save(s, NewProduct(data, today), links, id, Auto(nextOption, nextValue))
  }

  /** `create($data)` as the service does it, the weight read from the
      request's "height": accepted exactly when `Create` is, and saving the
      same rows except for that one column. */
  function CreateAsWritten(s: Catalog, data: Record, links: Links, today: Value, id: int, nextOption: int, nextValue: int)
    : (r: Result<Catalog>)
    requires id !in s.products
    ensures r.Fail? <==> Create(s, data, links, today, id, nextOption, nextValue).Fail?
    ensures r.Fail? ==> r.status == BadRequest
    ensures r.Ok? ==> (r.value.products == Create(s, data, links, today, id, nextOption, nextValue).value.products[id :=
                         Create(s, data, links, today, id, nextOption, nextValue).value.products[id]["weight" := Coalesce(data, "height", Int(0))]])
    ensures r.Ok? ==> (r.value.(products := Create(s, data, links, today, id, nextOption, nextValue).value.products)
                       == Create(s, data, links, today, id, nextOption, nextValue).value)
    ensures r.Ok? ==> r.value.products[id]["weight"] == Coalesce(data, "height", Int(0))
  {
    NewProductAsWrittenChecked(data, today);
    NewProductChecked(data, today);
    SaveSets(s, NewProduct(data, today), links, id, Auto(nextOption, nextValue), "weight", Coalesce(data, "height", Int(0)));
    Save(s, NewProductAsWritten(data, today), links, id, Auto(nextOption, nextValue))
  }

  lemma NewProductAsWrittenChecked(data: Record, today: Value)
    ensures "name" in NewProductAsWritten(data, today) && "model" in NewProductAsWritten(data, today)
    ensures NewProductAsWritten(data, today)["name"] == Get(data, "name")
    ensures NewProductAsWritten(data, today)["model"] == Coalesce(data, "model", Str(""))
    ensures NewProductAsWritten(data, today) == NewProduct(data, today)["weight" := Coalesce(data, "height", Int(0))]
  {
    NewProductChecked(data, today);
  }

  /** The corrected row keeps the request's weight. */
  lemma CreateStoresWeight(s: Catalog, data: Record, links: Links, today: Value, id: int, nextOption: int, nextValue: int)
    requires id !in s.products
    requires Create(s, data, links, today, id, nextOption, nextValue).Ok?
    ensures Create(s, data, links, today, id, nextOption, nextValue).value.products[id]["weight"] == Coalesce(data, "weight", Int(0))
  {
    ColumnsBlank(today);
    var row := NewProduct(data, today);
    assert row["weight"] == Coalesce(data, "weight", Int(0));
  }

  /** A product created without a height is saved by the service with
      weight 0, whatever weight the request gives, and by the corrected row
      with the request's weight. */
  lemma CreateDropsWeight(s: Catalog, data: Record, links: Links, today: Value, id: int, nextOption: int, nextValue: int)
    requires id !in s.products
    requires Create(s, data, links, today, id, nextOption, nextValue).Ok?
    requires Get(data, "height") == Null
    ensures CreateAsWritten(s, data, links, today, id, nextOption, nextValue).Ok?
    ensures CreateAsWritten(s, data, links, today, id, nextOption, nextValue).value.products[id]["weight"] == Int(0)
    ensures Create(s, data, links, today, id, nextOption, nextValue).value.products[id]["weight"] == Coalesce(data, "weight", Int(0))
  {
    CreateStoresWeight(s, data, links, today, id, nextOption, nextValue);
  }

  /** On a product that had no link rows, `create` links it to exactly what
      the request names, and every other product keeps its links. */
  lemma CreateLinks(s: Catalog, data: Record, links: Links, today: Value, id: int, nextOption: int, nextValue: int, p: int)
    requires id !in s.products
    requires LinkedTo(s, id) == Linked([], [], [], [], [])
    requires Create(s, data, links, today, id, nextOption, nextValue).Ok?
    ensures LinkedTo(Create(s, data, links, today, id, nextOption, nextValue).value, p)
         == if p == id then Asked(id, links, Auto(nextOption, nextValue)) else LinkedTo(s, p)
  {
    var ids := Auto(nextOption, nextValue);
    var saved := Dispatch(id, links.options, ids);
    DispatchOwned(id, links.options, ids);
    AppendGroup(s.categories, CategoryOwner, id, CategoryLinks(id, links.categoryIds), p);
    AppendGroup(s.stores, StoreOwner, id, StoreLinks(id, links.storeIds), p);
    AppendGroup(s.attributes, AttributeOwner, id, AttributeLinks(id, links.attributes), p);
    AppendGroup(s.options, OptionOwner, id, OptionRows(saved), p);
    AppendGroup(s.optionValues, ValueOwner, id, ValueRowsOf(saved), p);
  }

  /** The checks of `update`: the request's name, and the model stored on
      the product (not the request's). */
  predicate UpdateValid(node: Record, data: Record) {
    NameOk(Get(data, "name"), 255) && NameOk(Get(node, "model"), 64)
  }

  /** `update($id, $data)` with the next option and value ids: 404 for an
      unknown id; 400 for an empty name, a name over 255 code points, or a
      stored model that is falsy or over 64; otherwise the merge, then every
      link row of the product is deleted and the requested ones inserted,
      option and value rows under the ids the request gives or, where it
      gives none, the next ones. */
  function Update(s: Catalog, id: int, data: Record, links: Links, nextOption: int, nextValue: int): (r: Result<Catalog>)
    ensures r.Fail? <==> id !in s.products || !UpdateValid(s.products[id], data)
    ensures r.Fail? ==> r.status == if id !in s.products then NotFound else BadRequest
    ensures r.Ok? ==> r.value.products == s.products[id := Merge(s.products[id], data)]
  {
    if id !in s.products then Fail(NotFound)
    else
      match UpdateRecord(s.products, id, data, UpdateValid(s.products[id], data))
      case Fail(status) => Fail(status)
      case Ok(products) => Ok(NewLinks(Unlink(s, id), id, links, Requested(nextOption, nextValue)).(products := products))
  }

  /** After `update` the product is linked to exactly what the request
      names, whatever it was linked to before, and every other product keeps
      its links. */
  lemma UpdateLinks(s: Catalog, id: int, data: Record, links: Links, nextOption: int, nextValue: int, p: int)
    requires Update(s, id, data, links, nextOption, nextValue).Ok?
    ensures LinkedTo(Update(s, id, data, links, nextOption, nextValue).value, p)
         == if p == id then Asked(id, links, Requested(nextOption, nextValue)) else LinkedTo(s, p)
  {
    var ids := Requested(nextOption, nextValue);
    var saved := Dispatch(id, links.options, ids);
    DispatchOwned(id, links.options, ids);
    ReplaceGroup(s.categories, CategoryOwner, id, CategoryLinks(id, links.categoryIds), p);
    ReplaceGroup(s.stores, StoreOwner, id, StoreLinks(id, links.storeIds), p);
    ReplaceGroup(s.attributes, AttributeOwner, id, AttributeLinks(id, links.attributes), p);
    ReplaceGroup(s.options, OptionOwner, id, OptionRows(saved), p);
    ReplaceGroup(s.optionValues, ValueOwner, id, ValueRowsOf(saved), p);
  }

  /** The request's model plays no part in whether `update` is accepted. */
  lemma UpdateIgnoresRequestModel(s: Catalog, id: int, data: Record, links: Links, nextOption: int, nextValue: int, m: Value)
    ensures Update(s, id, data["model" := m], links, nextOption, nextValue).Fail?
        <==> Update(s, id, data, links, nextOption, nextValue).Fail?
  {
  }

  /** So an accepted `update` can store an empty model, which `create` would
      have refused. */
  lemma UpdateStoresEmptyModel(s: Catalog, id: int, data: Record, links: Links, nextOption: int, nextValue: int)
    requires id in s.products && "model" in s.products[id]
    requires Update(s, id, data, links, nextOption, nextValue).Ok?
    ensures Update(s, id, data["model" := Str("")], links, nextOption, nextValue).Ok?
    ensures Update(s, id, data["model" := Str("")], links, nextOption, nextValue).value.products[id]["model"] == Str("")
  {
    UpdateIgnoresRequestModel(s, id, data, links, nextOption, nextValue, Str(""));
  }

  /** A created product starts with 0 points whatever the request says, and
      an `update` giving points stores them. */
  lemma CreateThenUpdatePoints(s: Catalog, data: Record, links: Links, today: Value, id: int, nextOption: int, nextValue: int,
                               upd: Record, updLinks: Links, o: int, v: int)
    requires id !in s.products
    requires Create(s, data, links, today, id, nextOption, nextValue).Ok?
    requires Update(Create(s, data, links, today, id, nextOption, nextValue).value, id, upd, updLinks, o, v).Ok?
    requires "points" in upd && upd["points"] != Null
    ensures Create(s, data, links, today, id, nextOption, nextValue).value.products[id]["points"] == Int(0)
    ensures Update(Create(s, data, links, today, id, nextOption, nextValue).value, id, upd, updLinks, o, v)
              .value.products[id]["points"] == upd["points"]
  {
  }

  /** Repeating an accepted `update` whose merged model still passes changes
      nothing more, when it draws from the same counters or the request
      names every option and value id. */
  lemma UpdateIdempotent(s: Catalog, id: int, data: Record, links: Links, o1: int, v1: int, o2: int, v2: int)
    requires Update(s, id, data, links, o1, v1).Ok?
    requires NameOk(Get(Merge(s.products[id], data), "model"), 64)
    requires (o1 == o2 && v1 == v2) || forall k :: 0 <= k < |links.options| ==> Named(links.options[k])
    ensures Update(Update(s, id, data, links, o1, v1).value, id, data, links, o2, v2) == Update(s, id, data, links, o1, v1)
  {
    var once := Update(s, id, data, links, o1, v1).value;
    var ids := Requested(o1, v1);
    var saved := Dispatch(id, links.options, ids);
    if !(o1 == o2 && v1 == v2) {
      DispatchNamed(id, links.options, o1, v1, o2, v2);
    }
    assert Dispatch(id, links.options, Requested(o2, v2)) == saved;
    DispatchOwned(id, links.options, ids);
    MergeIdempotent(s.products[id], data);
    assert once.products[id := Merge(once.products[id], data)] == once.products;
    ReplaceIdempotent(s.categories, CategoryOwner, id, CategoryLinks(id, links.categoryIds));
    ReplaceIdempotent(s.stores, StoreOwner, id, StoreLinks(id, links.storeIds));
    ReplaceIdempotent(s.attributes, AttributeOwner, id, AttributeLinks(id, links.attributes));
    ReplaceIdempotent(s.options, OptionOwner, id, OptionRows(saved));
    ReplaceIdempotent(s.optionValues, ValueOwner, id, ValueRowsOf(saved));
  }

  /** The sort whitelist of `list`. */
  function ListOrder(sort: string, order: string): (o: Ordering)
    ensures o.OrderBy? <==> sort in ["name", "model", "price", "quantity", "status", "sort_order"]
    ensures o.OrderBy? ==> o.column == sort && (o.dir == Desc <==> AsciiLower(order) == "desc")
  {
    ListOrderWhitelist(sort, order, ["name", "model", "price", "quantity", "status", "sort_order"]);
    Records.ListOrder(sort, order, ["name", "model", "price", "quantity", "status", "sort_order"])
  }
}

=== FILE: records.dfy ===
/** What every CRUD service of the shop shares: request arrays, stored rows,
    the `Exception` codes they throw, the not-found check, the update merge,
    the name check and the sort whitelist of `list`. */
module Records {
  import opened Php

  /** A PHP associative array of request data, or the attributes of a
      loaded model (its table's columns). */
  type Record = map<string, Value>

  /** A table of rows keyed by their auto-increment id. */
  type Table = map<int, Record>

  /** The outcome of a service call: a value, or the code of the exception
      it throws. */
  datatype Result<T> = Ok(value: T) | Fail(status: int)

  /** Code of the validation exceptions. */
  const BadRequest := 400
  /** Code of the "does not exist" exceptions. */
  const NotFound := 404

  /** `$data[$key]`, a missing key reading as null. */
  function Get(data: Record, key: string): Value {
    if key in data then data[key] else Null
  }

  /** `$data[$key] ?? $default`. */
  function Coalesce(data: Record, key: string, default: Value): Value {
    if key in data && data[key] != Null then data[key] else default
  }

  /** The name check every service applies: `!$name` / `empty($name)` fails,
      and so does a name longer than `max` code points. */
  predicate NameOk(name: Value, max: nat) {
    !Falsy(name) && StrLen(name) <= max
  }

  /** `NameOk` in the terms a caller sees: the name is present, not null,
      not 0, not "" and not "0", and at most `max` code points long. */
  lemma NameOkMeans(data: Record, max: nat)
    ensures NameOk(Get(data, "name"), max) <==>
      && "name" in data
      && data["name"] != Null
      && data["name"] != Int(0)
      && data["name"] != Str("")
      && data["name"] != Str("0")
      && StrLen(data["name"]) <= max
  {
  }

  /** The update loop of every service: each key of `data` other than "id",
      whose value is not null and which is already an attribute of the node,
      overwrites that attribute. */
  function Merge(node: Record, data: Record): (r: Record)
    ensures r.Keys == node.Keys
    ensures "id" in node ==> r["id"] == node["id"]
    ensures forall k :: k in node && k != "id" && k in data && data[k] != Null ==> r[k] == data[k]
    ensures forall k :: k in node && r[k] != node[k] ==> k in data && r[k] == data[k]
  {
    map k | k in node :: if k != "id" && k in data && data[k] != Null then data[k] else node[k]
  }

  /** Merging the same data twice changes nothing more. */
  lemma MergeIdempotent(node: Record, data: Record)
    ensures Merge(Merge(node, data), data) == Merge(node, data)
  {
  }

  /** Data holding only null values, "id" and unknown keys leaves the node as it is. */
  lemma MergeIgnores(node: Record, data: Record)
    requires forall k :: k in data ==> k == "id" || data[k] == Null || k !in node
    ensures Merge(node, data) == node
  {
  }

  /** `load($id)` followed by the `!$node` check of `view`, `update` and `delete`. */
  function View(tbl: Table, id: int): (r: Result<Record>)
    ensures r.Fail? <==> id !in tbl
    ensures r.Fail? ==> r.status == NotFound
    ensures r.Ok? ==> r.value == tbl[id]
  {
    if id in tbl then Ok(tbl[id]) else Fail(NotFound)
  }

  /** `delete($id)`: 404 for an unknown id, else the row goes and nothing else does. */
  function Delete(tbl: Table, id: int): (r: Result<Table>)
    ensures r.Fail? <==> id !in tbl
    ensures r.Fail? ==> r.status == NotFound
    ensures r.Ok? ==> r.value.Keys == tbl.Keys - {id}
    ensures r.Ok? ==> forall k :: k in r.value ==> r.value[k] == tbl[k]
  {
    if id in tbl then Ok(tbl - {id}) else Fail(NotFound)
  }

  /** After a delete the id is unknown to `view`. */
  lemma DeleteThenView(tbl: Table, id: int, other: int)
    requires Delete(tbl, id).Ok?
    ensures View(Delete(tbl, id).value, id) == Fail(NotFound)
    ensures other != id ==> View(Delete(tbl, id).value, other) == View(tbl, other)
  {
  }

  /** `$data[$key] ?? $default` for every column of `defaults`: the fields a
      `create` assigns, each from the request or else from its default. */
  function Defaults(data: Record, defaults: Record): (r: Record)
    ensures r.Keys == defaults.Keys
    ensures forall k :: k in r ==>
              (k in data && data[k] != Null && r[k] == data[k]) || (Get(data, k) == Null && r[k] == defaults[k])
  {
    map k | k in defaults :: Coalesce(data, k, defaults[k])
  }

  /** The `create` of a service: when the checks on the assigned fields
      (`valid`) pass, the row is saved under the next auto-increment id,
      otherwise the service throws 400 and nothing is saved. */
  function CreateRecord(tbl: Table, id: int, node: Record, valid: bool): (r: Result<Table>)
    requires id !in tbl
    ensures r.Fail? <==> !valid
    ensures r.Fail? ==> r.status == BadRequest
    ensures r.Ok? ==> r.value.Keys == tbl.Keys + {id}
    ensures r.Ok? ==> r.value[id] == node["id" := Int(id)]
    ensures r.Ok? ==> forall k :: k in tbl ==> r.value[k] == tbl[k]
  {
    if valid then Ok(tbl[id := node["id" := Int(id)]]) else Fail(BadRequest)
  }

  /** The `update` of a service: 404 for an unknown id, 400 when the checks
      on the request (`valid`) fail, and otherwise the stored row merged
      with the request; no other row changes. */
  function UpdateRecord(tbl: Table, id: int, data: Record, valid: bool): (r: Result<Table>)
    ensures r.Fail? <==> id !in tbl || !valid
    ensures r.Fail? ==> r.status == if id !in tbl then NotFound else BadRequest
    ensures r.Ok? ==> r.value.Keys == tbl.Keys
    ensures r.Ok? ==> forall k :: k in tbl && k != id ==> r.value[k] == tbl[k]
    ensures r.Ok? ==> r.value[id].Keys == tbl[id].Keys
    ensures r.Ok? && "id" in tbl[id] ==> r.value[id]["id"] == tbl[id]["id"]
  {
    if id !in tbl then Fail(NotFound)
    else if !valid then Fail(BadRequest)
    else Ok(tbl[id := Merge(tbl[id], data)])
  }

  /** What `view` returns after a successful `create`: the assigned fields,
      with the new id. */
  lemma CreateThenView(tbl: Table, id: int, node: Record, valid: bool, other: int)
    requires id !in tbl
    requires CreateRecord(tbl, id, node, valid).Ok?
    ensures View(CreateRecord(tbl, id, node, valid).value, id) == Ok(node["id" := Int(id)])
    ensures other != id ==> View(CreateRecord(tbl, id, node, valid).value, other) == View(tbl, other)
  {
  }

  /** Repeating a successful `update` with the same request changes nothing. */
  lemma UpdateIdempotent(tbl: Table, id: int, data: Record, valid: bool)
    requires UpdateRecord(tbl, id, data, valid).Ok?
    ensures UpdateRecord(UpdateRecord(tbl, id, data, valid).value, id, data, valid)
         == UpdateRecord(tbl, id, data, valid)
  {
    var once := tbl[id := Merge(tbl[id], data)];
    MergeIdempotent(tbl[id], data);
    assert once[id := Merge(once[id], data)] == once;
  }

  /** What `view` returns after a successful `update`: each column the
      request gives a non-null value for (other than "id") takes it, every
      other column keeps its value. */
  lemma UpdateThenView(tbl: Table, id: int, data: Record, valid: bool, k: string)
    requires UpdateRecord(tbl, id, data, valid).Ok?
    requires k in tbl[id]
    ensures View(UpdateRecord(tbl, id, data, valid).value, id).Ok?
    ensures View(UpdateRecord(tbl, id, data, valid).value, id).value[k]
         == if k != "id" && k in data && data[k] != Null then data[k] else tbl[id][k]
  {
  }

  /** Sort direction of a listing. */
  datatype Direction = Asc | Desc

  /** The ORDER BY clause `list` adds, if any. */
  datatype Ordering = Unordered | OrderBy(column: string, dir: Direction)

  /** The `list` prologue: `array_search` of `sort` in the whitelist (the
      entries are non-numeric, so loose comparison is string equality), then
      `when($sort, ...)` orders by it, descending only for `desc` in any case. */
  function ListOrder(sort: string, order: string, columns: seq<string>): (o: Ordering)
    ensures o.OrderBy? ==> o.column in columns && o.column == sort
    ensures o.OrderBy? ==> (o.dir == Desc <==> AsciiLower(order) == "desc")
  {
    if sort in columns && !Falsy(Str(sort)) then
      OrderBy(sort, if AsciiLower(order) == "desc" then Desc else Asc)
    else
      Unordered
  }

  /** For a whitelist of real column names, a listing is ordered exactly when
      `sort` is one of them; anything else (including "") leaves it unordered. */
  lemma ListOrderWhitelist(sort: string, order: string, columns: seq<string>)
    requires forall k :: 0 <= k < |columns| ==> columns[k] != "" && columns[k] != "0"
    ensures ListOrder(sort, order, columns).OrderBy? <==> sort in columns
  {
  }
}

=== FILE: seqs.dfy ===
/** Order-preserving filtering of sequences: the model's stand-in for a
    `WHERE` clause over a table kept in insertion order. */
module Seqs {

  datatype Option<T> = None | Some(value: T)

  /** The elements of `s` that satisfy `f`, in their original order. */
  function Filter<T>(s: seq<T>, f: T -> bool): (o: seq<T>)
    ensures |o| <= |s|
    ensures forall i :: 0 <= i < |o| ==> f(o[i])
  {
    if s == [] then [] else (if f(s[0]) then [s[0]] else []) + Filter(s[1..], f)
  }

  /** Filtering keeps every selected element as often as it occurs, and no other. */
  lemma {:induction false} FilterCount<T(!new)>(s: seq<T>, f: T -> bool)
    ensures forall x :: multiset(Filter(s, f))[x] == if f(x) then multiset(s)[x] else 0
  {
    if s != [] {
      FilterCount(s[1..], f);
      assert s == [s[0]] + s[1..];
    }
  }

  lemma {:induction false} FilterAppend<T>(a: seq<T>, b: seq<T>, f: T -> bool)
    ensures Filter(a + b, f) == Filter(a, f) + Filter(b, f)
  {
    if a != [] {
      assert (a + b)[1..] == a[1..] + b;
      FilterAppend(a[1..], b, f);
      assert Filter(a + b, f) == (if f(a[0]) then [a[0]] else []) + Filter(a[1..] + b, f);
    } else {
      assert a + b == b;
    }
  }

  /** An element that passes `f` adds one to the count of those before it. */
  lemma FilterCountsFrom<T>(s: seq<T>, f: T -> bool, j: int)
    requires 0 <= j < |s| && f(s[j])
    ensures |Filter(s[..j], f)| < |Filter(s, f)|
  {
    assert s == s[..j] + s[j..];
    FilterAppend(s[..j], s[j..], f);
    assert Filter(s[j..], f) == [s[j]] + Filter(s[j..][1..], f);
  }

  /** Two filters may be applied in either order. */
  lemma {:induction false} FilterCommute<T>(s: seq<T>, f: T -> bool, g: T -> bool)
    ensures Filter(Filter(s, f), g) == Filter(Filter(s, g), f)
  {
    if s != [] {
      FilterCommute(s[1..], f, g);
      var x := s[0];
      if f(x) {
        assert Filter(s, f) == [x] + Filter(s[1..], f);
        assert ([x] + Filter(s[1..], f))[1..] == Filter(s[1..], f);
      } else {
        assert Filter(s, f) == Filter(s[1..], f);
      }
      if g(x) {
        assert Filter(s, g) == [x] + Filter(s[1..], g);
        assert ([x] + Filter(s[1..], g))[1..] == Filter(s[1..], g);
      } else {
        assert Filter(s, g) == Filter(s[1..], g);
      }
    }
  }

  /** Filters that agree on every element of `s` select the same elements. */
  lemma {:induction false} FilterAgree<T>(s: seq<T>, f: T -> bool, g: T -> bool)
    requires forall i :: 0 <= i < |s| ==> f(s[i]) == g(s[i])
    ensures Filter(s, f) == Filter(s, g)
  {
    if s != [] {
      FilterAgree(s[1..], f, g);
    }
  }

  /** A filter every element passes changes nothing. */
  lemma {:induction false} FilterKeepsAll<T>(s: seq<T>, f: T -> bool)
    requires forall i :: 0 <= i < |s| ==> f(s[i])
    ensures Filter(s, f) == s
  {
    if s != [] {
      FilterKeepsAll(s[1..], f);
      assert s == [s[0]] + s[1..];
    }
  }

  /** A filter no element passes leaves nothing. */
  lemma {:induction false} FilterDropsAll<T>(s: seq<T>, f: T -> bool)
    requires forall i :: 0 <= i < |s| ==> !f(s[i])
    ensures Filter(s, f) == []
  {
    if s != [] {
      FilterDropsAll(s[1..], f);
    }
  }

  /** Two equal elements at different positions occur at least twice. */
  lemma RepeatedElementCount<T>(s: seq<T>, i: int, j: int)
    requires 0 <= i < j < |s| && s[i] == s[j]
    ensures multiset(s)[s[i]] >= 2
  {
    assert s == s[..j] + s[j..];
    assert s[i] in s[..j];
    assert s[j] in s[j..];
    assert multiset(s) == multiset(s[..j]) + multiset(s[j..]);
  }

  /** A sequence without repeated elements holds each of them once. */
  lemma {:induction false} DistinctCounts<T>(s: seq<T>)
    requires forall i, j :: 0 <= i < j < |s| ==> s[i] != s[j]
    ensures forall x :: multiset(s)[x] <= 1
  {
    if s != [] {
      DistinctCounts(s[1..]);
      assert s == [s[0]] + s[1..];
      assert s[0] !in multiset(s[1..]);
    }
  }

  /** The position of the first occurrence of `x` in `s`. */
  function IndexOf<T(==)>(s: seq<T>, x: T): (i: nat)
    requires x in s
    ensures i < |s| && s[i] == x
    ensures forall j :: 0 <= j < i ==> s[j] != x
  {
    if s[0] == x then 0 else 1 + IndexOf(s[1..], x)
  }

  /** The first occurrence of an element missing from `a` lies in `b`. */
  lemma {:induction false} IndexOfAppend<T>(a: seq<T>, b: seq<T>, x: T)
    requires x !in a && x in b
    ensures IndexOf(a + b, x) == |a| + IndexOf(b, x)
  {
    if a == [] {
      assert a + b == b;
    } else {
      assert (a + b)[0] == a[0] != x;
      assert (a + b)[1..] == a[1..] + b;
      IndexOfAppend(a[1..], b, x);
    }
  }

  /** Membership after filtering: an element survives when it is in `s`
      and passes `f`. */
  lemma {:induction false} FilterMember<T>(s: seq<T>, f: T -> bool, x: T)
    ensures x in Filter(s, f) <==> x in s && f(x)
  {
    if s != [] {
      FilterMember(s[1..], f, x);
      assert s == [s[0]] + s[1..];
    }
  }

  /** Selects what passes both `f` and `g`. */
  function Both<T>(f: T -> bool, g: T -> bool): T -> bool {
    (x: T) => f(x) && g(x)
  }

  /** Filtering twice is filtering once by both conditions. */
  lemma {:induction false} FilterFilter<T>(s: seq<T>, f: T -> bool, g: T -> bool)
    ensures Filter(Filter(s, f), g) == Filter(s, Both(f, g))
  {
    if s != [] {
      FilterFilter(s[1..], f, g);
      if f(s[0]) {
        assert Filter(s, f) == [s[0]] + Filter(s[1..], f);
        assert ([s[0]] + Filter(s[1..], f))[1..] == Filter(s[1..], f);
      } else {
        assert Filter(s, f) == Filter(s[1..], f);
      }
    }
  }

  // ---------------------------------------------------------------------
  // Rows grouped by an owner key: `WHERE owner = k`, and the delete-then-
  // insert by which a service replaces one owner's rows.

  /** Selects the rows whose owner is `k`. */
  function OwnedBy<T>(owner: T -> int, k: int): T -> bool {
    (x: T) => owner(x) == k
  }

  /** Selects the rows whose owner is not `k`. */
  function NotOwnedBy<T>(owner: T -> int, k: int): T -> bool {
    (x: T) => owner(x) != k
  }

  /** The rows of owner `k`, in table order. */
  function Group<T>(s: seq<T>, owner: T -> int, k: int): seq<T> {
    Filter(s, OwnedBy(owner, k))
  }

  /** Every row of `added` belongs to `k`. */
  ghost predicate AllOwnedBy<T>(added: seq<T>, owner: T -> int, k: int) {
    forall i :: 0 <= i < |added| ==> owner(added[i]) == k
  }

  /** `DELETE ... WHERE owner = k` followed by inserting `added`. */
  function Replace<T>(s: seq<T>, owner: T -> int, k: int, added: seq<T>): (r: seq<T>)
    ensures |r| == |Filter(s, NotOwnedBy(owner, k))| + |added|
  {
    Filter(s, NotOwnedBy(owner, k)) + added
  }

  /** After a replace the rows of `k` are exactly the added rows at the end. */
  lemma ReplaceLast<T>(s: seq<T>, owner: T -> int, k: int, added: seq<T>)
    requires AllOwnedBy(added, owner, k)
    ensures forall i :: 0 <= i < |Replace(s, owner, k, added)| ==>
              (owner(Replace(s, owner, k, added)[i]) == k <==> i >= |Replace(s, owner, k, added)| - |added|)
  {
    var kept := Filter(s, NotOwnedBy(owner, k));
    var r := Replace(s, owner, k, added);
    forall i | 0 <= i < |r|
      ensures owner(r[i]) == k <==> i >= |r| - |added|
    {
      if i < |kept| {
        assert r[i] == kept[i] && NotOwnedBy(owner, k)(kept[i]);
      } else {
        assert r[i] == added[i - |kept|];
      }
    }
  }

  /** Rows that all belong to `k` form the whole of `k`'s group and no
      part of any other. */
  lemma {:induction false} GroupOfOwned<T>(added: seq<T>, owner: T -> int, k: int, j: int)
    requires AllOwnedBy(added, owner, k)
    ensures Group(added, owner, j) == if j == k then added else []
  {
    if added != [] {
      GroupOfOwned(added[1..], owner, k, j);
      assert added == [added[0]] + added[1..];
    }
  }

  /** Inserting rows for an owner without rows gives it exactly those rows
      and leaves every other owner's group as it was. */
  lemma AppendGroup<T>(s: seq<T>, owner: T -> int, k: int, added: seq<T>, j: int)
    requires AllOwnedBy(added, owner, k)
    requires Group(s, owner, k) == []
    ensures Group(s + added, owner, j) == if j == k then added else Group(s, owner, j)
  {
    FilterAppend(s, added, OwnedBy(owner, j));
    GroupOfOwned(added, owner, k, j);
    if j == k {
      assert [] + added == added;
    } else {
      assert Group(s, owner, j) + [] == Group(s, owner, j);
    }
  }

  /** After the replacement `k` owns exactly the inserted rows, whatever it
      owned before, and every other owner's group is untouched. */
  lemma ReplaceGroup<T>(s: seq<T>, owner: T -> int, k: int, added: seq<T>, j: int)
    requires AllOwnedBy(added, owner, k)
    ensures Group(Replace(s, owner, k, added), owner, j) == if j == k then added else Group(s, owner, j)
  {
    var kept := Filter(s, NotOwnedBy(owner, k));
    FilterAppend(kept, added, OwnedBy(owner, j));
    GroupOfOwned(added, owner, k, j);
    FilterCommute(s, NotOwnedBy(owner, k), OwnedBy(owner, j));
    var g := Group(s, owner, j);
    assert forall i :: 0 <= i < |g| ==> OwnedBy(owner, j)(g[i]);
    if j == k {
      FilterDropsAll(g, NotOwnedBy(owner, k));
      assert [] + added == added;
    } else {
      FilterKeepsAll(g, NotOwnedBy(owner, k));
      assert g + [] == g;
    }
  }

  /** Replacing an owner's rows twice with the same rows is replacing them once. */
  lemma ReplaceIdempotent<T>(s: seq<T>, owner: T -> int, k: int, added: seq<T>)
    requires AllOwnedBy(added, owner, k)
    ensures Replace(Replace(s, owner, k, added), owner, k, added) == Replace(s, owner, k, added)
  {
    var kept := Filter(s, NotOwnedBy(owner, k));
    assert forall i :: 0 <= i < |kept| ==> NotOwnedBy(owner, k)(kept[i]);
    FilterKeepsAll(kept, NotOwnedBy(owner, k));
    FilterDropsAll(added, NotOwnedBy(owner, k));
    FilterAppend(kept, added, NotOwnedBy(owner, k));
    assert kept + [] == kept;
  }

  /** Indexing and taking a prefix of `a` followed by the suffix of `s` from `j`,
      at a position past `a`. */
  lemma SpliceAt<T>(a: seq<T>, s: seq<T>, j: nat, k: nat)
    requires j <= |s|
    requires |a| <= k < |a| + |s| - j
    ensures (a + s[j..])[k] == s[j + k - |a|]
    ensures (a + s[j..])[..k + 1] == a + s[j..j + k - |a| + 1]
  {
    var n := j + k - |a| + 1;
    forall i | 0 <= i < k + 1
      ensures (a + s[j..])[..k + 1][i] == (a + s[j..n])[i]
    {
    }
  }

  /** In `a + b` with `b` starting with `x` and `x` not in `a`, the suffix
      from the first `x` is `b`. */
  lemma SuffixFromFirst<T>(a: seq<T>, b: seq<T>, x: T)
    requires x !in a && |b| > 0 && b[0] == x
    ensures x in a + b
    ensures (a + b)[IndexOf(a + b, x)..] == b
  {
    assert (a + b)[|a|] == x;
    IndexOfAppend(a, b, x);
    assert (a + b)[|a|..] == b;
  }
}

=== FILE: store.dfy ===
/** The store service (it has no `list`). */
module StoreService {
  import opened Php
  import opened Records

  /** `create($data)` with `id` the next auto-increment id: 400 for a falsy
      name or one over 64 code points; otherwise the row holds the name only. */
  function Create(tbl: Table, data: Record, id: int): (r: Result<Table>)
    requires id !in tbl
    ensures r.Fail? <==> Falsy(Get(data, "name")) || StrLen(Get(data, "name")) > 64
    ensures r.Fail? ==> r.status == BadRequest
    ensures r.Ok? ==> r.value.Keys == tbl.Keys + {id}
    ensures r.Ok? ==> forall k :: k in tbl ==> r.value[k] == tbl[k]
    ensures r.Ok? ==> r.value[id] == map["id" := Int(id), "name" := Get(data, "name")]
  {
    CreateRecord(tbl, id, map["name" := Get(data, "name")], NameOk(Get(data, "name"), 64))
  }

  /** `update($id, $data)`: 404 for an unknown id, 400 for an empty name or
      one over 64 code points, otherwise the merge. */
  function Update(tbl: Table, id: int, data: Record): (r: Result<Table>)
    ensures r.Fail? <==> id !in tbl || Falsy(Get(data, "name")) || StrLen(Get(data, "name")) > 64
    ensures r.Fail? ==> r.status == if id !in tbl then NotFound else BadRequest
    ensures r.Ok? ==> r.value == tbl[id := Merge(tbl[id], data)]
  {
    UpdateRecord(tbl, id, data, NameOk(Get(data, "name"), 64))
  }
}
